=== FILE: README.md ===
# CodeLab audio engine: a Dafny model

This project models the control logic of the CodeLab audio engine. The engine loads a
16-bit PCM WAV file into an `AudioData` buffer and runs handlers over it in a chain:

- an Opus encoder cuts the samples into 10 ms frames, encodes them and simulates packet
  loss, keeping each packet with its sequence number;
- an Opus decoder decodes the stored packets in order and conceals every gap in the
  sequence numbers with in-band FEC, deep redundancy (DRED) or blind packet-loss
  concealment (PLC);
- two rate converters (sonic and SoundTouch) push the samples through a time-stretching
  session in 1920-sample chunks and collect what it releases into an output of fixed size;
- a helper writes the buffer back out as a WAV file.

Opus, sonic and SoundTouch are foreign libraries. They appear as oracles: datatypes of
functions whose answers may depend on every call made before. The decoder's and
encoder's library state is therefore the list of calls made to them. The rate converters
share one abstract stream (`Stretch.StretchStream`): it accepts whole frames, releases
whatever an `emit` function of everything pushed so far says, and releases a `flushOut`
tail on flush.

Modules, one per component:

- `Ints`: fixed-width integers, C casts and truncating division, little-endian bytes.
- `WavFormat`: the 44-byte header, `readWAVHeader` and `readWAVData` over file bytes.
- `AudioBuffer`: `EncodedData` and the `AudioData` class.
- `AudioHelper`: the bytes `SaveAudioDataToWavFile` writes.
- `HandlerChain`: `AudioHandlerChain`.
- `Stretch`: chunking and the abstract time-stretching stream.
- `Accelerator`: the sonic driver.
- `SoundToucher`: the SoundTouch driver.
- `OpusEncoding`: the Opus encoding handler.
- `OpusDecoding`: the Opus decoding handler.
- `Pipeline`: encoder output fed to a fresh decoder.

Each class method is proved against a specification function of the inputs and the old
state. The properties the code promises are proved as lemmas about those functions.

## Model

| member | source | states |
|---|---|---|
| Ints.ToInt32 | engine/Codec/OpusDecoder.cpp:133 | storing into an `int` keeps the value modulo 2^32 and is the identity on the `int` range |
| Ints.ToUint32 | engine/Codec/OpusEncoder.cpp:113 | storing into a `uint32_t` keeps the value modulo 2^32 and is the identity on its range |
| Ints.CDiv | engine/Codec/OpusEncoder.cpp:87-88 | C division truncates toward zero: floor for a non-negative dividend, minus the floor of the negation for a negative one |
| Ints.Le16 | engine/AudioData/AudioData.h:15-16 | a 16-bit field is two bytes that decode back to the same value |
| Ints.Le32 | engine/AudioData/AudioData.h:11 | a 32-bit field is four bytes that decode back to the same value |
| Ints.Le16OfFromLe16 | engine/AudioData/AudioData.h:19-20 | any two bytes are the encoding of the 16-bit value they decode to |
| Ints.Le32OfFromLe32 | engine/AudioData/AudioData.h:17-18 | any four bytes are the encoding of the 32-bit value they decode to |
| Ints.SampleLe | engine/AudioHelper/AudioHelper.cpp:41 | a sample is written as two little-endian bytes that read back as the same sample |
| WavFormat.Serialize | engine/AudioData/AudioData.h:9-23 | the packed header is 44 bytes |
| WavFormat.SerializeFields | engine/AudioData/AudioData.h:9-23 | field widths 4,4,4,4,4,2,2,4,4,2,2,4,4 in declaration order, each field little-endian at its offset: "RIFF" at 0, "WAVE" at 8, "data" at 36 and `dataSize` at 40 |
| WavFormat.Deserialize | engine/AudioData/AudioData.cpp:56 | definition: the header a raw read of 44 bytes fills in, each field from its little-endian bytes at its offset (no contract; its meaning is stated by the two round-trip lemmas below) |
| WavFormat.SameFields | engine/AudioData/AudioData.h:9-23 | two 44-byte blocks that agree field by field are equal: the fields tile the header with no gap |
| WavFormat.DeserializeSerialize | engine/AudioData/AudioData.h:9-23 | parsing the 44 bytes of a header gives the header back |
| WavFormat.SerializeDeserialize | engine/AudioData/AudioData.h:9-23 | every 44-byte block is the image of the header parsed from it |
| WavFormat.ReadWavHeader | engine/AudioData/AudioData.cpp:50-68 | accepted iff 44 bytes are present with "RIFF" at 0 and "WAVE" at 8; no other field is checked; the header read is the one whose bytes those are |
| WavFormat.BodyByte | engine/AudioData/AudioData.cpp:78-80 | definition: byte p of the file where the file has one, else the 0 that `resize` put in the vector (no contract) |
| WavFormat.ReadWavData | engine/AudioData/AudioData.cpp:70-83 | `dataSize / 2` samples; sample k is the little-endian pair at 44 + 2k when the file holds both bytes, the low byte alone when the file ends between them, and 0 (the zero-fill of `resize`) when the file ends before it |
| WavFormat.ReadOverrunsIffOdd | engine/AudioData/AudioData.cpp:78-80 | for a file whose header is accepted, the read asks for more bytes than the vector holds exactly when byte 40, the low byte of `dataSize`, is odd, and then by one byte |
| WavFormat.Le32Parity | engine/AudioData/AudioData.cpp:78-80 | a little-endian 32-bit field is odd exactly when its low byte is |
| WavFormat.HalveDown | engine/AudioData/AudioData.cpp:78-80 | rounding a byte count down to whole 2-byte samples loses a byte exactly when the count is odd, and never more than one |
| WavFormat.ReadRequestAsWritten | engine/AudioData/AudioData.cpp:80 | definition: the source asks the stream for all `dataSize` bytes (no contract) |
| WavFormat.ReadCapacity | engine/AudioData/AudioData.cpp:78 | definition: the bytes of room after resizing to `dataSize / 2` samples (no contract) |
| WavFormat.ReadOverrunExample | engine/AudioData/AudioData.cpp:78-80 | `dataSize` 45: the vector holds 44 bytes and the read asks for 45 |
| WavFormat.ReadRequest | engine/AudioData/AudioData.cpp:78-80 | the corrected read asks for exactly the bytes of the samples held, never more than the room, and at most one byte less than the source asks for |
| WavFormat.LoadWav | engine/AudioData/AudioData.cpp:39-48 | a load succeeds iff the header check does, and then yields `dataSize / 2` samples |
| AudioBuffer.Without | engine/AudioData/AudioData.cpp:99-103 | removal never lengthens the list |
| AudioBuffer.WithoutMembers | engine/AudioData/AudioData.cpp:99-103 | an entry survives removal of `s` iff it was present and its number is not `s` |
| AudioBuffer.WithoutAppend | engine/AudioData/AudioData.cpp:99-103 | removal works entry by entry, keeping the survivors' order |
| AudioBuffer.WithoutAbsent | engine/AudioData/AudioData.cpp:99-103 | removing a number no entry carries changes nothing |
| AudioBuffer.PayloadSum | engine/AudioData/AudioData.cpp:110-115 | definition: the sum of the payload lengths, in list order (no contract; `PayloadSumAppend` and `GetEncodedDataSizeSum` state its use) |
| AudioBuffer.PayloadSumAppend | engine/AudioData/AudioData.cpp:110-115 | the payload total of two lists is the sum of their totals |
| AudioBuffer.AudioData.constructor | engine/AudioData/AudioData.cpp:5-68 | loads from the file's bytes: on an accepted header the header and samples are those `LoadWav` gives; on a rejected one the samples are empty; the header holds the file's first 44 bytes, or as many as the file has over the member's prior contents; the packet list starts empty |
| AudioBuffer.AudioData.GetDataSize | engine/AudioData/AudioData.cpp:23-25 | the number of samples, as an `unsigned int` |
| AudioBuffer.AudioData.GetDataPointer | engine/AudioData/AudioData.cpp:19-21 | null iff there are no samples, otherwise the samples |
| AudioBuffer.AudioData.GetSampleRate | engine/AudioData/AudioData.cpp:27-29 | the header's rate, the same value whenever it fits an `int` |
| AudioBuffer.AudioData.GetChannels | engine/AudioData/AudioData.cpp:31-33 | definition: the header's 16-bit channel count, which always fits the `int` returned (no contract) |
| AudioBuffer.AudioData.GetSampleSize | engine/AudioData/AudioData.cpp:35-37 | definition: the header's bits per sample, which always fits the `int` returned (no contract) |
| AudioBuffer.AudioData.UpdateData | engine/AudioData/AudioData.cpp:14-17 | the samples become the new vector and the size reports its length |
| AudioBuffer.AudioData.AddEncodedData | engine/AudioData/AudioData.cpp:87-96 | the packet is appended at the end, the earlier entries unchanged, and the payload total grows by its length |
| AudioBuffer.AudioData.RemoveEncodedData | engine/AudioData/AudioData.cpp:99-103 | every entry numbered `s` goes and the others stay in order |
| AudioBuffer.AudioData.GetEncodedDataSizeSum | engine/AudioData/AudioData.cpp:110-115 | the loop returns the sum of the payload lengths |
| AudioHelper.ByteRate | engine/AudioHelper/AudioHelper.cpp:27 | rate times channels times bits over 8 in 32-bit arithmetic, exact when the product fits |
| AudioHelper.BlockAlign | engine/AudioHelper/AudioHelper.cpp:28 | channels times bits over 8, exact when it fits 16 bits |
| AudioHelper.BuildHeader | engine/AudioHelper/AudioHelper.cpp:17-31 | the four tags, `subchunk1Size` 16, format 1, the buffer's channels, rate and bits, the formulas above, `dataSize = 2 * samples` and `chunkSize = 36 + dataSize` |
| AudioHelper.SampleBytes | engine/AudioHelper/AudioHelper.cpp:37-41 | the sample bytes are two per sample |
| AudioHelper.SampleBytesAt | engine/AudioHelper/AudioHelper.cpp:37-41 | sample k occupies bytes 2k and 2k+1, little-endian |
| AudioHelper.WrittenBody | engine/AudioHelper/AudioHelper.cpp:34-41 | the body written is `dataSize` bytes of the sample bytes; when `36 + 2 * samples` fits 32 bits that is every sample byte |
| AudioHelper.SampleReadBack | engine/AudioData/AudioData.cpp:70-83 | behind any 44-byte header with `dataSize = 2 * samples`, the read yields as many samples as were written and sample k comes back unchanged |
| AudioHelper.SamplesReadBack | engine/AudioData/AudioData.cpp:70-83 | the sample bytes read back as exactly the samples written |
| AudioHelper.WavFile | engine/AudioHelper/AudioHelper.cpp:34-41 | the file is the serialised header followed by the sample bytes, `chunkSize + 8` bytes in all |
| AudioHelper.WavFileRoundTrip | engine/AudioHelper/AudioHelper.cpp:17-41 | a file written here passes the header check and reads back as the same header and exactly the same samples |
| HandlerChain.StateAfterAppend | engine/HandlerChain/AudioHandlerChain.cpp:4-6 | appending a handler does not change what the earlier handlers see |
| HandlerChain.AppendPasses | engine/HandlerChain/AudioHandlerChain.cpp:9-14 | a chain with one more handler passes iff the old chain passes and the new handler passes on the old chain's final state |
| HandlerChain.StateAfter | engine/HandlerChain/AudioHandlerChain.cpp:9-14 | definition: the state once the first k handlers have run, each on what the previous one left (no contract) |
| HandlerChain.Passes | engine/HandlerChain/AudioHandlerChain.cpp:10-11 | definition: handler k reports success on the state it is handed (no contract) |
| HandlerChain.AudioHandlerChain.constructor | engine/HandlerChain/AudioHandlerChain.h:8-15 | a chain starts empty |
| HandlerChain.AudioHandlerChain.AddHandler | engine/HandlerChain/AudioHandlerChain.cpp:4-6 | the handler is appended at the end, the earlier order kept |
| HandlerChain.AudioHandlerChain.Process | engine/HandlerChain/AudioHandlerChain.cpp:8-15 | handlers run in order; true iff every handler passes (an empty chain passes); on a failure it stops at the failing one; the state is what the handlers that ran made of it |
| Stretch.ChunkLength | engine/Accelerator/Accelerator.cpp:26-32 | zero once the input is used up, otherwise `min(1920, remaining)`, so between 1 and 1920 |
| Stretch.ChunkIndex | engine/Accelerator/Accelerator.cpp:26-32 | chunk k starts inside the input iff k is below the number of chunks, and the last offset is the input size |
| Stretch.Chunk | engine/Accelerator/Accelerator.cpp:37 | every chunk pushed holds between 1 and 1920 samples |
| Stretch.ChunksArePrefix | engine/Accelerator/Accelerator.cpp:37-38 | the first k chunks are the input's first `min(1920k, n)` samples, in order |
| Stretch.ChunksCoverInput | engine/Accelerator/Accelerator.cpp:37-38 | all the chunks together are exactly the input |
| Stretch.WholeFrames | engine/Accelerator/Accelerator.cpp:39 | a push keeps the chunk's whole frames, dropping fewer than `channels` trailing samples |
| Stretch.FramesFit | engine/Accelerator/Accelerator.cpp:39 | `size / channels` frames fit the chunk, and those frames are its whole-frame prefix |
| Stretch.WholeFramesOfMultiple | engine/Accelerator/Accelerator.cpp:39 | a chunk of whole frames is pushed entirely |
| Stretch.ChunkLengthWholeFrames | engine/Accelerator/Accelerator.cpp:28-31 | with whole-frame input and a channel count dividing 1920, every chunk is whole frames |
| Stretch.PushedAllInput | engine/Accelerator/Accelerator.cpp:37-39 | then what the session received is exactly the input |
| Stretch.PushedUpTo | engine/Accelerator/Accelerator.cpp:37-39 | definition: what the session has been handed after k pushes, each chunk's whole frames in order (no contract; `PushStep` and `PushedAllInput` state its properties) |
| Stretch.EmittedUpTo | engine/Accelerator/Accelerator.cpp:37-45 | definition: what the session has released after k pushes, each push releasing what `emit` gives for everything pushed before and the frames pushed now (no contract) |
| Stretch.Released | engine/Accelerator/Accelerator.cpp:26-54 | definition: everything a complete session releases, all pushes then the flush tail (no contract) |
| Stretch.PushStep | engine/Accelerator/Accelerator.cpp:37-39 | pushing chunk k adds exactly its whole frames to what the session received, and what it emits for them to what it released |
| Stretch.CopyInto | engine/Accelerator/Accelerator.cpp:49 | the block lands at the given index and nothing else changes |
| Stretch.StretchStream.constructor | engine/Accelerator/Accelerator.cpp:22-23 | a new session has received, queued and released nothing |
| Stretch.StretchStream.Write | engine/Accelerator/Accelerator.cpp:39 | `frames * channels` samples are pushed and whatever the session emits for them is queued |
| Stretch.StretchStream.Flush | engine/Accelerator/Accelerator.cpp:35 | the flushed tail is queued; the flush count goes up by one |
| Stretch.StretchStream.Read | engine/Accelerator/Accelerator.cpp:45 | returns `max(0, min(request, queued frames))` frames, the oldest queued samples, removing them from the queue |
| Stretch.WriteChunk | engine/Accelerator/Accelerator.cpp:37-39 | pushing chunk k moves the session from the first k chunks to the first k+1 |
| Accelerator.AudioAccelerator.constructor | engine/Accelerator/Accelerator.cpp:143-144 | the push counter starts at 0 |
| Accelerator.AudioAccelerator.Feed | engine/Accelerator/Accelerator.cpp:26-42 | `shortsToRead` is the chunk length; 0 means everything was pushed and the session is flushed, once; otherwise exactly one more chunk is pushed and counted |
| Accelerator.AudioAccelerator.Push | engine/Accelerator/Accelerator.cpp:36-40 | the next chunk is copied and pushed as whole frames, `inputedShorts` advances by its length, the counter by one |
| Accelerator.AudioAccelerator.Drain | engine/Accelerator/Accelerator.cpp:44-54 | reads until a read returns nothing; copies a block only when it fits and always counts it in `outputedShorts`; the written prefix is what was received, all of it unless the output overflowed, and then it stops less than one block (1920 samples) short of the output's end |
| Accelerator.AudioAccelerator.RunSonic | engine/Accelerator/Accelerator.cpp:13-57 | one push per chunk; what was received plus the leftover is everything the session released after all chunks and the flush; no write at or past `outputSize`; the written prefix equals what was received, all of it when it fits, and otherwise reaches within one block of `outputSize` |
| Accelerator.AudioAccelerator.HandleAudioData | engine/Accelerator/Accelerator.cpp:149-174 | the samples become an output of the precomputed size: the released samples, all of them when they fit and otherwise up to less than one block from the end, then zeros |
| SoundToucher.Saturate | engine/SoundToucher/SoundToucher.cpp:10-21 | the result lies in `[minval, maxval]`, equals the input when in range, and testing the upper bound first decides ties when the bounds cross |
| SoundToucher.SaturateMonotone | engine/SoundToucher/SoundToucher.cpp:10-21 | the clamp keeps order |
| SoundToucher.SaturateIdempotent | engine/SoundToucher/SoundToucher.cpp:10-21 | clamping twice is clamping once |
| SoundToucher.ToSample | engine/SoundToucher/SoundToucher.cpp:60 | a written sample is the received value clamped to [-32768, 32767] |
| SoundToucher.Saturated | engine/SoundToucher/SoundToucher.cpp:59-61 | (definition) the clamped image of a received block, one sample for each; its length is the block's |
| SoundToucher.SaturatedAppend | engine/SoundToucher/SoundToucher.cpp:59-61 | clamping works block by block: the clamp of two blocks is the two clamps in order |
| SoundToucher.Widen | engine/SoundToucher/SoundToucher.cpp:45-47 | (definition) the staging buffer's view of the input, one value per sample; its length is the input's |
| SoundToucher.WriteSaturated | engine/SoundToucher/SoundToucher.cpp:59-61 | the block lands clamped at `outputIndex` and nothing else changes |
| SoundToucher.AudioSoundToucher.constructor | engine/SoundToucher/SoundToucher.cpp:23-24 | the push counter starts at 0 |
| SoundToucher.AudioSoundToucher.DrainBounded | engine/SoundToucher/SoundToucher.cpp:52-64 | receives until nothing comes back; stops before writing a block that would pass `outputSize`; `outputIndex` grows by exactly each written block and never passes `outputSize` |
| SoundToucher.AudioSoundToucher.AppendSaturated | engine/SoundToucher/SoundToucher.cpp:59-63 | a received block is written clamped right after the samples already written, which keep their values; the rest of the output is untouched |
| SoundToucher.AudioSoundToucher.LoadChunk | engine/SoundToucher/SoundToucher.cpp:45-47 | the staging buffer holds chunk k of the widened input |
| SoundToucher.AudioSoundToucher.PushChunks | engine/SoundToucher/SoundToucher.cpp:43-64 | the main loop pushes the chunks in order and drains after each; the output prefix is the clamped received samples; it completes with every chunk pushed and everything received written, or stops when a block would overflow the output |
| SoundToucher.AudioSoundToucher.RunSoundTouch | engine/SoundToucher/SoundToucher.cpp:28-80 | chunks cover the input in order; the written prefix is the clamped received samples; an overflow returns at once, skipping the flush if it happens in the main loop; a completed run wrote everything released after all chunks and the flush |
| SoundToucher.AudioSoundToucher.Drive | engine/SoundToucher/SoundToucher.cpp:36-79 | with the session open: the same outcomes as `RunSoundTouch`, stated over the session's channel count and transform |
| SoundToucher.AudioSoundToucher.FlushAndDrain | engine/SoundToucher/SoundToucher.cpp:67-79 | after every chunk is pushed, the flush releases the transform's remainder; the final drain either writes everything received or stops at a block that would overflow the output, leaving the written prefix clamped and the rest of the output untouched |
| SoundToucher.AudioSoundToucher.HandleAudioData | engine/SoundToucher/SoundToucher.cpp:82-107 | the samples become an output of the precomputed size: the clamped received samples, then zeros; received, the block that did not fit and the leftover together are everything released after all chunks and the flush, or after the chunks pushed when the main loop returned early; that block is 1 to 1920 samples and would have passed the output's end |
| OpusEncoding.InitCtlsGuards | engine/Codec/OpusEncoder.cpp:34-54 | bitrate first; signal auto always; complexity set iff it is in [0, 10]; FEC on and the loss percentage set iff loss > 0; DRED set iff its duration > 0; every such setting carries the configured value |
| OpusEncoding.InitCtlsMembers | engine/Codec/OpusEncoder.cpp:34-54 | a setting is applied iff it is the bitrate, the signal, or one of the optional settings whose guard holds |
| OpusEncoding.InitCtls | engine/Codec/OpusEncoder.cpp:34-54 | definition: the settings `initialize` applies, in source order (no contract; `InitCtlsGuards` and `InitCtlsMembers` state what it holds) |
| OpusEncoding.TenMillisecondFrames | engine/Codec/OpusEncoder.cpp:87-90 | with the default period a frame is 10 ms: a hundredth of the rate |
| OpusEncoding.SamplesPerFrame | engine/Codec/OpusEncoder.cpp:87-88 | definition: the rate divided by the frames per second, both in C integer division (no contract; `TenMillisecondFrames` states its value) |
| OpusEncoding.NumFrames | engine/Codec/OpusEncoder.cpp:97 | definition: `ceil(n / frameShorts)`, the number of loop passes (no contract; `FrameIndex` and `FrameStep` state that the loop runs that often) |
| OpusEncoding.FrameIndex | engine/Codec/OpusEncoder.cpp:97-98 | frame k starts inside the input iff k is below `ceil(n / frameShorts)`, and the loop ends with `offset == inputSize` |
| OpusEncoding.FrameStep | engine/Codec/OpusEncoder.cpp:97-119 | the loop runs while frames remain; the offset starts at 0, is `k * frameShorts` at frame k, and advancing by the chunk size reaches the start of frame k+1 or the input end |
| OpusEncoding.FramePcm | engine/Codec/OpusEncoder.cpp:98-106 | every frame encoded is `frameShorts` samples: the input's samples, then zeros for a short last chunk |
| OpusEncoding.OnlyLastFramePadded | engine/Codec/OpusEncoder.cpp:100-106 | every frame but the last is taken straight from the input |
| OpusEncoding.EncodePacket | engine/Codec/OpusEncoder.cpp:58-72 | capacity `frameSize * channels * 4`; fails with the code iff the library returns a negative count; otherwise exactly that many bytes, the ones the library wrote |
| OpusEncoding.EncodeFrom | engine/Codec/OpusEncoder.cpp:92-120 | definition: the run of the framing loop from frame k, each frame encoded then kept under number k+1 or counted lost, the first encode error ending it (no contract; the `EncodeFrom*` and `Kept*` lemmas state its properties) |
| OpusEncoding.KeptFrom | engine/Codec/OpusEncoder.cpp:112-118 | kept sequence numbers are strictly increasing and lie in `(k, count]` |
| OpusEncoding.EncodeFromKeeps | engine/Codec/OpusEncoder.cpp:93-119 | a successful run keeps exactly the frames whose draw reaches the loss, under number k+1 for frame k; kept plus lost is the frame count; one encoder call per frame |
| OpusEncoding.EncodeFromOrdered | engine/Codec/OpusEncoder.cpp:93-118 | the stored sequence numbers are strictly increasing and lie in `[1, number of frames]` |
| OpusEncoding.EncodeFromStep | engine/Codec/OpusEncoder.cpp:98-118 | a run from frame k is frame k kept (numbered k+1) or counted lost, followed by the run from frame k+1 after one more encoder call |
| OpusEncoding.EncodeFromAdvance | engine/Codec/OpusEncoder.cpp:108-118 | the loop invariant carried over one encoded frame: it joins the kept packets iff its draw reaches the loss, else the loss count |
| OpusEncoding.EncodeFromFails | engine/Codec/OpusEncoder.cpp:65-67 | a frame whose encode throws ends the run with that error |
| OpusEncoding.NoLossKeepsAll | engine/Codec/OpusEncoder.cpp:110-116 | loss 0 keeps every frame |
| OpusEncoding.FullLossDropsAll | engine/Codec/OpusEncoder.cpp:110-116 | loss 100 or more drops every frame |
| OpusEncoding.KeptIff | engine/Codec/OpusEncoder.cpp:112 | frame j is kept iff its draw is at least the loss percentage |
| OpusEncoding.OpusEncoder.constructor | engine/Codec/OpusEncoder.cpp:8-15 | no encoder yet, capacity 4000, complexity 0, loss 0, bitrate auto, DRED 0 |
| OpusEncoding.OpusEncoder.SetComplexity | engine/Codec/OpusEncoder.cpp:137-139 | stores the complexity |
| OpusEncoding.OpusEncoder.SetPacketLoss | engine/Codec/OpusEncoder.cpp:141-143 | stores the loss percentage |
| OpusEncoding.OpusEncoder.SetBitRate | engine/Codec/OpusEncoder.cpp:145-147 | stores the bitrate |
| OpusEncoding.OpusEncoder.SetDredDuration | engine/Codec/OpusEncoder.cpp:149-151 | stores the DRED duration |
| OpusEncoding.OpusEncoder.Destroy | engine/Codec/OpusEncoder.cpp:130-135 | the encoder is released if it exists |
| OpusEncoding.OpusEncoder.Initialize | engine/Codec/OpusEncoder.cpp:21-56 | records the parameters; fails iff the encoder cannot be created; otherwise the encoder has received exactly the guarded settings |
| OpusEncoding.OpusEncoder.Encode | engine/Codec/OpusEncoder.cpp:58-72 | resets the capacity to `frameSize * channels * 4` and returns the packet the library produced, or its error |
| OpusEncoding.OpusEncoder.EncodeChunk | engine/Codec/OpusEncoder.cpp:98-106 | one loop pass: chunk size `min(frameShorts, remaining)` and the packet of the padded frame |
| OpusEncoding.OpusEncoder.EncodeNext | engine/Codec/OpusEncoder.cpp:98-118 | one pass: the error of a failed encode, or the chunk size with the frame stored under `seqNum` or counted lost, as the run specification says |
| OpusEncoding.OpusEncoder.EncodeFrames | engine/Codec/OpusEncoder.cpp:92-120 | the loop appends exactly the packets of the run specification to the list, or fails as it does |
| OpusEncoding.OpusEncoder.HandleAudioData | engine/Codec/OpusEncoder.cpp:74-128 | creates the encoder on first use; frames of a hundredth of the rate times channels; the packet list grows by the run's kept packets; an empty buffer adds nothing |
| OpusDecoding.DecodeSpecShape | engine/Codec/OpusDecoder.cpp:49-61 | one decode with capacity `5760 * channels`; fails iff the library returns a negative frame size; otherwise `frameSize * channels` samples, a multiple of the channel count |
| OpusDecoding.DecodeSpec | engine/Codec/OpusDecoder.cpp:49-61 | definition: one library decode of the packet with capacity `5760 * channels`, recorded in the call history (no contract; `DecodeSpecShape` states its shape) |
| OpusDecoding.DredRequest | engine/Codec/OpusDecoder.cpp:75-76 | the DRED span asked for lies in [0, 48000]: it is `lostCnt * duration` when that is in range, 48000 when the product is larger, and 0 when it is negative |
| OpusDecoding.ConcealStep | engine/Codec/OpusDecoder.cpp:83-98 | definition: the strategy and library call for lost frame r (no contract; `StrategyPriority` states the priority) |
| OpusDecoding.ConcealFrom | engine/Codec/OpusDecoder.cpp:82-104 | definition: the concealment of lost frames r onwards, each step's call seen by the next (no contract; `ConcealFromSteps` and `ConcealFromWholeFrames` state its properties) |
| OpusDecoding.FillGapSpec | engine/Codec/OpusDecoder.cpp:63-107 | definition: `fillGap`, the DRED parse then the concealment of `gap - 1` frames (no contract; `OpusDecoder.FillGap` is proved against it) |
| OpusDecoding.ConcealFromSteps | engine/Codec/OpusDecoder.cpp:82-99 | exactly `gap - 1` iterations, each one library call and one strategy, chosen from the calls made so far |
| OpusDecoding.ConcealFromWholeFrames | engine/Codec/OpusDecoder.cpp:101-103 | concealed output is always whole frames: its length is a multiple of the channel count |
| OpusDecoding.StrategyPriority | engine/Codec/OpusDecoder.cpp:83-98 | FEC iff it is the newest lost frame and the packet has LBRR; else DRED iff the parse found samples; else PLC; DRED frame j asks for `lostCnt - j` durations back, a multiplier falling from `lostCnt` to 1 |
| OpusDecoding.AtMostOneFec | engine/Codec/OpusDecoder.cpp:83-87 | at most one FEC frame per gap, and only the newest lost frame |
| OpusDecoding.CountsPartition | engine/Codec/OpusDecoder.cpp:85-95 | every concealed frame is counted under exactly one strategy |
| OpusDecoding.Gap | engine/Codec/OpusDecoder.cpp:133 | the gap is the plain difference when the sequence number is below 2^31 and `lastDecodeSeqNo` is non-negative (it starts at 0 and then holds the last sequence number decoded) |
| OpusDecoding.DecodeOne | engine/Codec/OpusDecoder.cpp:132-149 | definition: one pass of `decodeAll` over a packet (no contract; `ConsecutiveIsPlain`, `GapIsFilledThenDecoded` and `OutOfOrderStops` state its three cases) |
| OpusDecoding.DecodeAllSpec | engine/Codec/OpusDecoder.cpp:109-153 | definition: `decodeAll` over the list, output in list order, stopping at the first error (no contract; the lemmas below state its properties) |
| OpusDecoding.ConsecutiveIsPlain | engine/Codec/OpusDecoder.cpp:132-136 | consecutive numbers after `lastDecodeSeqNo`: no gap is filled, the output is each packet's decode in list order, the counters stay, and the last number is remembered |
| OpusDecoding.GapIsFilledThenDecoded | engine/Codec/OpusDecoder.cpp:137-143 | a packet ahead by more than one contributes the gap's concealment followed by its own decode, and fails if either fails |
| OpusDecoding.OutOfOrderStops | engine/Codec/OpusDecoder.cpp:145-148 | a packet that is not ahead of `lastDecodeSeqNo` stops the run with the out-of-order exit |
| OpusDecoding.OneThreeTwoFails | engine/Codec/OpusDecoder.cpp:132-149 | the list 1, 3, 2 always fails, on the third packet as out of order when the first two decode |
| OpusDecoding.SuccessMeansIncreasing | engine/Codec/OpusDecoder.cpp:149 | a successful run saw strictly increasing numbers above the starting one and ends with the last of them as `lastDecodeSeqNo` |
| OpusDecoding.CountersCountMissing | engine/Codec/OpusDecoder.cpp:133-149 | over a successful run the three counters together grow by the number of missing sequence numbers |
| OpusDecoding.OutputIsWholeFrames | engine/Codec/OpusDecoder.cpp:132-143 | every decoded output is a multiple of the channel count |
| OpusDecoding.DecodeOneWholeFrames | engine/Codec/OpusDecoder.cpp:132-143 | one packet's contribution, gap fill and decode, is whole frames |
| OpusDecoding.IncreasingNeverOutOfOrder | engine/Codec/OpusDecoder.cpp:133-148 | increasing numbers above `lastDecodeSeqNo` never reach the out-of-order exit |
| OpusDecoding.InitResult | engine/Codec/OpusDecoder.cpp:23-47 | `initialize` succeeds iff the decoder, the DRED decoder and the DRED state can all be created |
| OpusDecoding.OpusDecoder.constructor | engine/Codec/OpusDecoder.cpp:9-17 | no library objects, `lastDecodeSeqNo` 0, complexity, rate, channels and all three counters 0 |
| OpusDecoding.OpusDecoder.SetComplexity | engine/Codec/OpusDecoder.cpp:194-196 | stores the complexity |
| OpusDecoding.OpusDecoder.Initialize | engine/Codec/OpusDecoder.cpp:23-47 | records rate and channels; fails at the first object that cannot be created; on success all three exist and the decoder has only had its complexity set |
| OpusDecoding.OpusDecoder.Destroy | engine/Codec/OpusDecoder.cpp:177-192 | releases whichever of the three objects exist |
| OpusDecoding.OpusDecoder.Decode | engine/Codec/OpusDecoder.cpp:49-61 | returns the decode specification's samples and call list, or its error |
| OpusDecoding.OpusDecoder.RecoverFrame | engine/Codec/OpusDecoder.cpp:83-103 | one iteration: the prioritised strategy's call, its counter up by one, samples only for a positive count |
| OpusDecoding.OpusDecoder.RecoverNext | engine/Codec/OpusDecoder.cpp:83-103 | one iteration carries the loop invariant: output and strategies so far plus the rest of the concealment are the whole concealment, and each counter counts its strategy |
| OpusDecoding.OpusDecoder.RecoverAll | engine/Codec/OpusDecoder.cpp:82-104 | the loop produces the concealment specification's samples and calls, and each counter grows by the frames concealed with its strategy |
| OpusDecoding.OpusDecoder.FillGap | engine/Codec/OpusDecoder.cpp:63-107 | a negative DRED parse is an error; otherwise the concealment of `gap - 1` frames with the counters updated |
| OpusDecoding.OpusDecoder.DecodeNext | engine/Codec/OpusDecoder.cpp:133-149 | one pass over a packet: decode, fill then decode, or the out-of-order exit, then remember its number |
| OpusDecoding.OpusDecoder.DecodeAll | engine/Codec/OpusDecoder.cpp:109-153 | the loop returns the run specification's output and leaves the decoder in its final state, or fails as it does |
| OpusDecoding.OpusDecoder.HandleAudioData | engine/Codec/OpusDecoder.cpp:155-175 | creates the library objects on first use from the buffer's rate and channels; the samples become the decode of the stored packets |
| Pipeline.KeptLast | engine/Codec/OpusEncoder.cpp:112-118 | when the last frame is kept it carries the highest sequence number |
| Pipeline.EncodedRunDecodes | engine/Codec/OpusDecoder.cpp:132-149 | an encoder run's packets never trigger the out-of-order exit of a fresh decoder; if the last frame is kept and all decode, the decoder conceals exactly as many frames as the encoder dropped |

## Left out

- Library internals: Opus encoding and decoding, PLC synthesis, DRED parsing and decoding, and the sonic and SoundTouch time-stretching are oracles. Their return values and the samples they write are inputs to the model.
- Floating point: `speed`, the output size `ceil(inputSize / speed)`, the SoundTouch `1/32768` scaling and the float-to-int cast in `saturate`. The output size is a parameter and `saturate` is an integer clamp. The SoundTouch session works on the integers the rescaling gives back.
- Randomness: the `mt19937` draws are a function from frame index to draw.
- AudioBuffer.AudioData.constructor: a file that cannot be opened is not modelled (the file is given as its bytes); the source then keeps the header's prior contents and an empty sample vector.
- File and console I/O: opening, reading and writing streams, and all logging and timing. `loadFromFile` and `SaveAudioDataToWavFile` are modelled on the file's bytes.
- `AppendAudioDataToWavFile` in engine/Accelerator/Accelerator.cpp: a debugging file writer that nothing calls.
- The CoreAudio player, the command-line front end and the speex jitter-buffer probe are not part of this model.
- The commented-out tail probe in `decodeAll` is not modelled.
- `exit(1)` on an out-of-order packet and the thrown exceptions become error results. The model says nothing about the handler's state after an error, since the program ends there.
- OpusDecoding.FillGapSpec: `lostCnt * duration` is computed over unbounded integers. The source's signed `int` product could overflow for gaps above about 2^31 / 5760; the clamp to [0, 48000] is applied to the exact product.
- OpusDecoding.ConcealStep: the DRED offset `(lostCnt - r) * duration` is likewise an exact product, where the source's signed `int` product could overflow for the same huge gaps.
- AudioHelper.BlockAlign: `numChannels * bitsPerSample` is an exact product. In the source the two `uint16_t` fields promote to `int`, and a product above 2^31 - 1 (both fields near 65535) is undefined behaviour, which the model does not represent.
- OpusDecoding.Samples: a concealed frame contributes exactly the samples the library wrote for it. The source's read past a `maxFrameSize * channels` buffer, for a count larger than the buffer, is not modelled.
- OpusDecoding.OpusDecoder.Initialize: the channel count is a `nat`. The handler always passes the header's unsigned 16-bit value; a negative count from another caller is not modelled.
- OpusDecoding.OpusDecoder.HandleAudioData: requires that a created decoder also has its DRED objects. This holds in every run of the program, because a failed `initialize` throws.
- OpusEncoding.OpusEncoder.HandleAudioData: requires a positive frame length for non-empty input. With a zero frame length (a rate below 100 Hz, or a buffer with 0 channels) the source's loop makes no progress: it never ends unless an encode fails and throws, which the model cannot express.
- OpusEncoding.OpusEncoder.HandleAudioData: requires fewer than 2^31 samples, so `getDataSize()` fits the `int` it is stored in.
- OpusEncoding.EncodePacket: the library reads `frameSize * mNumChannels` samples per frame, while the loop offers a `frameShorts = frameSize * getChannels()` window. The two agree when the buffer has as many channels as the encoder was created with, as on the call that creates it. For a later buffer with a different channel count the source reads past or short of the window; the model hands the library the window.
- Accelerator.AudioAccelerator.HandleAudioData and SoundToucher.AudioSoundToucher.HandleAudioData: require a positive channel count and fewer than 2^31 samples. With 0 channels the source divides by zero.
- Stretch.StretchStream.Read: the block a read returns is the oldest queued whole frames. How many frames the session releases when is left to the `emit` and `flushOut` functions.
- The 1920-sample staging arrays `inBuffer`, `outBuffer` and the SoundTouch `buffer` are sequences. The model does not capture their reuse across iterations.

## Findings

| source | as written | input that shows it | evidently intended | confidence | as-written member | corrected member |
|---|---|---|---|---|---|---|
| engine/AudioData/AudioData.cpp:78-80 | the vector is resized to `dataSize / 2` samples, then `dataSize` bytes are read into it | a header with an odd `dataSize`, e.g. 45: 44 bytes of room, 45 bytes read, one byte past the vector | read only the bytes of the whole samples held, `2 * (dataSize / 2)` | not executed | WavFormat.ReadOverrunExample | WavFormat.ReadRequest |

=== FILE: accelerator.dfy ===
/** The sonic-based rate converter: `RunSonic` pushes 1920-sample chunks into a sonic
    stream, drains it after every push, then flushes once and drains again. A drained
    block is copied only if it fits in the output; the count of drained samples goes on
    growing either way. */
module Accelerator {
  import opened Ints
  import opened Stretch
  import opened AudioBuffer

  class AudioAccelerator {
    /** Number of pushes made over the handler's lifetime. */
    var putCounts: nat

    constructor ()
      ensures putCounts == 0
    {
      putCounts := 0;
    }

    /** One step of `RunSonic`'s outer loop before the drain: work out `shortsToRead`;
        flush when the input is used up, otherwise push the next chunk's whole frames. */
    method Feed(stream: StretchStream<int16>, input: seq<int16>, inputedShorts0: nat, ghost pushes0: nat)
      returns (shortsToRead: nat, inputedShorts: nat, ghost pushes: nat)
      requires stream.Valid() && stream.flushes == 0
      requires pushes0 <= NumChunks(|input|) && inputedShorts0 == Min(pushes0 * BUFFER_SIZE, |input|)
      requires stream.pushed == PushedUpTo(input, stream.channels, pushes0)
      requires stream.released == EmittedUpTo(input, stream.channels, stream.emit, pushes0)
      modifies this`putCounts, stream
      ensures stream.Valid() && stream.received == old(stream.received)
      ensures shortsToRead == ChunkLength(|input|, inputedShorts0) && shortsToRead <= BUFFER_SIZE
      ensures pushes <= NumChunks(|input|) && inputedShorts == Min(pushes * BUFFER_SIZE, |input|)
      ensures stream.pushed == PushedUpTo(input, stream.channels, pushes)
      ensures shortsToRead == 0 ==> pushes == pushes0 == NumChunks(|input|) && stream.flushes == 1
      ensures shortsToRead == 0 ==> stream.released == Released(input, stream.channels, stream.emit, stream.flushOut)
      ensures shortsToRead > 0 ==> pushes == pushes0 + 1 && inputedShorts == inputedShorts0 + shortsToRead
      ensures shortsToRead > 0 ==> stream.flushes == 0
      ensures shortsToRead > 0 ==> stream.released == EmittedUpTo(input, stream.channels, stream.emit, pushes)
      ensures putCounts == old(putCounts) + (pushes - pushes0)
    {
      var n := |input|;
      var numChannels := stream.channels;
      ChunkIndex(n, pushes0);
      inputedShorts, pushes := inputedShorts0, pushes0;
      if inputedShorts >= n {
        shortsToRead := 0;
      } else if n - inputedShorts < BUFFER_SIZE {
        shortsToRead := n - inputedShorts;
      } else {
        shortsToRead := BUFFER_SIZE;
      }

      if shortsToRead == 0 {
        stream.Flush();
      } else {
        inputedShorts, pushes := Push(stream, input, inputedShorts, pushes);
      }
    }

    /** The push half of `Feed`: hand the chunk starting at `inputedShorts0` to the stream,
        as whole frames, and count the push. */
    method Push(stream: StretchStream<int16>, input: seq<int16>, inputedShorts0: nat, ghost pushes0: nat)
      returns (inputedShorts: nat, ghost pushes: nat)
      requires stream.Valid() && stream.flushes == 0
      requires pushes0 < NumChunks(|input|) && inputedShorts0 == pushes0 * BUFFER_SIZE
      requires stream.pushed == PushedUpTo(input, stream.channels, pushes0)
      requires stream.released == EmittedUpTo(input, stream.channels, stream.emit, pushes0)
      modifies this`putCounts, stream
      ensures stream.Valid() && stream.received == old(stream.received) && stream.flushes == 0
      ensures pushes == pushes0 + 1 && inputedShorts == inputedShorts0 + ChunkLength(|input|, inputedShorts0)
      ensures inputedShorts == Min(pushes * BUFFER_SIZE, |input|)
      ensures stream.pushed == PushedUpTo(input, stream.channels, pushes)
      ensures stream.released == EmittedUpTo(input, stream.channels, stream.emit, pushes)
      ensures putCounts == old(putCounts) + 1
    {
      var shortsToRead := ChunkLength(|input|, inputedShorts0);
      var inBuffer := input[inputedShorts0 .. inputedShorts0 + shortsToRead];
      assert inBuffer == Chunk(input, pushes0);
      inputedShorts := inputedShorts0 + shortsToRead;
      // |inBuffer| == shortsToRead, so this pushes the source's `shortsToRead / numChannels` frames
      WriteChunk(stream, input, pushes0, inBuffer);
      putCounts := putCounts + 1;
      pushes := pushes0 + 1;
    }

    /** The inner drain loop of `RunSonic`: read up to `BUFFER_SIZE / channels` frames
        until a read returns nothing; copy a block only if it fits, count it regardless. */
    method Drain(stream: StretchStream<int16>, output: array<int16>, outputed0: nat, ghost written0: nat)
      returns (outputed: nat, ghost written: nat)
      requires stream.Valid() && outputed0 == |stream.received|
      requires written0 <= output.Length && written0 <= outputed0
      requires written0 == outputed0 || (outputed0 > output.Length && output.Length < written0 + BUFFER_SIZE)
      requires output[..written0] == stream.received[..written0]
      modifies stream, output
      ensures stream.Valid()
      ensures stream.pushed == old(stream.pushed) && stream.released == old(stream.released)
      ensures stream.flushes == old(stream.flushes)
      ensures |stream.queue| < stream.channels || stream.channels > BUFFER_SIZE
      ensures outputed == |stream.received|
      ensures written0 <= written <= output.Length && written <= outputed
      ensures written == outputed || (outputed > output.Length && output.Length < written + BUFFER_SIZE)
      ensures output[..written] == stream.received[..written]
      ensures output[written..] == old(output[written..])
    {
      outputed, written := outputed0, written0;
      var numChannels := stream.channels;
      while true
        invariant stream.Valid()
        invariant stream.pushed == old(stream.pushed) && stream.released == old(stream.released)
        invariant stream.flushes == old(stream.flushes)
        invariant outputed == |stream.received|
        invariant written0 <= written <= output.Length && written <= outputed
        invariant written == outputed || (outputed > output.Length && output.Length < written + BUFFER_SIZE)
        invariant output[..written] == stream.received[..written]
        invariant output[written..] == old(output[written..])
        decreases |stream.queue|
      {
        var samplesWritten, outBuffer := stream.Read(BUFFER_SIZE / numChannels);
        if samplesWritten > 0 {
          var shortsToWrite := samplesWritten * numChannels;
          BlockBound(samplesWritten, numChannels);
          if outputed + shortsToWrite <= output.Length {
            CopyInto(output, outputed, outBuffer);
            written := outputed + shortsToWrite;
          }
          outputed := outputed + shortsToWrite;
        }
        if samplesWritten <= 0 {
          break;
        }
      }
    }

    /** `RunSonic`. `outputed` is the driver's `outputedShorts`; `written` is the length
        of the output prefix actually filled; `received` is everything drained and
        `leftover` what the stream still held at the end. */
    method RunSonic(input: seq<int16>, output: array<int16>, numChannels: nat,
                    emit: (seq<int16>, seq<int16>) -> seq<int16>, flushOut: seq<int16> -> seq<int16>)
      returns (outputed: nat, ghost written: nat, ghost received: seq<int16>, ghost leftover: seq<int16>)
      requires numChannels > 0
      modifies this, output
      ensures putCounts == old(putCounts) + NumChunks(|input|)
      ensures received + leftover == Released(input, numChannels, emit, flushOut)
      ensures |leftover| < numChannels || numChannels > BUFFER_SIZE
      ensures outputed == |received|
      ensures written <= output.Length && written <= outputed
      ensures outputed <= output.Length ==> written == outputed
      ensures outputed > output.Length ==> output.Length < written + BUFFER_SIZE
      ensures output[..written] == received[..written]
      ensures output[written..] == old(output[written..])
    {
      var stream := new StretchStream(numChannels, emit, flushOut);
      var inputedShorts := 0;
      outputed, written := 0, 0;
      ghost var pushes := 0;
      var n := |input|;
      while true
        invariant stream.Valid() && stream.channels == numChannels
        invariant stream.emit == emit && stream.flushOut == flushOut
        invariant pushes <= NumChunks(n) && inputedShorts == Min(pushes * BUFFER_SIZE, n)
        invariant stream.pushed == PushedUpTo(input, numChannels, pushes)
        invariant stream.released == EmittedUpTo(input, numChannels, emit, pushes)
        invariant stream.flushes == 0
        invariant putCounts == old(putCounts) + pushes
        invariant outputed == |stream.received|
        invariant written <= output.Length && written <= outputed
        invariant written == outputed || (outputed > output.Length && output.Length < written + BUFFER_SIZE)
        invariant output[..written] == stream.received[..written]
        invariant output[written..] == old(output[written..])
        decreases n - inputedShorts
      {
        var shortsToRead;
        shortsToRead, inputedShorts, pushes := Feed(stream, input, inputedShorts, pushes);
        outputed, written := Drain(stream, output, outputed, written);
        if shortsToRead <= 0 {
          break;
        }
      }
      received, leftover := stream.received, stream.queue;
    }
  
    /** `handleAudioData`: run the session over the buffer's samples into a zero-filled
        output of `outSize` samples (the source's `ceil(inputSize / speed)`, a float
        computation taken here as given), then replace the buffer's samples with the
        whole output, however much of it was filled. */
    method HandleAudioData(audio: AudioData, outSize: nat,
                           emit: (seq<int16>, seq<int16>) -> seq<int16>, flushOut: seq<int16> -> seq<int16>)
      returns (handled: bool, ghost written: nat, ghost received: seq<int16>, ghost leftover: seq<int16>)
      requires audio.header.numChannels > 0 && |audio.data| < 0x8000_0000
      modifies this, audio`data
      ensures handled
      ensures putCounts == old(putCounts) + NumChunks(|old(audio.data)|)
      ensures received + leftover == Released(old(audio.data), old(audio.header.numChannels) as nat, emit, flushOut)
      ensures |audio.data| == outSize
      ensures written <= outSize && written <= |received|
      ensures |received| <= outSize ==> written == |received|
      ensures |received| > outSize ==> outSize < written + BUFFER_SIZE
      ensures audio.data[..written] == received[..written]
      ensures forall i :: written <= i < outSize ==> audio.data[i] == 0
    {
      var input := audio.data;
      var output := new int16[outSize](_ => 0);
      var outputed;
      outputed, written, received, leftover := RunSonic(input, output, audio.GetChannels() as nat, emit, flushOut);
      audio.UpdateData(output[..]);
      handled := true;
    }
}
}

=== FILE: audio_data.dfy ===
/** The in-memory audio buffer: interleaved 16-bit samples, the WAV header they came
    with, and the list of encoded packets the codec handlers exchange. */
module AudioBuffer {
  import opened Ints
  import opened Wrappers
  import opened WavFormat

  /** One encoded packet: its sequence number and its opaque payload. */
  datatype EncodedData = EncodedData(sequenceNumber: uint32, data: seq<uint8>)

  /** The list with every entry numbered `s` taken out, the others in their order. */
  function Without(list: seq<EncodedData>, s: uint32): (r: seq<EncodedData>)
    ensures |r| <= |list|
  {
    if list == [] then []
    else if list[0].sequenceNumber == s then Without(list[1..], s)
    else [list[0]] + Without(list[1..], s)
  }

  /** An entry stays iff it was there and is not numbered `s`. */
  lemma {:induction false} WithoutMembers(list: seq<EncodedData>, s: uint32, e: EncodedData)
    ensures e in Without(list, s) <==> e in list && e.sequenceNumber != s
  {
    if list != [] {
      WithoutMembers(list[1..], s, e);
      assert list == [list[0]] + list[1..];
    }
  }

  /** Removal works piecewise, so the survivors keep their relative order. */
  lemma {:induction false} WithoutAppend(a: seq<EncodedData>, b: seq<EncodedData>, s: uint32)
    ensures Without(a + b, s) == Without(a, s) + Without(b, s)
  {
    if a == [] {
      assert a + b == b;
    } else {
      assert (a + b)[1..] == a[1..] + b;
      WithoutAppend(a[1..], b, s);
    }
  }

  /** A list with no entry numbered `s` is left as it is. */
  lemma {:induction false} WithoutAbsent(list: seq<EncodedData>, s: uint32)
    requires forall i :: 0 <= i < |list| ==> list[i].sequenceNumber != s
    ensures Without(list, s) == list
  {
    if list != [] {
      WithoutAbsent(list[1..], s);
      assert list == [list[0]] + list[1..];
    }
  }

  /** Total payload length of a list, summed from the front. */
  function PayloadSum(list: seq<EncodedData>): nat
  {
    if list == [] then 0 else PayloadSum(list[..|list| - 1]) + |list[|list| - 1].data|
  }

  lemma {:induction false} PayloadSumAppend(a: seq<EncodedData>, b: seq<EncodedData>)
    ensures PayloadSum(a + b) == PayloadSum(a) + PayloadSum(b)
    decreases |b|
  {
    if b == [] {
      assert a + b == a;
    } else {
      var b' := b[..|b| - 1];
      assert (a + b)[..|a + b| - 1] == a + b';
      PayloadSumAppend(a, b');
    }
  }

  class AudioData {
    /** The interleaved samples. */
    var data: seq<int16>
    /** The encoded packets, in insertion order. */
    var encodedDataList: seq<EncodedData>
    /** The header the samples were read with; it supplies rate, channels and sample size. */
    var header: WavHeader

    /** The constructor: `loadFromFile` over the file's bytes, then an empty packet list.
        The header is read into a member whose prior contents, `unset`, are whatever the
        memory held; a short file overwrites only its first bytes. A rejected header
        leaves the sample vector empty. */
    constructor (file: seq<uint8>, unset: WavHeader)
      ensures encodedDataList == []
      ensures LoadWav(file).Ok? ==> (header, data) == LoadWav(file).value
      ensures LoadWav(file).Err? ==> data == []
      ensures |file| >= HEADER_SIZE ==> header == Deserialize(file[..HEADER_SIZE])
      ensures |file| < HEADER_SIZE ==> header == Deserialize(file + Serialize(unset)[|file|..])
    {
      var stored := if |file| >= HEADER_SIZE then file[..HEADER_SIZE] else file + Serialize(unset)[|file|..];
      header := Deserialize(stored);
      match ReadWavHeader(file) {
        case Ok(h) => data := ReadWavData(h, file);
        case Err(_) => data := [];
      }
      encodedDataList := [];
    }

    /** `getDataSize`: the sample count as an `unsigned int`. */
    function GetDataSize(): (n: uint32)
      reads this
      ensures |data| < 0x1_0000_0000 ==> n == |data|
    {
      ToUint32(|data|)
    }

    /** `getDataPointer`: null for an empty buffer, otherwise the samples. */
    function GetDataPointer(): (p: Option<seq<int16>>)
      reads this
      ensures p.None? <==> |data| == 0
      ensures p.Some? ==> p.value == data
    {
      if |data| == 0 then None else Some(data)
    }

    /** `getSampleRate`: the header's unsigned rate returned as an `int`. */
    function GetSampleRate(): (r: int32)
      reads this
      ensures header.sampleRate < 0x8000_0000 ==> r == header.sampleRate
    {
      ToInt32(header.sampleRate)
    }

    function GetChannels(): (c: uint16)
      reads this
    {
      header.numChannels
    }

    function GetSampleSize(): (b: uint16)
      reads this
    {
      header.bitsPerSample
    }

    /** `updateData`: the samples are replaced wholesale; nothing else changes. */
    method UpdateData(newData: seq<int16>)
      modifies this`data
      ensures data == newData
      ensures |data| < 0x1_0000_0000 ==> GetDataSize() == |newData|
    {
      data := newData;
    }

    /** `addEncodedData`: appends one packet at the end. */
    method AddEncodedData(sequenceNumber: uint32, payload: seq<uint8>)
      modifies this`encodedDataList
      ensures encodedDataList == old(encodedDataList) + [EncodedData(sequenceNumber, payload)]
      ensures PayloadSum(encodedDataList) == old(PayloadSum(encodedDataList)) + |payload|
    {
      encodedDataList := encodedDataList + [EncodedData(sequenceNumber, payload)];
    }

    /** `removeEncodedData`: every packet numbered `sequenceNumber` goes, the rest stay in order. */
    method RemoveEncodedData(sequenceNumber: uint32)
      modifies this`encodedDataList
      ensures encodedDataList == Without(old(encodedDataList), sequenceNumber)
      ensures forall i :: 0 <= i < |encodedDataList| ==> encodedDataList[i].sequenceNumber != sequenceNumber
    {
      encodedDataList := Without(encodedDataList, sequenceNumber);
      forall i | 0 <= i < |encodedDataList|
        ensures encodedDataList[i].sequenceNumber != sequenceNumber
      {
        WithoutMembers(old(encodedDataList), sequenceNumber, encodedDataList[i]);
      }
    }

    /** `getEncodedDataSizeSum`: the running total over the list. */
    method GetEncodedDataSizeSum() returns (totalSize: nat)
      ensures totalSize == PayloadSum(encodedDataList)
    {
      totalSize := 0;
      var i := 0;
      while i < |encodedDataList|
        invariant 0 <= i <= |encodedDataList|
        invariant totalSize == PayloadSum(encodedDataList[..i])
      {
        assert encodedDataList[..i + 1][..i] == encodedDataList[..i];
        totalSize := totalSize + |encodedDataList[i].data|;
        i := i + 1;
      }
      assert encodedDataList[..i] == encodedDataList;
    }
  }
}

=== FILE: audio_helper.dfy ===
/** `SaveAudioDataToWavFile`: the header built from the buffer and the bytes written
    after it. Opening and writing the file are I/O and stay outside the model. */
module AudioHelper {
  import opened Ints
  import opened Wrappers
  import opened WavFormat

  /** Reducing modulo 2^32 after each multiplication, as 32-bit unsigned arithmetic does,
      gives the same value as reducing the whole product once. */
  lemma StepwiseWrap(a: nat, b: nat, c: nat)
    ensures 0 <= a * b * c
    ensures ToUint32(ToUint32(a * b) * c) == ToUint32(a * b * c)
  {
    assert 0 <= a * b;
    var q := (a * b) / 0x1_0000_0000;
    var r := (a * b) % 0x1_0000_0000;
    assert a * b == q * 0x1_0000_0000 + r;
    assert a * b * c == (q * c) * 0x1_0000_0000 + r * c by {
      assert (q * 0x1_0000_0000 + r) * c == q * 0x1_0000_0000 * c + r * c;
    }
    ModMultiple(q * c, r * c);
  }

  lemma ModMultiple(k: nat, y: nat)
    ensures (k * 0x1_0000_0000 + y) % 0x1_0000_0000 == y % 0x1_0000_0000
  {
  }

  /** `byteRate`: the product of rate, channels and bits in 32-bit unsigned arithmetic, over 8. */
  function ByteRate(numChannels: uint16, sampleRate: uint32, bitsPerSample: uint16): (r: uint32)
    ensures sampleRate * numChannels * bitsPerSample < 0x1_0000_0000 ==>
      r == sampleRate * numChannels * bitsPerSample / 8
  {
    StepwiseWrap(sampleRate, numChannels, bitsPerSample);
    ToUint32(ToUint32(sampleRate * numChannels) * bitsPerSample) / 8
  }

  /** `blockAlign`: channels times bits over 8, stored into a 16-bit field. */
  function BlockAlign(numChannels: uint16, bitsPerSample: uint16): (r: uint16)
    ensures numChannels * bitsPerSample / 8 < 0x1_0000 ==> r == numChannels * bitsPerSample / 8
  {
    var p: nat := numChannels * bitsPerSample;
    (p / 8) % 0x1_0000
  }

  /** The header fields as the source fills them in. */
  function BuildHeader(numChannels: uint16, sampleRate: uint32, bitsPerSample: uint16, sampleCount: nat): (h: WavHeader)
    ensures h.riff == RIFF && h.wave == WAVE && h.fmt == FMT && h.data == DATA
    ensures h.subchunk1Size == 16 && h.audioFormat == WAVE_FORMAT_PCM
    ensures h.numChannels == numChannels && h.sampleRate == sampleRate && h.bitsPerSample == bitsPerSample
    ensures h.byteRate == ByteRate(numChannels, sampleRate, bitsPerSample)
    ensures h.blockAlign == BlockAlign(numChannels, bitsPerSample)
    ensures 36 + 2 * sampleCount < 0x1_0000_0000 ==>
      h.dataSize == 2 * sampleCount && h.chunkSize == 36 + h.dataSize
  {
    var dataSize := ToUint32(ToUint32(sampleCount) * BYTES_PER_SAMPLE);
    WavHeader(RIFF, ToUint32(36 + dataSize), WAVE, FMT, PCM_FMT_SIZE, WAVE_FORMAT_PCM, numChannels,
      sampleRate, ByteRate(numChannels, sampleRate, bitsPerSample), BlockAlign(numChannels, bitsPerSample),
      bitsPerSample, DATA, dataSize)
  }

  /** The samples as they lie in memory: two little-endian bytes each, in order. */
  function SampleBytes(samples: seq<int16>): (b: seq<uint8>)
    ensures |b| == 2 * |samples|
  {
    if samples == [] then [] else SampleLe(samples[0]) + SampleBytes(samples[1..])
  }

  /** The k-th sample occupies bytes 2k and 2k+1. */
  lemma {:induction false} SampleBytesAt(samples: seq<int16>, k: nat)
    requires k < |samples|
    ensures SampleBytes(samples)[2 * k .. 2 * k + 2] == SampleLe(samples[k])
  {
    if k > 0 {
      SampleBytesAt(samples[1..], k - 1);
      var rest := SampleBytes(samples[1..]);
      assert SampleBytes(samples) == SampleLe(samples[0]) + rest;
      assert SampleBytes(samples)[2 * k .. 2 * k + 2] == rest[2 * (k - 1) .. 2 * (k - 1) + 2];
    }
  }

  /** The whole file: the header, then `dataSize` bytes taken from the samples (the byte
      count is an `unsigned int`, hence the reduction modulo 2^32). */
  function WavFile(numChannels: uint16, sampleRate: uint32, bitsPerSample: uint16, samples: seq<int16>): (file: seq<uint8>)
    ensures |file| >= HEADER_SIZE
    ensures 36 + 2 * |samples| < 0x1_0000_0000 ==>
      |file| == BuildHeader(numChannels, sampleRate, bitsPerSample, |samples|).chunkSize + 8
    ensures file[..HEADER_SIZE] == Serialize(BuildHeader(numChannels, sampleRate, bitsPerSample, |samples|))
  {
    Serialize(BuildHeader(numChannels, sampleRate, bitsPerSample, |samples|)) + WrittenBody(samples)
  }

  /** The bytes written after the header: `dataSize` bytes of the samples' memory, the
      count computed as an `unsigned int`. */
  function WrittenBody(samples: seq<int16>): (b: seq<uint8>)
    ensures 36 + 2 * |samples| < 0x1_0000_0000 ==> b == SampleBytes(samples)
  {
    var written := ToUint32(ToUint32(|samples|) * BYTES_PER_SAMPLE);
    var body := SampleBytes(samples);
    assert 36 + 2 * |samples| < 0x1_0000_0000 ==> written == |body| && body[..|body|] == body;
    body[..if written <= |body| then written else |body|]
  }

  /** Sample `k` read behind a 44-byte header is sample `k` written. */
  lemma SampleReadBack(h: WavHeader, hdr: seq<uint8>, samples: seq<int16>, k: nat)
    requires |hdr| == HEADER_SIZE && h.dataSize == 2 * |samples| && k < |samples|
    ensures |ReadWavData(h, hdr + SampleBytes(samples))| == |samples|
    ensures ReadWavData(h, hdr + SampleBytes(samples))[k] == samples[k]
  {
    var body := SampleBytes(samples);
    var file := hdr + body;
    SampleBytesAt(samples, k);
    assert file[HEADER_SIZE + 2 * k .. HEADER_SIZE + 2 * k + 2] == body[2 * k .. 2 * k + 2];
  }

  /** The reader finds the samples again behind any 44-byte header that declares them. */
  lemma SamplesReadBack(h: WavHeader, hdr: seq<uint8>, samples: seq<int16>)
    requires |hdr| == HEADER_SIZE && h.dataSize == 2 * |samples|
    ensures ReadWavData(h, hdr + SampleBytes(samples)) == samples
  {
    var read := ReadWavData(h, hdr + SampleBytes(samples));
    assert |read| == |samples|;
    forall k | 0 <= k < |samples|
      ensures read[k] == samples[k]
    {
      SampleReadBack(h, hdr, samples, k);
    }
  }

  /** A file written here is accepted by the reader, and reading it gives back the
      header that was written and exactly the samples that were written. */
  lemma WavFileRoundTrip(numChannels: uint16, sampleRate: uint32, bitsPerSample: uint16, samples: seq<int16>)
    requires 36 + 2 * |samples| < 0x1_0000_0000
    ensures var file := WavFile(numChannels, sampleRate, bitsPerSample, samples);
      LoadWav(file) == Ok((BuildHeader(numChannels, sampleRate, bitsPerSample, |samples|), samples))
  {
    var h := BuildHeader(numChannels, sampleRate, bitsPerSample, |samples|);
    var file := WavFile(numChannels, sampleRate, bitsPerSample, samples);
    assert file[..HEADER_SIZE] == Serialize(h);
    SerializeFields(h);
    assert file[0..4] == Serialize(h)[0..4] && file[8..12] == Serialize(h)[8..12];
    DeserializeSerialize(h);
    assert ReadWavHeader(file) == Ok(h);
    SamplesReadBack(h, Serialize(h), samples);
  }
}

=== FILE: handler_chain.dfy ===
/** The handler chain: handlers run in registration order over one shared state and the
    first failure stops the run. A handler is an abstract step from the state to a
    success flag and the state it leaves behind. */
module HandlerChain {

  /** The state after the first `k` handlers have run, each on what the previous left. */
  function StateAfter<S>(handlers: seq<S -> (bool, S)>, s: S, k: nat): S
    requires k <= |handlers|
  {
    if k == 0 then s else handlers[k - 1](StateAfter(handlers, s, k - 1)).1
  }

  /** Whether handler `k` reports success when it gets its turn. */
  predicate Passes<S>(handlers: seq<S -> (bool, S)>, s: S, k: nat)
    requires k < |handlers|
  {
    handlers[k](StateAfter(handlers, s, k)).0
  }

  /** Registering one more handler does not change how the earlier ones run. */
  lemma {:induction false} StateAfterAppend<S>(handlers: seq<S -> (bool, S)>, h: S -> (bool, S), s: S, k: nat)
    requires k <= |handlers|
    ensures StateAfter(handlers + [h], s, k) == StateAfter(handlers, s, k)
  {
    if k > 0 {
      StateAfterAppend(handlers, h, s, k - 1);
      assert (handlers + [h])[k - 1] == handlers[k - 1];
    }
  }

  /** With one more handler, a chain run passes iff the old chain passes and the new
      handler passes on what the old chain left. */
  lemma AppendPasses<S>(handlers: seq<S -> (bool, S)>, h: S -> (bool, S), s: S)
    ensures (forall k :: 0 <= k < |handlers| + 1 ==> Passes(handlers + [h], s, k)) <==>
      (forall k :: 0 <= k < |handlers| ==> Passes(handlers, s, k)) && h(StateAfter(handlers, s, |handlers|)).0
  {
    var hs := handlers + [h];
    forall k | 0 <= k <= |handlers|
      ensures StateAfter(hs, s, k) == StateAfter(handlers, s, k)
    {
      StateAfterAppend(handlers, h, s, k);
    }
    forall k | 0 <= k < |handlers|
      ensures Passes(hs, s, k) == Passes(handlers, s, k)
    {
      assert hs[k] == handlers[k];
    }
    assert Passes(hs, s, |handlers|) == h(StateAfter(handlers, s, |handlers|)).0 by {
      assert hs[|handlers|] == h;
    }
  }

  class AudioHandlerChain<S> {
    var handlers: seq<S -> (bool, S)>

    constructor ()
      ensures handlers == []
    {
      handlers := [];
    }

    /** `addHandler`: the new handler goes last; the earlier ones keep their order. */
    method AddHandler(handler: S -> (bool, S))
      modifies this
      ensures handlers == old(handlers) + [handler]
    {
      handlers := handlers + [handler];
    }

    /** `process`: runs the handlers in order and stops at the first that fails. `ran`
        counts the handlers invoked; `state` is what they left, with no rollback. */
    method Process(s: S) returns (ok: bool, state: S, ran: nat)
      ensures ran <= |handlers|
      ensures ok <==> forall k :: 0 <= k < |handlers| ==> Passes(handlers, s, k)
      ensures ok ==> ran == |handlers|
      ensures !ok ==> 0 < ran && !Passes(handlers, s, ran - 1)
      ensures forall k :: 0 <= k < ran - 1 ==> Passes(handlers, s, k)
      ensures state == StateAfter(handlers, s, ran)
    {
      state := s;
      var i := 0;
      while i < |handlers|
        invariant 0 <= i <= |handlers|
        invariant state == StateAfter(handlers, s, i)
        invariant forall k :: 0 <= k < i ==> Passes(handlers, s, k)
      {
        var (passed, next) := handlers[i](state);
        state := next;
        if !passed {
          assert !Passes(handlers, s, i);
          return false, state, i + 1;
        }
        i := i + 1;
      }
      return true, state, i;
    }
  }
}

=== FILE: ints.dfy ===
/** Fixed-width integers of the C++ source and their little-endian byte images. */
module Ints {

  type uint8 = x: int | 0 <= x < 0x100
  type uint16 = x: int | 0 <= x < 0x1_0000
  type uint32 = x: int | 0 <= x < 0x1_0000_0000
  type int16 = x: int | -0x8000 <= x < 0x8000
  type int32 = x: int | -0x8000_0000 <= x < 0x8000_0000

  const INT16_MIN: int := -0x8000
  const INT16_MAX: int := 0x7fff

  /** Conversion of any integer to a 32-bit `int`, as the source's compilers do it:
      reduction modulo 2^32 into the signed range. */
  function ToInt32(x: int): (r: int32)
    ensures (r - x) % 0x1_0000_0000 == 0
    ensures -0x8000_0000 <= x < 0x8000_0000 ==> r == x
  {
    var m := x % 0x1_0000_0000;
    if m < 0x8000_0000 then m else m - 0x1_0000_0000
  }

  /** Conversion of any integer to `uint32`: reduction modulo 2^32. */
  function ToUint32(x: int): (r: uint32)
    ensures (r - x) % 0x1_0000_0000 == 0
    ensures 0 <= x < 0x1_0000_0000 ==> r == x
  {
    x % 0x1_0000_0000
  }

  /** C and C++ integer division, which truncates toward zero. */
  function CDiv(a: int, b: int): (q: int)
    requires b != 0
    ensures 0 <= a && 0 < b ==> q == a / b
    ensures a < 0 && 0 < b ==> q == -((-a) / b)
  {
    if (a < 0) == (b < 0) then
      (if a < 0 then -a else a) / (if b < 0 then -b else b)
    else
      -((if a < 0 then -a else a) / (if b < 0 then -b else b))
  }

  /** A positive product with a positive factor has a positive other factor. */
  lemma PositiveFactor(d: nat, x: int)
    requires d > 0 && d * x > 0
    ensures x > 0
  {
  }

  /** Euclidean division of naturals: quotient and remainder. */
  lemma DivMod(n: nat, d: nat)
    requires d > 0
    ensures n == d * (n / d) + n % d && 0 <= n % d < d
  {
  }

  /** A quotient of naturals is a natural no larger than the dividend. */
  lemma DivBounds(n: nat, d: nat)
    requires d > 0
    ensures 0 <= n / d <= n
  {
    var q, r := n / d, n % d;
    DivMod(n, d);
    assert d * (q + 1) == n - r + d;
    PositiveFactor(d, q + 1);
    var e: nat := d - 1;
    var p: nat := q;
    assert e * p >= 0;
    assert d * q == q + e * p;
  }

  function Min(a: int, b: int): int { if a < b then a else b }

  function Max(a: int, b: int): int { if a < b then b else a }

  /** Two little-endian bytes of a 16-bit value. */
  function Le16(x: uint16): (b: seq<uint8>)
    ensures |b| == 2 && FromLe16(b) == x
  {
    [x % 0x100, x / 0x100]
  }

  function FromLe16(b: seq<uint8>): uint16
    requires |b| == 2
  {
    b[0] as int + 0x100 * (b[1] as int)
  }

  /** Four little-endian bytes of a 32-bit value. */
  function Le32(x: uint32): (b: seq<uint8>)
    ensures |b| == 4 && FromLe32(b) == x
  {
    var lo := Le16(x % 0x1_0000);
    var hi := Le16(x / 0x1_0000);
    assert (lo + hi)[..2] == lo && (lo + hi)[2..] == hi;
    lo + hi
  }

  function FromLe32(b: seq<uint8>): uint32
    requires |b| == 4
  {
    FromLe16(b[..2]) as int + 0x1_0000 * (FromLe16(b[2..]) as int)
  }

  /** Reading bytes as a 16-bit value and writing it back gives the same bytes. */
  lemma Le16OfFromLe16(b: seq<uint8>)
    requires |b| == 2
    ensures Le16(FromLe16(b)) == b
  {
  }

  lemma Le32OfFromLe32(b: seq<uint8>)
    requires |b| == 4
    ensures Le32(FromLe32(b)) == b
  {
    var x := FromLe32(b);
    assert x % 0x1_0000 == FromLe16(b[..2]);
    assert x / 0x1_0000 == FromLe16(b[2..]);
    Le16OfFromLe16(b[..2]);
    Le16OfFromLe16(b[2..]);
    assert b == b[..2] + b[2..];
  }

  /** A signed 16-bit sample as two's-complement little-endian bytes (the in-memory
      image of an `int16_t` on the little-endian hosts the program runs on). */
  function SampleLe(v: int16): (b: seq<uint8>)
    ensures |b| == 2 && SampleFromLe(b) == v
  {
    Le16(if v < 0 then v + 0x1_0000 else v)
  }

  function SampleFromLe(b: seq<uint8>): int16
    requires |b| == 2
  {
    var u := FromLe16(b);
    if u >= 0x8000 then u - 0x1_0000 else u
  }
}

=== FILE: opus_decoder.dfy ===
/** The loss-resilient Opus decoding handler. `decodeAll` walks the stored packet list in
    order and compares each sequence number with the last one decoded: the next number
    is decoded normally; a jump first conceals the missing frames (`fillGap`) and then
    decodes the packet; anything else ends the program. `fillGap` conceals the missing
    frames oldest first, using the packet's in-band FEC for the last one when it carries
    it, otherwise deep redundancy (DRED) when the packet holds any, otherwise blind
    packet-loss concealment (PLC), and counts which it used.

    The Opus library is an oracle (`DecoderLib`): its answers may depend on every call
    made to the decoder before, so the decoder's state is the list of calls made. */
module OpusDecoding {
  import opened Ints
  import opened Wrappers
  import opened AudioBuffer

  /** Samples per channel of the longest Opus frame: 120 ms at 48 kHz. */
  const MAX_FRAME_SIZE: int := 960 * 6
  /** The most DRED samples a parse is asked for. */
  const DRED_MAX_SAMPLES: int := 48000

  /** A call made to the library decoder or its DRED state. */
  datatype DecCall =
    | SetComplexity(complexity: int)
    | Decode(packet: Option<seq<uint8>>, frameSize: int, fec: bool)
    | DredParse(dredPacket: seq<uint8>, maxSamples: int, sampleRate: int)
    | DredDecode(offset: int, frameSize: int)

  /** The library: whether `opus_decoder_create(rate, channels)`,
      `opus_dred_decoder_create` and `opus_dred_alloc` succeed; what a decode, DRED parse
      or DRED decode returns, given the calls made before; the samples a decode writes;
      `OPUS_GET_LAST_PACKET_DURATION`; and `opus_packet_has_lbrr` (non-zero is true). */
  datatype DecoderLib = DecoderLib(
    createOk: (int, int) -> bool,
    dredDecoderOk: bool,
    dredAllocOk: bool,
    run: (seq<DecCall>, DecCall) -> int,
    sample: (seq<DecCall>, DecCall, nat) -> int16,
    lastPacketDuration: seq<DecCall> -> int,
    hasLbrr: seq<uint8> -> int)

  /** The exceptions the decoder throws, and the `exit(1)` on an out-of-order packet. */
  datatype DecoderError =
    | CreateFailed
    | DredDecoderCreateFailed
    | DredAllocFailed
    | DecodeFailed(code: int)
    | DredParseFailed(code: int)
    | OutOfOrder(sequenceNumber: uint32, lastDecodeSeqNo: int32)

  /** The three concealment strategies, one per lost frame. */
  datatype Strategy = Fec | Dred | Plc

  /** The first `count` samples a call wrote into its output buffer. */
  function Samples(lib: DecoderLib, hist: seq<DecCall>, call: DecCall, count: nat): (s: seq<int16>)
    ensures |s| == count
    ensures forall i :: 0 <= i < count ==> s[i] == lib.sample(hist, call, i)
  {
    if count == 0 then [] else Samples(lib, hist, call, count - 1) + [lib.sample(hist, call, count - 1)]
  }

  function Count(used: seq<Strategy>, s: Strategy): (c: nat)
    ensures c <= |used|
  {
    if |used| == 0 then 0 else Count(used[..|used| - 1], s) + (if used[|used| - 1] == s then 1 else 0)
  }

  lemma {:induction false} CountAppend(a: seq<Strategy>, b: seq<Strategy>, s: Strategy)
    ensures Count(a + b, s) == Count(a, s) + Count(b, s)
    decreases |b|
  {
    if |b| == 0 {
      assert a + b == a;
    } else {
      CountAppend(a, b[..|b| - 1], s);
      assert (a + b)[..|a + b| - 1] == a + b[..|b| - 1];
    }
  }

  lemma CountSnoc(used: seq<Strategy>, s: Strategy)
    ensures Count(used + [s], Plc) == Count(used, Plc) + (if s == Plc then 1 else 0)
    ensures Count(used + [s], Fec) == Count(used, Fec) + (if s == Fec then 1 else 0)
    ensures Count(used + [s], Dred) == Count(used, Dred) + (if s == Dred then 1 else 0)
  {
    assert (used + [s])[..|used|] == used;
  }

  /** Every lost frame is counted under exactly one strategy. */
  lemma {:induction false} CountsPartition(used: seq<Strategy>)
    ensures Count(used, Fec) + Count(used, Dred) + Count(used, Plc) == |used|
    decreases |used|
  {
    if |used| > 0 {
      CountsPartition(used[..|used| - 1]);
    }
  }

  // ---------------------------------------------------------------- decode

  /** `decode`: one library decode into a buffer of `MAX_FRAME_SIZE * channels` samples;
      an error when it returns a negative frame size, otherwise `frameSize * channels`
      samples. */
  function DecodeSpec(lib: DecoderLib, hist: seq<DecCall>, packet: seq<uint8>, channels: nat)
    : Result<(seq<int16>, seq<DecCall>), DecoderError>
  {
    var call := Decode(Some(packet), MAX_FRAME_SIZE * channels, false);
    var frameSize := lib.run(hist, call);
    if frameSize < 0 then Err(DecodeFailed(frameSize))
    else Ok((Samples(lib, hist, call, frameSize * channels), hist + [call]))
  }

  /** A decode yields whole frames: its length is a multiple of the channel count, it
      records exactly one library call, and it fails exactly when the library does. */
  lemma DecodeSpecShape(lib: DecoderLib, hist: seq<DecCall>, packet: seq<uint8>, channels: nat)
    ensures var call := Decode(Some(packet), MAX_FRAME_SIZE * channels, false);
      var r := DecodeSpec(lib, hist, packet, channels);
      && (r.Err? <==> lib.run(hist, call) < 0)
      && (r.Ok? ==> |r.value.0| == lib.run(hist, call) * channels && r.value.1 == hist + [call])
      && (r.Ok? && channels > 0 ==> |r.value.0| % channels == 0)
  {
    var call := Decode(Some(packet), MAX_FRAME_SIZE * channels, false);
    var frameSize := lib.run(hist, call);
    if frameSize >= 0 && channels > 0 {
      MultipleMod(frameSize, channels);
    }
  }

  lemma MultipleMod(q: nat, d: nat)
    requires d > 0
    ensures (q * d) % d == 0
  {
    var x := q * d;
    assert x == d * (x / d) + x % d;
    if x % d != 0 {
      var t := q - x / d;
      assert d * t == x % d;
      if t >= 1 {
        MulGrows(d, t);
      }
    }
  }

  lemma MulGrows(d: nat, t: int)
    requires t >= 1
    ensures d * t >= d
  {
    if t > 1 {
      MulGrows(d, t - 1);
      assert d * t == d * (t - 1) + d;
    }
  }

  // ---------------------------------------------------------------- fillGap

  /** The concealment of a gap: the samples produced, the decoder's calls afterwards,
      and the strategy used for each lost frame, oldest first. */
  datatype Concealment = Concealment(samples: seq<int16>, hist: seq<DecCall>, used: seq<Strategy>)

  /** The strategy and library call for lost frame `r` of `lostCnt`: FEC only for the
      last one and only if the packet carries LBRR; otherwise DRED when the parse found
      any, asking for the frame `(lostCnt - r)` frame durations back; otherwise PLC. The
      frame duration is asked afresh each time. */
  function ConcealStep(lib: DecoderLib, hist: seq<DecCall>, packet: seq<uint8>, lostCnt: int,
                       dredAvailable: bool, r: nat): (Strategy, DecCall)
  {
    var duration := lib.lastPacketDuration(hist);
    if r == lostCnt - 1 && lib.hasLbrr(packet) != 0 then (Fec, Decode(Some(packet), duration, true))
    else if dredAvailable then (Dred, DredDecode((lostCnt - r) * duration, duration))
    else (Plc, Decode(None, duration, false))
  }

  /** Lost frames `r` onwards. A frame whose call returns a positive count adds that
      many frames of samples; otherwise it adds nothing (and is still counted). */
  function ConcealFrom(lib: DecoderLib, hist: seq<DecCall>, packet: seq<uint8>, lostCnt: int,
                       dredAvailable: bool, r: nat, channels: nat): Concealment
    decreases lostCnt - r
  {
    if r >= lostCnt then Concealment([], hist, [])
    else
      var (strategy, call) := ConcealStep(lib, hist, packet, lostCnt, dredAvailable, r);
      var outputSamples := lib.run(hist, call);
      var out := if outputSamples > 0 then Samples(lib, hist, call, outputSamples * channels) else [];
      var rest := ConcealFrom(lib, hist + [call], packet, lostCnt, dredAvailable, r + 1, channels);
      Concealment(out + rest.samples, rest.hist, [strategy] + rest.used)
  }

  /** The DRED request: the lost span in samples, clamped to [0, 48000]. */
  function DredRequest(lostCnt: int, duration: int): (n: int)
    ensures 0 <= n <= DRED_MAX_SAMPLES
    ensures 0 <= lostCnt * duration <= DRED_MAX_SAMPLES ==> n == lostCnt * duration
    ensures lostCnt * duration > DRED_MAX_SAMPLES ==> n == DRED_MAX_SAMPLES
    ensures lostCnt * duration < 0 ==> n == 0
  {
    Min(DRED_MAX_SAMPLES, Max(0, lostCnt * duration))
  }

  /** `fillGap`: parse the packet's DRED data over the lost span (a negative result is
      an error), then conceal the `gap - 1` lost frames. */
  function FillGapSpec(lib: DecoderLib, hist: seq<DecCall>, packet: seq<uint8>, gap: int,
                       channels: nat, sampleRate: int): Result<Concealment, DecoderError>
  {
    var lostCnt := gap - 1;
    var parse := DredParse(packet, DredRequest(lostCnt, lib.lastPacketDuration(hist)), sampleRate);
    var ret := lib.run(hist, parse);
    if ret < 0 then Err(DredParseFailed(ret))
    else Ok(ConcealFrom(lib, hist + [parse], packet, lostCnt, ret > 0, 0, channels))
  }

  /** What concealing frames `r..lostCnt` does, frame by frame: one library call and
      one strategy per lost frame, each chosen by `ConcealStep` from the calls made so
      far, appended to the calls made before. */
  lemma {:induction false} ConcealFromSteps(lib: DecoderLib, hist: seq<DecCall>, packet: seq<uint8>, lostCnt: int,
                                           dredAvailable: bool, r: nat, channels: nat)
    requires r <= lostCnt
    ensures var c := ConcealFrom(lib, hist, packet, lostCnt, dredAvailable, r, channels);
      && |c.used| == lostCnt - r
      && |c.hist| == |hist| + (lostCnt - r) && c.hist[..|hist|] == hist
      && (forall i :: |hist| <= i < |c.hist| ==>
            var step := ConcealStep(lib, c.hist[..i], packet, lostCnt, dredAvailable, r + (i - |hist|));
            c.hist[i] == step.1 && c.used[i - |hist|] == step.0)
    decreases lostCnt - r
  {
    if r < lostCnt {
      var (strategy, call) := ConcealStep(lib, hist, packet, lostCnt, dredAvailable, r);
      var hist' := hist + [call];
      ConcealFromSteps(lib, hist', packet, lostCnt, dredAvailable, r + 1, channels);
      var rest := ConcealFrom(lib, hist', packet, lostCnt, dredAvailable, r + 1, channels);
      var c := ConcealFrom(lib, hist, packet, lostCnt, dredAvailable, r, channels);
      assert c.used == [strategy] + rest.used;
      assert c.hist == rest.hist;
      assert c.hist[..|hist|] == hist by {
        assert rest.hist[..|hist'|] == hist';
        assert hist'[..|hist|] == hist;
      }
      forall i | |hist| <= i < |c.hist|
        ensures var step := ConcealStep(lib, c.hist[..i], packet, lostCnt, dredAvailable, r + (i - |hist|));
          c.hist[i] == step.1 && c.used[i - |hist|] == step.0
      {
        if i == |hist| {
          assert c.hist[i] == hist'[|hist|];
        }
      }
    }
  }

  /** Concealment output is whole frames: its length is a multiple of the channel count. */
  lemma {:induction false} ConcealFromWholeFrames(lib: DecoderLib, hist: seq<DecCall>, packet: seq<uint8>, lostCnt: int,
                                                 dredAvailable: bool, r: nat, channels: nat)
    requires channels > 0
    ensures |ConcealFrom(lib, hist, packet, lostCnt, dredAvailable, r, channels).samples| % channels == 0
    decreases lostCnt - r
  {
    if r < lostCnt {
      var (strategy, call) := ConcealStep(lib, hist, packet, lostCnt, dredAvailable, r);
      var outputSamples := lib.run(hist, call);
      var out := if outputSamples > 0 then Samples(lib, hist, call, outputSamples * channels) else [];
      ConcealFromWholeFrames(lib, hist + [call], packet, lostCnt, dredAvailable, r + 1, channels);
      var rest := ConcealFrom(lib, hist + [call], packet, lostCnt, dredAvailable, r + 1, channels);
      if outputSamples > 0 {
        MultipleMod(outputSamples, channels);
      }
      SumOfMultiples(|out|, |rest.samples|, channels);
    }
  }

  /** The strategy for each lost frame, by priority: FEC exactly for the newest lost
      frame when the packet carries LBRR; otherwise DRED exactly when the parse found
      some; PLC for the rest. A DRED frame `j` asks for the audio `lostCnt - j` frame
      durations back, a multiplier that falls from `lostCnt` to 1. */
  lemma StrategyPriority(lib: DecoderLib, hist: seq<DecCall>, packet: seq<uint8>, lostCnt: int,
                         dredAvailable: bool, channels: nat)
    requires 0 <= lostCnt
    ensures var c := ConcealFrom(lib, hist, packet, lostCnt, dredAvailable, 0, channels);
      && |c.used| == lostCnt
      && (forall j :: 0 <= j < |c.used| ==>
            (c.used[j] == Fec <==> j == lostCnt - 1 && lib.hasLbrr(packet) != 0))
      && (forall j :: 0 <= j < |c.used| ==>
            (c.used[j] == Dred <==> !(j == lostCnt - 1 && lib.hasLbrr(packet) != 0) && dredAvailable))
      && (forall i :: |hist| <= i < |c.hist| && c.hist[i].DredDecode? ==>
            && c.hist[i].offset == (lostCnt - (i - |hist|)) * c.hist[i].frameSize
            && 1 <= lostCnt - (i - |hist|) <= lostCnt)
  {
    ConcealFromSteps(lib, hist, packet, lostCnt, dredAvailable, 0, channels);
    var c := ConcealFrom(lib, hist, packet, lostCnt, dredAvailable, 0, channels);
    forall j | 0 <= j < |c.used|
      ensures c.used[j] == Fec <==> j == lostCnt - 1 && lib.hasLbrr(packet) != 0
      ensures c.used[j] == Dred <==> !(j == lostCnt - 1 && lib.hasLbrr(packet) != 0) && dredAvailable
    {
      assert c.hist[|hist| + j] == c.hist[|hist| + j];
    }
  }

  /** At most one FEC frame per gap, and only for the newest lost frame. */
  lemma AtMostOneFec(lib: DecoderLib, hist: seq<DecCall>, packet: seq<uint8>, lostCnt: int,
                     dredAvailable: bool, channels: nat)
    requires 0 <= lostCnt
    ensures var used := ConcealFrom(lib, hist, packet, lostCnt, dredAvailable, 0, channels).used;
      && Count(used, Fec) <= 1
      && forall j :: 0 <= j < |used| && used[j] == Fec ==> j == lostCnt - 1
  {
    StrategyPriority(lib, hist, packet, lostCnt, dredAvailable, channels);
    var used := ConcealFrom(lib, hist, packet, lostCnt, dredAvailable, 0, channels).used;
    if lostCnt > 0 {
      var front := used[..lostCnt - 1];
      assert used == front + [used[lostCnt - 1]];
      NoFecBefore(front);
      CountAppend(front, [used[lostCnt - 1]], Fec);
      assert Count([used[lostCnt - 1]], Fec) <= 1 by {
        assert [used[lostCnt - 1]][..0] == [];
      }
    }
  }

  lemma {:induction false} NoFecBefore(front: seq<Strategy>)
    requires forall j :: 0 <= j < |front| ==> front[j] != Fec
    ensures Count(front, Fec) == 0
    decreases |front|
  {
    if |front| > 0 {
      NoFecBefore(front[..|front| - 1]);
    }
  }

  // ---------------------------------------------------------------- decodeAll

  /** What the decoder keeps across packets: the last decoded sequence number, the
      library's call list and the three concealment counters. */
  datatype Session = Session(lastSeq: int32, hist: seq<DecCall>, plc: nat, fec: nat, dred: nat)

  /** `sequenceNumber - lastDecodeSeqNo`: the unsigned difference, stored in an `int`. */
  function Gap(sequenceNumber: uint32, lastSeq: int32): (g: int32)
    ensures 0 <= lastSeq as int && sequenceNumber < 0x8000_0000 ==> g == sequenceNumber as int - lastSeq as int
  {
    ToInt32(sequenceNumber as int - lastSeq as int)
  }

  /** One iteration of `decodeAll`. */
  function DecodeOne(lib: DecoderLib, st: Session, e: EncodedData, channels: nat, sampleRate: int)
    : Result<(seq<int16>, Session), DecoderError>
  {
    var gap := Gap(e.sequenceNumber, st.lastSeq);
    var last := ToInt32(e.sequenceNumber);
    if gap == 1 then
      match DecodeSpec(lib, st.hist, e.data, channels)
      case Err(err) => Err(err)
      case Ok((out, hist)) => Ok((out, st.(lastSeq := last, hist := hist)))
    else if gap > 1 then
      match FillGapSpec(lib, st.hist, e.data, gap, channels, sampleRate)
      case Err(err) => Err(err)
      case Ok(c) =>
        match DecodeSpec(lib, c.hist, e.data, channels)
        case Err(err) => Err(err)
        case Ok((out, hist)) =>
          Ok((c.samples + out,
              Session(last, hist, st.plc + Count(c.used, Plc), st.fec + Count(c.used, Fec),
                      st.dred + Count(c.used, Dred))))
    else
      Err(OutOfOrder(e.sequenceNumber, st.lastSeq))
  }

  /** Put already-decoded samples in front of the rest of a run. */
  function PrependOut(out: seq<int16>, r: Result<(seq<int16>, Session), DecoderError>)
    : Result<(seq<int16>, Session), DecoderError>
  {
    match r
    case Err(e) => Err(e)
    case Ok((rest, st)) => Ok((out + rest, st))
  }

  /** `decodeAll` over `list`, in order, stopping at the first error. */
  function DecodeAllSpec(lib: DecoderLib, st: Session, list: seq<EncodedData>, channels: nat, sampleRate: int)
    : Result<(seq<int16>, Session), DecoderError>
    decreases |list|
  {
    if |list| == 0 then Ok(([], st))
    else
      match DecodeOne(lib, st, list[0], channels, sampleRate)
      case Err(e) => Err(e)
      case Ok((out, st')) => PrependOut(out, DecodeAllSpec(lib, st', list[1..], channels, sampleRate))
  }

  /** Sequence numbers every packet of the list can carry without wrapping an `int`. */
  predicate SmallSeqNums(list: seq<EncodedData>)
  {
    forall i :: 0 <= i < |list| ==> list[i].sequenceNumber < 0x8000_0000
  }

  /** The list's sequence numbers go up, starting above `last`. */
  predicate IncreasingFrom(last: int, list: seq<EncodedData>)
  {
    && (|list| > 0 ==> list[0].sequenceNumber as int > last)
    && forall i, j :: 0 <= i < j < |list| ==> list[i].sequenceNumber < list[j].sequenceNumber
  }

  /** Decoding a list with no gaps: every packet decoded plainly, one after another. */
  function PlainDecodeAll(lib: DecoderLib, hist: seq<DecCall>, list: seq<EncodedData>, channels: nat)
    : Result<(seq<int16>, seq<DecCall>), DecoderError>
    decreases |list|
  {
    if |list| == 0 then Ok(([], hist))
    else
      match DecodeSpec(lib, hist, list[0].data, channels)
      case Err(e) => Err(e)
      case Ok((out, hist')) =>
        match PlainDecodeAll(lib, hist', list[1..], channels)
        case Err(e) => Err(e)
        case Ok((rest, hist'')) => Ok((out + rest, hist''))
  }

  /** Consecutive sequence numbers right after the last decoded one: no gap is ever
      filled, the output is each packet's decode in list order, and the counters do not
      move. */
  lemma {:induction false} ConsecutiveIsPlain(lib: DecoderLib, st: Session, list: seq<EncodedData>,
                                             channels: nat, sampleRate: int)
    requires 0 <= st.lastSeq && SmallSeqNums(list)
    requires forall i :: 0 <= i < |list| ==> list[i].sequenceNumber as int == st.lastSeq as int + 1 + i
    ensures var r := DecodeAllSpec(lib, st, list, channels, sampleRate);
      var p := PlainDecodeAll(lib, st.hist, list, channels);
      && (r.Ok? <==> p.Ok?)
      && (r.Ok? ==> r.value.0 == p.value.0 && r.value.1.hist == p.value.1)
      && (r.Ok? ==> r.value.1.plc == st.plc && r.value.1.fec == st.fec && r.value.1.dred == st.dred)
      && (r.Ok? && |list| > 0 ==> r.value.1.lastSeq as int == list[|list| - 1].sequenceNumber as int)
    decreases |list|
  {
    if |list| > 0 {
      var e := list[0];
      assert Gap(e.sequenceNumber, st.lastSeq) == 1;
      var d := DecodeSpec(lib, st.hist, e.data, channels);
      if d.Ok? {
        var st' := st.(lastSeq := ToInt32(e.sequenceNumber), hist := d.value.1);
        assert DecodeOne(lib, st, e, channels, sampleRate) == Ok((d.value.0, st'));
        var tail := list[1..];
        assert forall i :: 0 <= i < |tail| ==> tail[i] == list[i + 1];
        ConsecutiveIsPlain(lib, st', tail, channels, sampleRate);
        if |tail| > 0 {
          assert list[|list| - 1] == tail[|tail| - 1];
        }
      }
    }
  }

  /** A packet more than one ahead contributes the concealment of the gap followed by
      its own decode, in that order; a failure in either is the packet's failure. */
  lemma GapIsFilledThenDecoded(lib: DecoderLib, st: Session, e: EncodedData, channels: nat, sampleRate: int)
    requires Gap(e.sequenceNumber, st.lastSeq) > 1
    ensures var r := DecodeAllSpec(lib, st, [e], channels, sampleRate);
      var f := FillGapSpec(lib, st.hist, e.data, Gap(e.sequenceNumber, st.lastSeq), channels, sampleRate);
      && (r.Ok? <==> f.Ok? && DecodeSpec(lib, f.value.hist, e.data, channels).Ok?)
      && (r.Ok? ==> r.value.0 == f.value.samples + DecodeSpec(lib, f.value.hist, e.data, channels).value.0)
  {
    var d := DecodeOne(lib, st, e, channels, sampleRate);
    assert [e][1..] == [];
    if d.Ok? {
      assert DecodeAllSpec(lib, d.value.1, [], channels, sampleRate) == Ok(([], d.value.1));
      assert d.value.0 + [] == d.value.0;
    }
  }

  /** A packet that is not ahead of the last decoded one stops the run right there. */
  lemma OutOfOrderStops(lib: DecoderLib, st: Session, list: seq<EncodedData>, channels: nat, sampleRate: int)
    requires |list| > 0 && Gap(list[0].sequenceNumber, st.lastSeq) < 1
    ensures DecodeAllSpec(lib, st, list, channels, sampleRate) == Err(OutOfOrder(list[0].sequenceNumber, st.lastSeq))
  {
  }

  /** The list 1, 3, 2 on a fresh decoder always fails, and when the first two packets
      decode it fails on the third, as out of order. */
  lemma OneThreeTwoFails(lib: DecoderLib, hist: seq<DecCall>, a: seq<uint8>, b: seq<uint8>, c: seq<uint8>,
                         channels: nat, sampleRate: int)
    ensures var st := Session(0, hist, 0, 0, 0);
      var list := [EncodedData(1, a), EncodedData(3, b), EncodedData(2, c)];
      var r := DecodeAllSpec(lib, st, list, channels, sampleRate);
      && r.Err?
      && (DecodeAllSpec(lib, st, list[..2], channels, sampleRate).Ok? ==> r.error == OutOfOrder(2, 3))
  {
    var st := Session(0, hist, 0, 0, 0);
    var e1, e2, e3 := EncodedData(1, a), EncodedData(3, b), EncodedData(2, c);
    var list := [e1, e2, e3];
    assert list[1..] == [e2, e3] && list[..2] == [e1, e2];
    assert [e2, e3][1..] == [e3] && [e1, e2][1..] == [e2] && [e2][1..] == [];
    var r1 := DecodeOne(lib, st, e1, channels, sampleRate);
    if r1.Ok? {
      var st1 := r1.value.1;
      assert st1.lastSeq == 1;
      var r2 := DecodeOne(lib, st1, e2, channels, sampleRate);
      if r2.Ok? {
        var st2 := r2.value.1;
        assert st2.lastSeq == 3;
        OutOfOrderStops(lib, st2, [e3], channels, sampleRate);
        assert DecodeAllSpec(lib, st1, [e2, e3], channels, sampleRate) == Err(OutOfOrder(2, 3));
      } else {
        assert DecodeAllSpec(lib, st1, [e2, e3], channels, sampleRate).Err?;
        assert DecodeAllSpec(lib, st1, [e2], channels, sampleRate).Err?;
        assert DecodeAllSpec(lib, st, [e1, e2], channels, sampleRate)
          == PrependOut(r1.value.0, DecodeAllSpec(lib, st1, [e2], channels, sampleRate));
      }
      assert DecodeAllSpec(lib, st, list, channels, sampleRate)
        == PrependOut(r1.value.0, DecodeAllSpec(lib, st1, [e2, e3], channels, sampleRate));
    }
  }

  /** A run that succeeds saw strictly increasing sequence numbers, each above the last
      one decoded before it, and ends with the last of them as `lastDecodeSeqNo`. */
  lemma {:induction false} SuccessMeansIncreasing(lib: DecoderLib, st: Session, list: seq<EncodedData>,
                                                 channels: nat, sampleRate: int)
    requires 0 <= st.lastSeq && SmallSeqNums(list)
    requires DecodeAllSpec(lib, st, list, channels, sampleRate).Ok?
    ensures IncreasingFrom(st.lastSeq as int, list)
    ensures |list| > 0 ==>
      DecodeAllSpec(lib, st, list, channels, sampleRate).value.1.lastSeq as int == list[|list| - 1].sequenceNumber as int
    decreases |list|
  {
    if |list| > 0 {
      var e := list[0];
      var r1 := DecodeOne(lib, st, e, channels, sampleRate);
      var st' := r1.value.1;
      assert st'.lastSeq as int == e.sequenceNumber as int;
      var tail := list[1..];
      assert forall i :: 0 <= i < |tail| ==> tail[i] == list[i + 1];
      SuccessMeansIncreasing(lib, st', tail, channels, sampleRate);
      if |tail| > 0 {
        assert list[|list| - 1] == tail[|tail| - 1];
      }
      forall i, j | 0 <= i < j < |list|
        ensures list[i].sequenceNumber < list[j].sequenceNumber
      {
        if i > 0 {
          assert list[i] == tail[i - 1] && list[j] == tail[j - 1];
        } else {
          assert list[j] == tail[j - 1];
          if j > 1 {
            assert tail[0].sequenceNumber < tail[j - 1].sequenceNumber;
          }
        }
      }
    }
  }

  /** Over a successful run the three counters together grow by the number of missing
      sequence numbers: the last number minus the starting one minus the packets. */
  lemma {:induction false} CountersCountMissing(lib: DecoderLib, st: Session, list: seq<EncodedData>,
                                               channels: nat, sampleRate: int)
    requires 0 <= st.lastSeq && SmallSeqNums(list) && |list| > 0
    requires DecodeAllSpec(lib, st, list, channels, sampleRate).Ok?
    ensures var st' := DecodeAllSpec(lib, st, list, channels, sampleRate).value.1;
      (st'.plc + st'.fec + st'.dred) - (st.plc + st.fec + st.dred)
        == list[|list| - 1].sequenceNumber as int - st.lastSeq as int - |list|
    decreases |list|
  {
    var e := list[0];
    var gap := Gap(e.sequenceNumber, st.lastSeq);
    var r1 := DecodeOne(lib, st, e, channels, sampleRate);
    var st1 := r1.value.1;
    assert st1.lastSeq as int == e.sequenceNumber as int;
    assert (st1.plc + st1.fec + st1.dred) - (st.plc + st.fec + st.dred) == gap - 1 by {
      if gap > 1 {
        var c := FillGapSpec(lib, st.hist, e.data, gap, channels, sampleRate).value;
        var parse := DredParse(e.data, DredRequest(gap - 1, lib.lastPacketDuration(st.hist)), sampleRate);
        ConcealFromSteps(lib, st.hist + [parse], e.data, gap - 1, lib.run(st.hist, parse) > 0, 0, channels);
        CountsPartition(c.used);
      }
    }
    var tail := list[1..];
    if |tail| > 0 {
      assert forall i :: 0 <= i < |tail| ==> tail[i] == list[i + 1];
      CountersCountMissing(lib, st1, tail, channels, sampleRate);
      assert list[|list| - 1] == tail[|tail| - 1];
    } else {
      assert DecodeAllSpec(lib, st1, tail, channels, sampleRate) == Ok(([], st1));
    }
  }

  /** Every output is whole frames: its length is a multiple of the channel count. */
  lemma {:induction false} OutputIsWholeFrames(lib: DecoderLib, st: Session, list: seq<EncodedData>,
                                              channels: nat, sampleRate: int)
    requires channels > 0
    requires DecodeAllSpec(lib, st, list, channels, sampleRate).Ok?
    ensures |DecodeAllSpec(lib, st, list, channels, sampleRate).value.0| % channels == 0
    decreases |list|
  {
    if |list| > 0 {
      var r1 := DecodeOne(lib, st, list[0], channels, sampleRate);
      var (out, st1) := r1.value;
      DecodeOneWholeFrames(lib, st, list[0], channels, sampleRate);
      OutputIsWholeFrames(lib, st1, list[1..], channels, sampleRate);
      var rest := DecodeAllSpec(lib, st1, list[1..], channels, sampleRate).value.0;
      SumOfMultiples(|out|, |rest|, channels);
    }
  }

  lemma DecodeOneWholeFrames(lib: DecoderLib, st: Session, e: EncodedData, channels: nat, sampleRate: int)
    requires channels > 0
    requires DecodeOne(lib, st, e, channels, sampleRate).Ok?
    ensures |DecodeOne(lib, st, e, channels, sampleRate).value.0| % channels == 0
  {
    var gap := Gap(e.sequenceNumber, st.lastSeq);
    if gap == 1 {
      DecodeSpecShape(lib, st.hist, e.data, channels);
    } else {
      var c := FillGapSpec(lib, st.hist, e.data, gap, channels, sampleRate).value;
      var parse := DredParse(e.data, DredRequest(gap - 1, lib.lastPacketDuration(st.hist)), sampleRate);
      ConcealFromWholeFrames(lib, st.hist + [parse], e.data, gap - 1, lib.run(st.hist, parse) > 0, 0, channels);
      DecodeSpecShape(lib, c.hist, e.data, channels);
      var d := DecodeSpec(lib, c.hist, e.data, channels).value.0;
      SumOfMultiples(|c.samples|, |d|, channels);
    }
  }

  lemma SumOfMultiples(a: nat, b: nat, d: nat)
    requires d > 0 && a % d == 0 && b % d == 0
    ensures (a + b) % d == 0
  {
    assert a == d * (a / d) && b == d * (b / d);
    assert a + b == d * (a / d + b / d);
    MultipleMod(a / d + b / d, d);
    assert d * (a / d + b / d) == (a / d + b / d) * d;
  }

  /** A list whose numbers go up from above the last decoded one never hits the
      out-of-order exit: a run over it can only fail in the library. */
  lemma {:induction false} IncreasingNeverOutOfOrder(lib: DecoderLib, st: Session, list: seq<EncodedData>,
                                                    channels: nat, sampleRate: int)
    requires 0 <= st.lastSeq && SmallSeqNums(list) && IncreasingFrom(st.lastSeq as int, list)
    ensures var r := DecodeAllSpec(lib, st, list, channels, sampleRate);
      r.Err? ==> !r.error.OutOfOrder?
    decreases |list|
  {
    if |list| > 0 {
      var e := list[0];
      assert Gap(e.sequenceNumber, st.lastSeq) >= 1;
      var r1 := DecodeOne(lib, st, e, channels, sampleRate);
      if r1.Ok? {
        var st1 := r1.value.1;
        assert st1.lastSeq as int == e.sequenceNumber as int;
        var tail := list[1..];
        assert forall i :: 0 <= i < |tail| ==> tail[i] == list[i + 1];
        IncreasingNeverOutOfOrder(lib, st1, tail, channels, sampleRate);
      }
    }
  }

  // ---------------------------------------------------------------- the handler

  /** Add concealed samples and strategies in front of the concealment of the rest. */
  function Join(out: seq<int16>, used: seq<Strategy>, c: Concealment): Concealment
  {
    Concealment(out + c.samples, c.hist, used + c.used)
  }

  /** One lost frame taken out of the concealment still to do. */
  lemma ConcealAdvance(lib: DecoderLib, hist: seq<DecCall>, packet: seq<uint8>, lostCnt: int,
                       dredAvailable: bool, r: nat, channels: nat, out0: seq<int16>, used0: seq<Strategy>)
    requires r < lostCnt
    ensures var (strategy, call) := ConcealStep(lib, hist, packet, lostCnt, dredAvailable, r);
      var n := lib.run(hist, call);
      var out := if n > 0 then Samples(lib, hist, call, n * channels) else [];
      Join(out0, used0, ConcealFrom(lib, hist, packet, lostCnt, dredAvailable, r, channels))
        == Join(out0 + out, used0 + [strategy], ConcealFrom(lib, hist + [call], packet, lostCnt, dredAvailable, r + 1, channels))
  {
    var (strategy, call) := ConcealStep(lib, hist, packet, lostCnt, dredAvailable, r);
    var n := lib.run(hist, call);
    var out := if n > 0 then Samples(lib, hist, call, n * channels) else [];
    var rest := ConcealFrom(lib, hist + [call], packet, lostCnt, dredAvailable, r + 1, channels);
    assert out0 + (out + rest.samples) == (out0 + out) + rest.samples;
    assert used0 + ([strategy] + rest.used) == (used0 + [strategy]) + rest.used;
  }

  /** What `initialize` reports, given which library objects can be created. */
  function InitResult(lib: DecoderLib, sampleRate: int, numChannels: nat): (r: Result<bool, DecoderError>)
    ensures r.Ok? <==> lib.createOk(sampleRate, numChannels) && lib.dredDecoderOk && lib.dredAllocOk
    ensures r.Ok? ==> r.value
  {
    if !lib.createOk(sampleRate, numChannels) then Err(CreateFailed)
    else if !lib.dredDecoderOk then Err(DredDecoderCreateFailed)
    else if !lib.dredAllocOk then Err(DredAllocFailed)
    else Ok(true)
  }

  /** The Opus decoding handler. `decoder`, `dredDecoder` and `dred` say which library
      objects exist; `hist` is the calls made to the decoder since it was created. */
  class OpusDecoder {
    const lib: DecoderLib
    var decoder: bool
    var dredDecoder: bool
    var dred: bool
    var hist: seq<DecCall>
    var mSampleRate: int
    var mNumChannels: nat
    const maxFrameSize: int := MAX_FRAME_SIZE
    var lastDecodeSeqNo: int32
    var mComplexity: int
    var mPLCCount: nat
    var mFECCount: nat
    var mDREDCount: nat

    /** All three library objects exist. */
    predicate Ready()
      reads this
    {
      decoder && dredDecoder && dred
    }

    /** The state `decodeAll` works on. */
    function State(): Session
      reads this
    {
      Session(lastDecodeSeqNo, hist, mPLCCount, mFECCount, mDREDCount)
    }

    constructor (lib: DecoderLib)
      ensures this.lib == lib && !decoder && !dredDecoder && !dred
      ensures lastDecodeSeqNo == 0 && mComplexity == 0 && mSampleRate == 0 && mNumChannels == 0
      ensures mPLCCount == 0 && mFECCount == 0 && mDREDCount == 0
    {
      this.lib := lib;
      decoder, dredDecoder, dred, hist := false, false, false, [];
      lastDecodeSeqNo, mComplexity, mSampleRate, mNumChannels := 0, 0, 0, 0;
      mPLCCount, mFECCount, mDREDCount := 0, 0, 0;
    }

    method SetComplexity(complexity: int)
      modifies this`mComplexity
      ensures mComplexity == complexity
    {
      mComplexity := complexity;
    }

    /** `initialize`: create the decoder, set its complexity, then create the DRED
        decoder and the DRED state, failing at the first that cannot be created. */
    method Initialize(sampleRate: int, numChannels: nat) returns (r: Result<bool, DecoderError>)
      modifies this`mSampleRate, this`mNumChannels, this`decoder, this`dredDecoder, this`dred, this`hist
      ensures mSampleRate == sampleRate && mNumChannels == numChannels
      ensures r == InitResult(lib, sampleRate, numChannels)
      ensures r.Ok? ==> Ready() && hist == [DecCall.SetComplexity(mComplexity)]
    {
      mSampleRate, mNumChannels := sampleRate, numChannels;
      decoder := lib.createOk(mSampleRate, mNumChannels);
      if !decoder {
        return Err(CreateFailed);
      }
      hist := [DecCall.SetComplexity(mComplexity)];
      dredDecoder := lib.dredDecoderOk;
      if !dredDecoder {
        return Err(DredDecoderCreateFailed);
      }
      dred := lib.dredAllocOk;
      if !dred {
        return Err(DredAllocFailed);
      }
      return Ok(true);
    }

    /** `destroy`: release whichever library objects exist. */
    method Destroy()
      modifies this`decoder, this`dredDecoder, this`dred, this`hist
      ensures !decoder && !dredDecoder && !dred
      ensures old(decoder) ==> hist == []
      ensures !old(decoder) ==> hist == old(hist)
    {
      if decoder {
        decoder, hist := false, [];
      }
      if dred {
        dred := false;
      }
      if dredDecoder {
        dredDecoder := false;
      }
    }

    /** `decode`. */
    method Decode(packet: seq<uint8>) returns (r: Result<seq<int16>, DecoderError>)
      requires decoder
      modifies this`hist
      ensures var spec := DecodeSpec(lib, old(hist), packet, mNumChannels);
        && (r.Ok? <==> spec.Ok?)
        && (r.Ok? ==> r.value == spec.value.0 && hist == spec.value.1)
        && (r.Err? ==> r.error == spec.error)
    {
      var maxOutputSamples := maxFrameSize * mNumChannels;
      var call := DecCall.Decode(Some(packet), maxOutputSamples, false);
      var frameSize := lib.run(hist, call);
      var output := Samples(lib, hist, call, if frameSize < 0 then 0 else frameSize * mNumChannels);
      hist := hist + [call];
      if frameSize < 0 {
        return Err(DecodeFailed(frameSize));
      }
      return Ok(output);
    }

    /** `fillGap`. */
    method FillGap(e: EncodedData, gap: int) returns (r: Result<seq<int16>, DecoderError>)
      requires Ready()
      modifies this`hist, this`mPLCCount, this`mFECCount, this`mDREDCount
      ensures var spec := FillGapSpec(lib, old(hist), e.data, gap, mNumChannels, mSampleRate);
        && (r.Ok? <==> spec.Ok?)
        && (r.Err? ==> r.error == spec.error)
        && (r.Ok? ==> && r.value == spec.value.samples && hist == spec.value.hist
                      && mPLCCount == old(mPLCCount) + Count(spec.value.used, Plc)
                      && mFECCount == old(mFECCount) + Count(spec.value.used, Fec)
                      && mDREDCount == old(mDREDCount) + Count(spec.value.used, Dred))
    {
      var lostCnt := gap - 1;
      var outputSamples := lib.lastPacketDuration(hist);
      var parse := DredParse(e.data, DredRequest(lostCnt, outputSamples), mSampleRate);
      var ret := lib.run(hist, parse);
      hist := hist + [parse];
      if ret < 0 {
        return Err(DredParseFailed(ret));
      }
      var dredInput := if ret > 0 then ret else 0;
      var combinedOutput := RecoverAll(e, lostCnt, dredInput);
      return Ok(combinedOutput);
    }

    /** The recovery loop of `fillGap`: conceal the `lostCnt` lost frames in order. */
    method RecoverAll(e: EncodedData, lostCnt: int, dredInput: int) returns (combinedOutput: seq<int16>)
      requires Ready()
      modifies this`hist, this`mPLCCount, this`mFECCount, this`mDREDCount
      ensures var c := ConcealFrom(lib, old(hist), e.data, lostCnt, dredInput > 0, 0, mNumChannels);
        && combinedOutput == c.samples && hist == c.hist
        && mPLCCount == old(mPLCCount) + Count(c.used, Plc)
        && mFECCount == old(mFECCount) + Count(c.used, Fec)
        && mDREDCount == old(mDREDCount) + Count(c.used, Dred)
    {
      combinedOutput := [];
      ghost var whole := ConcealFrom(lib, hist, e.data, lostCnt, dredInput > 0, 0, mNumChannels);
      assert whole == Join([], [], whole);
      ghost var used: seq<Strategy> := [];
      var recoveredCnt := 0;
      while recoveredCnt < lostCnt
        invariant 0 <= recoveredCnt && (recoveredCnt <= lostCnt || recoveredCnt == 0)
        invariant whole == Join(combinedOutput, used, ConcealFrom(lib, hist, e.data, lostCnt, dredInput > 0, recoveredCnt, mNumChannels))
        invariant mPLCCount == old(mPLCCount) + Count(used, Plc)
        invariant mFECCount == old(mFECCount) + Count(used, Fec)
        invariant mDREDCount == old(mDREDCount) + Count(used, Dred)
        decreases lostCnt - recoveredCnt
      {
        combinedOutput, used := RecoverNext(e, lostCnt, dredInput, recoveredCnt, combinedOutput, used, whole,
                                            old(mPLCCount), old(mFECCount), old(mDREDCount));
        recoveredCnt := recoveredCnt + 1;
      }
      assert ConcealFrom(lib, hist, e.data, lostCnt, dredInput > 0, recoveredCnt, mNumChannels) == Concealment([], hist, []);
      assert combinedOutput + [] == combinedOutput && used + [] == used;
    }

    /** A pass of the recovery loop with its bookkeeping: the concealment still to do
        loses its first frame, whose samples and strategy join what is done. */
    method RecoverNext(e: EncodedData, lostCnt: int, dredInput: int, recoveredCnt: nat,
                       out0: seq<int16>, ghost used0: seq<Strategy>, ghost whole: Concealment,
                       ghost plc0: int, ghost fec0: int, ghost dred0: int)
      returns (out: seq<int16>, ghost used: seq<Strategy>)
      requires Ready() && recoveredCnt < lostCnt
      requires whole == Join(out0, used0, ConcealFrom(lib, hist, e.data, lostCnt, dredInput > 0, recoveredCnt, mNumChannels))
      requires mPLCCount == plc0 + Count(used0, Plc) && mFECCount == fec0 + Count(used0, Fec)
      requires mDREDCount == dred0 + Count(used0, Dred)
      modifies this`hist, this`mPLCCount, this`mFECCount, this`mDREDCount
      ensures whole == Join(out, used, ConcealFrom(lib, hist, e.data, lostCnt, dredInput > 0, recoveredCnt + 1, mNumChannels))
      ensures mPLCCount == plc0 + Count(used, Plc) && mFECCount == fec0 + Count(used, Fec)
      ensures mDREDCount == dred0 + Count(used, Dred)
    {
      ghost var before := hist;
      ghost var strategy, call;
      var filled;
      filled, strategy, call := RecoverFrame(e, lostCnt, dredInput, recoveredCnt);
      ConcealAdvance(lib, before, e.data, lostCnt, dredInput > 0, recoveredCnt, mNumChannels, out0, used0);
      CountSnoc(used0, strategy);
      out := out0 + filled;
      used := used0 + [strategy];
    }

    /** One pass of `fillGap`'s loop: conceal lost frame `recoveredCnt` with the
        strategy `ConcealStep` picks, count it, and return the samples it adds. */
    method RecoverFrame(e: EncodedData, lostCnt: int, dredInput: int, recoveredCnt: nat)
      returns (filled: seq<int16>, ghost strategy: Strategy, ghost call: DecCall)
      requires Ready()
      modifies this`hist, this`mPLCCount, this`mFECCount, this`mDREDCount
      ensures (strategy, call) == ConcealStep(lib, old(hist), e.data, lostCnt, dredInput > 0, recoveredCnt)
      ensures hist == old(hist) + [call]
      ensures var n := lib.run(old(hist), call);
        filled == if n > 0 then Samples(lib, old(hist), call, n * mNumChannels) else []
      ensures mPLCCount == old(mPLCCount) + (if strategy == Plc then 1 else 0)
      ensures mFECCount == old(mFECCount) + (if strategy == Fec then 1 else 0)
      ensures mDREDCount == old(mDREDCount) + (if strategy == Dred then 1 else 0)
    {
      var outputSamples;
      var libCall;
      if recoveredCnt == lostCnt - 1 && lib.hasLbrr(e.data) != 0 {
        mFECCount := mFECCount + 1;
        outputSamples := lib.lastPacketDuration(hist);
        libCall, strategy := DecCall.Decode(Some(e.data), outputSamples, true), Fec;
      } else {
        outputSamples := lib.lastPacketDuration(hist);
        if dredInput > 0 {
          mDREDCount := mDREDCount + 1;
          libCall, strategy := DredDecode((lostCnt - recoveredCnt) * outputSamples, outputSamples), Dred;
        } else {
          mPLCCount := mPLCCount + 1;
          libCall, strategy := DecCall.Decode(None, outputSamples, false), Plc;
        }
      }
      call := libCall;
      outputSamples := lib.run(hist, libCall);
      filled := if outputSamples > 0 then Samples(lib, hist, libCall, outputSamples * mNumChannels) else [];
      hist := hist + [libCall];
    }

    /** One pass of `decodeAll`'s loop: decode the next packet, after filling the gap
        before it if there is one, and remember its sequence number. */
    method DecodeNext(e: EncodedData) returns (r: Result<seq<int16>, DecoderError>)
      requires Ready()
      modifies this`hist, this`lastDecodeSeqNo, this`mPLCCount, this`mFECCount, this`mDREDCount
      ensures var spec := DecodeOne(lib, old(State()), e, mNumChannels, mSampleRate);
        && (r.Ok? <==> spec.Ok?)
        && (r.Ok? ==> r.value == spec.value.0 && State() == spec.value.1)
        && (r.Err? ==> r.error == spec.error)
    {
      var gap := Gap(e.sequenceNumber, lastDecodeSeqNo);
      if gap == 1 {
        r := Decode(e.data);
        if r.Err? {
          return;
        }
      } else if gap > 1 {
        var filled := FillGap(e, gap);
        if filled.Err? {
          return Err(filled.error);
        }
        var decoded := Decode(e.data);
        if decoded.Err? {
          return Err(decoded.error);
        }
        r := Ok(filled.value + decoded.value);
      } else {
        return Err(OutOfOrder(e.sequenceNumber, lastDecodeSeqNo));
      }
      lastDecodeSeqNo := ToInt32(e.sequenceNumber);
    }

    /** `decodeAll`. */
    method DecodeAll(list: seq<EncodedData>) returns (r: Result<seq<int16>, DecoderError>)
      requires Ready()
      modifies this`hist, this`lastDecodeSeqNo, this`mPLCCount, this`mFECCount, this`mDREDCount
      ensures var spec := DecodeAllSpec(lib, old(State()), list, mNumChannels, mSampleRate);
        && (r.Ok? <==> spec.Ok?)
        && (r.Ok? ==> r.value == spec.value.0 && State() == spec.value.1)
        && (r.Err? ==> r.error == spec.error)
    {
      var combinedOutput := [];
      var i := 0;
      assert list[i..] == list;
      PrependOutNothing(DecodeAllSpec(lib, State(), list, mNumChannels, mSampleRate));
      while i < |list|
        invariant 0 <= i <= |list|
        invariant DecodeAllSpec(lib, old(State()), list, mNumChannels, mSampleRate)
          == PrependOut(combinedOutput, DecodeAllSpec(lib, State(), list[i..], mNumChannels, mSampleRate))
      {
        assert list[i..][1..] == list[i + 1..];
        ghost var before := State();
        var decoded := DecodeNext(list[i]);
        if decoded.Err? {
          return Err(decoded.error);
        }
        assert DecodeAllSpec(lib, before, list[i..], mNumChannels, mSampleRate)
          == PrependOut(decoded.value, DecodeAllSpec(lib, State(), list[i + 1..], mNumChannels, mSampleRate));
        PrependOutTwice(combinedOutput, decoded.value, DecodeAllSpec(lib, State(), list[i + 1..], mNumChannels, mSampleRate));
        combinedOutput := combinedOutput + decoded.value;
        i := i + 1;
      }
      assert list[i..] == [];
      assert combinedOutput + [] == combinedOutput;
      return Ok(combinedOutput);
    }

    /** `handleAudioData`: create the library objects on first use from the buffer's
        rate and channel count, decode its stored packets and replace its samples with
        the result. `start` is the state decoding begins from. */
    method HandleAudioData(audio: AudioData) returns (r: Result<bool, DecoderError>, ghost start: Session)
      requires decoder ==> Ready()
      modifies this, audio`data
      ensures old(decoder) ==> start == old(State()) && mSampleRate == old(mSampleRate) && mNumChannels == old(mNumChannels)
      ensures !old(decoder) ==> mSampleRate == audio.GetSampleRate() as int && mNumChannels == audio.GetChannels() as nat
      ensures !old(decoder) && InitResult(lib, mSampleRate, mNumChannels).Ok? ==>
        start == Session(old(lastDecodeSeqNo), [DecCall.SetComplexity(old(mComplexity))], old(mPLCCount), old(mFECCount), old(mDREDCount))
      ensures !old(decoder) && InitResult(lib, mSampleRate, mNumChannels).Err? ==>
        r == Err(InitResult(lib, mSampleRate, mNumChannels).error) && audio.data == old(audio.data)
      ensures r.Ok? ==> r.value && Ready()
      ensures var spec := DecodeAllSpec(lib, start, old(audio.encodedDataList), mNumChannels, mSampleRate);
        && (old(decoder) || InitResult(lib, mSampleRate, mNumChannels).Ok?) ==>
          && (r.Ok? <==> spec.Ok?)
          && (r.Ok? ==> audio.data == spec.value.0 && State() == spec.value.1)
          && (r.Err? ==> r.error == spec.error)
    {
      start := State();
      if !decoder {
        var init := Initialize(audio.GetSampleRate() as int, audio.GetChannels() as nat);
        if init.Err? {
          return Err(init.error), start;
        }
        start := State();
      }
      var encodedDataList := audio.encodedDataList;
      var combined := DecodeAll(encodedDataList);
      if combined.Err? {
        return Err(combined.error), start;
      }
      audio.UpdateData(combined.value);
      r := Ok(true);
    }
  }

  lemma PrependOutNothing(r: Result<(seq<int16>, Session), DecoderError>)
    ensures PrependOut([], r) == r
  {
    if r.Ok? {
      assert [] + r.value.0 == r.value.0;
    }
  }

  lemma PrependOutTwice(a: seq<int16>, b: seq<int16>, r: Result<(seq<int16>, Session), DecoderError>)
    ensures PrependOut(a, PrependOut(b, r)) == PrependOut(a + b, r)
  {
    if r.Ok? {
      assert a + (b + r.value.0) == (a + b) + r.value.0;
    }
  }
}

=== FILE: opus_encoder.dfy ===
/** The Opus encoding handler: it cuts the buffer's samples into 10 ms frames, zero-pads
    the last short frame, encodes every frame, and simulates packet loss by keeping a
    frame only when a random draw in [0, 99] is at least the configured loss percentage.
    Every frame consumes a sequence number, kept or not.

    The Opus library is an oracle (`EncoderLib`): an encoder's answers may depend on
    every call made to it before, so its state is the list of calls made so far. */
module OpusEncoding {
  import opened Ints
  import opened Wrappers
  import opened AudioBuffer

  /** `OPUS_AUTO` and `OPUS_APPLICATION_AUDIO` of the Opus API. */
  const OPUS_AUTO: int := -1000
  const OPUS_APPLICATION_AUDIO: int := 2049
  /** The packet capacity an encoder starts with, before any `encode`. */
  const INITIAL_MAX_PACKET_SIZE: int := 4000
  /** Frame length in milliseconds. */
  const FRAME_PERIOD: int := 10

  /** The encoder settings `initialize` applies. */
  datatype Ctl =
    | SetBitrate(bitRate: int)
    | SetComplexity(complexity: int)
    | SetSignal(signal: int)
    | SetInbandFec(enabled: int)
    | SetPacketLossPerc(percent: int)
    | SetDredDuration(duration: int)

  /** A call made to a library encoder. */
  datatype EncCall =
    | Configure(ctl: Ctl)
    | EncodeFrame(pcm: seq<int16>, frameSize: int, maxBytes: int)

  /** The library: whether `opus_encoder_create(rate, channels, application)` succeeds;
      what `opus_encode` returns (a byte count, or a negative error code) given the
      calls made before; and the byte it leaves at each position of the output buffer. */
  datatype EncoderLib = EncoderLib(
    createOk: (int, int, int) -> bool,
    encode: (seq<EncCall>, EncCall) -> int,
    byteAt: (seq<EncCall>, EncCall, nat) -> uint8)

  /** The two exceptions the encoder throws. */
  datatype EncoderError = CreateFailed | EncodeFailed(code: int)

  // ---------------------------------------------------------------- initialize

  /** The settings `initialize` applies, in order: the bit rate; the complexity, only
      when it is in [0, 10]; automatic signal detection; in-band FEC and the expected
      loss, only when a loss is configured; the DRED duration, only when positive. */
  function InitCtls(bitRate: int, complexity: int, packetLoss: int, dredDuration: int): seq<Ctl>
  {
    [SetBitrate(bitRate)]
    + (if 0 <= complexity <= 10 then [SetComplexity(complexity)] else [])
    + [SetSignal(OPUS_AUTO)]
    + (if packetLoss > 0 then [SetInbandFec(1), SetPacketLossPerc(packetLoss)] else [])
    + (if dredDuration > 0 then [SetDredDuration(dredDuration)] else [])
  }

  function Configured(ctls: seq<Ctl>): (calls: seq<EncCall>)
    ensures |calls| == |ctls| && forall i :: 0 <= i < |ctls| ==> calls[i] == Configure(ctls[i])
  {
    seq(|ctls|, i requires 0 <= i < |ctls| => Configure(ctls[i]))
  }

  /** Each optional setting is applied exactly when its guard holds, and only with the
      configured value; the bit rate comes first and the signal setting is always made. */
  lemma InitCtlsGuards(bitRate: int, complexity: int, packetLoss: int, dredDuration: int)
    ensures var ctls := InitCtls(bitRate, complexity, packetLoss, dredDuration);
      && ctls[0] == SetBitrate(bitRate)
      && SetSignal(OPUS_AUTO) in ctls
      && (SetComplexity(complexity) in ctls <==> 0 <= complexity <= 10)
      && (forall c :: c in ctls && c.SetComplexity? ==> c.complexity == complexity)
      && (SetInbandFec(1) in ctls <==> packetLoss > 0)
      && (forall c :: c in ctls && c.SetInbandFec? ==> c.enabled == 1)
      && (SetPacketLossPerc(packetLoss) in ctls <==> packetLoss > 0)
      && (forall c :: c in ctls && c.SetPacketLossPerc? ==> c.percent == packetLoss)
      && (SetDredDuration(dredDuration) in ctls <==> dredDuration > 0)
      && (forall c :: c in ctls && c.SetDredDuration? ==> c.duration == dredDuration)
  {
    InitCtlsMembers(bitRate, complexity, packetLoss, dredDuration);
  }

  /** The settings applied, as a set of calls. */
  lemma InitCtlsMembers(bitRate: int, complexity: int, packetLoss: int, dredDuration: int)
    ensures var ctls := InitCtls(bitRate, complexity, packetLoss, dredDuration);
      && ctls[0] == SetBitrate(bitRate)
      && forall x :: x in ctls <==>
           || x == SetBitrate(bitRate)
           || (0 <= complexity <= 10 && x == SetComplexity(complexity))
           || x == SetSignal(OPUS_AUTO)
           || (packetLoss > 0 && (x == SetInbandFec(1) || x == SetPacketLossPerc(packetLoss)))
           || (dredDuration > 0 && x == SetDredDuration(dredDuration))
  {
    var a := [SetBitrate(bitRate)];
    var b := if 0 <= complexity <= 10 then [SetComplexity(complexity)] else [];
    var c := [SetSignal(OPUS_AUTO)];
    var d := if packetLoss > 0 then [SetInbandFec(1), SetPacketLossPerc(packetLoss)] else [];
    var e := if dredDuration > 0 then [SetDredDuration(dredDuration)] else [];
    assert InitCtls(bitRate, complexity, packetLoss, dredDuration) == a + b + c + d + e;
  }

  // ---------------------------------------------------------------- framing

  /** Samples per channel in one frame: `sampleRate / (1000 / framePeriod)` in C's
      truncating division. */
  function SamplesPerFrame(sampleRate: int, framePeriod: int): int
    requires 0 < framePeriod <= 1000
  {
    CDiv(sampleRate, CDiv(1000, framePeriod))
  }

  /** With the 10 ms period a frame holds a hundredth of a second of audio. */
  lemma TenMillisecondFrames(sampleRate: int)
    requires sampleRate >= 0 && sampleRate % 100 == 0
    ensures SamplesPerFrame(sampleRate, FRAME_PERIOD) * 100 == sampleRate
  {
    assert CDiv(1000, FRAME_PERIOD) == 100;
  }

  /** How many times the framing loop runs: `ceil(n / frameShorts)`. */
  function NumFrames(n: nat, frameShorts: nat): nat
    requires frameShorts > 0
  {
    (n + frameShorts - 1) / frameShorts
  }

  lemma MulLeft(a: int, b: int, c: nat)
    requires a <= b
    ensures a * c <= b * c
  {
  }

  lemma QuotientBounds(a: nat, d: nat)
    requires d > 0
    ensures a / d * d <= a < a / d * d + d
  {
    DivMod(a, d);
  }

  lemma BelowCount(k: nat, q: nat, fs: nat, n: nat)
    requires fs > 0 && k < q && q * fs <= n + fs - 1
    ensures k * fs < n
  {
    MulLeft(k, q - 1, fs);
    assert (q - 1) * fs == q * fs - fs;
  }

  lemma AboveCount(k: nat, q: nat, fs: nat, n: nat)
    requires fs > 0 && q <= k && n + fs - 1 < q * fs + fs
    ensures n <= k * fs
  {
    MulLeft(q, k, fs);
  }

  lemma CountAtMost(q: nat, fs: nat, n: nat)
    requires fs > 0 && q * fs <= n + fs - 1
    ensures q <= n
  {
    if q >= 1 {
      MulLeft(1, fs, q - 1);
      assert (q - 1) * fs == q * fs - fs;
    }
  }

  /** Frame `k` starts before the end of the input exactly when `k` is below the frame
      count, and the frame count is at most the number of samples. */
  lemma FrameIndex(n: nat, fs: nat, k: nat)
    requires fs > 0
    ensures k * fs < n <==> k < NumFrames(n, fs)
    ensures k >= NumFrames(n, fs) ==> Min(k * fs, n) == n
    ensures NumFrames(n, fs) <= n
  {
    var q := NumFrames(n, fs);
    QuotientBounds(n + fs - 1, fs);
    if k < q {
      BelowCount(k, q, fs, n);
    } else {
      AboveCount(k, q, fs, n);
    }
    CountAtMost(q, fs, n);
  }

  /** The framing loop's offset before frame `k` is `min(k * fs, n)`: below `n` exactly
      for the frames that exist, and advanced by each frame's chunk size. */
  lemma FrameStep(n: nat, fs: nat, k: nat)
    requires fs > 0
    ensures Min(k * fs, n) < n <==> k < NumFrames(n, fs)
    ensures k == 0 ==> Min(k * fs, n) == 0
    ensures k < NumFrames(n, fs) ==>
      && Min(k * fs, n) == k * fs && k + 1 <= NumFrames(n, fs)
      && k * fs + Min(fs, n - k * fs) == Min((k + 1) * fs, n)
  {
    FrameIndex(n, fs, k);
    FrameIndex(n, fs, k + 1);
    assert (k + 1) * fs == k * fs + fs;
  }

  /** Frame `k` as handed to the encoder: the next `frameShorts` samples, the last short
      frame copied into a zero-filled buffer of full length. */
  function FramePcm(input: seq<int16>, fs: nat, k: nat): (pcm: seq<int16>)
    requires fs > 0 && k < NumFrames(|input|, fs)
    ensures |pcm| == fs
    ensures var len := Min(fs, |input| - k * fs);
      0 < len && pcm[..len] == input[k * fs .. k * fs + len] && forall i :: len <= i < fs ==> pcm[i] == 0
  {
    FrameIndex(|input|, fs, k);
    var off := k * fs;
    var len := Min(fs, |input| - off);
    if len < fs then input[off .. off + len] + seq(fs - len, _ => 0) else input[off .. off + fs]
  }

  /** Only the last frame can be padded: every earlier one is read in place. */
  lemma OnlyLastFramePadded(input: seq<int16>, fs: nat, k: nat)
    requires fs > 0 && k + 1 < NumFrames(|input|, fs)
    ensures (k + 1) * fs <= |input| && FramePcm(input, fs, k) == input[k * fs .. (k + 1) * fs]
  {
    FrameIndex(|input|, fs, k + 1);
    assert (k + 1) * fs == k * fs + fs;
  }

  // ---------------------------------------------------------------- encode

  /** `encode`: a buffer of `frameSize * channels * 2 * 2` bytes, one library call, an
      error if it reports a negative count, otherwise exactly that many bytes (positions
      beyond the buffer, which `resize` would add, read as zero). */
  function EncodePacket(lib: EncoderLib, calls: seq<EncCall>, pcm: seq<int16>, frameSize: int, channels: int)
    : (r: Result<seq<uint8>, EncoderError>)
    ensures var call := EncodeFrame(pcm, frameSize, frameSize * channels * 4);
      && (r.Err? <==> lib.encode(calls, call) < 0)
      && (r.Err? ==> r.error == EncodeFailed(lib.encode(calls, call)))
      && (r.Ok? ==> |r.value| == lib.encode(calls, call))
      && (r.Ok? ==> forall i :: 0 <= i < |r.value| && i < frameSize * channels * 4 ==>
                      r.value[i] == lib.byteAt(calls, call, i))
  {
    var maxBytes := frameSize * channels * 4;
    var call := EncodeFrame(pcm, frameSize, maxBytes);
    var bytesEncoded := lib.encode(calls, call);
    if bytesEncoded < 0 then Err(EncodeFailed(bytesEncoded))
    else Ok(seq(bytesEncoded, i requires 0 <= i < bytesEncoded =>
                  if i < maxBytes then lib.byteAt(calls, call, i) else 0))
  }

  // ---------------------------------------------------------------- the framing loop

  /** What the framing loop produces from frame `k` on: the packets kept, the number
      dropped, and the encoder's call list afterwards. */
  datatype Run = Run(packets: seq<EncodedData>, lost: nat, calls: seq<EncCall>)

  /** Put already-produced packets and losses in front of the rest of a run. */
  function Prepend(packets: seq<EncodedData>, lost: nat, r: Result<Run, EncoderError>): Result<Run, EncoderError>
  {
    match r
    case Err(e) => Err(e)
    case Ok(run) => Ok(Run(packets + run.packets, lost + run.lost, run.calls))
  }

  lemma PrependPrepend(p1: seq<EncodedData>, l1: nat, p2: seq<EncodedData>, l2: nat, r: Result<Run, EncoderError>)
    ensures Prepend(p1, l1, Prepend(p2, l2, r)) == Prepend(p1 + p2, l1 + l2, r)
  {
    if r.Ok? {
      assert p1 + (p2 + r.value.packets) == (p1 + p2) + r.value.packets;
    }
  }

  lemma PrependNothing(r: Result<Run, EncoderError>)
    ensures Prepend([], 0, r) == r
  {
    if r.Ok? {
      assert [] + r.value.packets == r.value.packets;
    }
  }

  /** Frames `k` onwards: encode the frame, then keep it under sequence number `k + 1`
      when its draw is at least `packetLoss`, otherwise count it lost. */
  function EncodeFrom(lib: EncoderLib, calls: seq<EncCall>, input: seq<int16>, fs: nat, frameSize: int,
                      channels: int, packetLoss: int, draw: nat -> int, k: nat): Result<Run, EncoderError>
    requires fs > 0 && k <= NumFrames(|input|, fs)
    decreases NumFrames(|input|, fs) - k
  {
    if k == NumFrames(|input|, fs) then Ok(Run([], 0, calls))
    else
      var pcm := FramePcm(input, fs, k);
      match EncodePacket(lib, calls, pcm, frameSize, channels)
      case Err(e) => Err(e)
      case Ok(bytes) =>
        var calls' := calls + [EncodeFrame(pcm, frameSize, frameSize * channels * 4)];
        if draw(k) >= packetLoss then
          Prepend([EncodedData(ToUint32(k + 1), bytes)], 0,
                  EncodeFrom(lib, calls', input, fs, frameSize, channels, packetLoss, draw, k + 1))
        else
          Prepend([], 1, EncodeFrom(lib, calls', input, fs, frameSize, channels, packetLoss, draw, k + 1))
  }

  /** One step of the framing loop, once frame `k` has encoded to `bytes`. */
  lemma EncodeFromStep(lib: EncoderLib, calls: seq<EncCall>, input: seq<int16>, fs: nat, frameSize: int,
                       channels: int, packetLoss: int, draw: nat -> int, k: nat, bytes: seq<uint8>)
    requires fs > 0 && k < NumFrames(|input|, fs)
    requires EncodePacket(lib, calls, FramePcm(input, fs, k), frameSize, channels) == Ok(bytes)
    ensures var calls' := calls + [EncodeFrame(FramePcm(input, fs, k), frameSize, frameSize * channels * 4)];
      var rest := EncodeFrom(lib, calls', input, fs, frameSize, channels, packetLoss, draw, k + 1);
      EncodeFrom(lib, calls, input, fs, frameSize, channels, packetLoss, draw, k)
        == if draw(k) >= packetLoss then Prepend([EncodedData(ToUint32(k + 1), bytes)], 0, rest) else Prepend([], 1, rest)
  {
  }

  /** The framing loop's invariant carried over one frame that encoded to `bytes`:
      the frame joins the kept packets or the loss count. */
  lemma EncodeFromAdvance(lib: EncoderLib, calls: seq<EncCall>, input: seq<int16>, fs: nat, frameSize: int,
                          channels: int, packetLoss: int, draw: nat -> int, k: nat, bytes: seq<uint8>,
                          spec: Result<Run, EncoderError>, kept: seq<EncodedData>, lost: nat)
    requires fs > 0 && k < NumFrames(|input|, fs)
    requires EncodePacket(lib, calls, FramePcm(input, fs, k), frameSize, channels) == Ok(bytes)
    requires spec == Prepend(kept, lost, EncodeFrom(lib, calls, input, fs, frameSize, channels, packetLoss, draw, k))
    ensures var calls' := calls + [EncodeFrame(FramePcm(input, fs, k), frameSize, frameSize * channels * 4)];
      var rest := EncodeFrom(lib, calls', input, fs, frameSize, channels, packetLoss, draw, k + 1);
      spec == if draw(k) >= packetLoss then Prepend(kept + [EncodedData(ToUint32(k + 1), bytes)], lost, rest)
              else Prepend(kept, lost + 1, rest)
  {
    var calls' := calls + [EncodeFrame(FramePcm(input, fs, k), frameSize, frameSize * channels * 4)];
    var rest := EncodeFrom(lib, calls', input, fs, frameSize, channels, packetLoss, draw, k + 1);
    EncodeFromStep(lib, calls, input, fs, frameSize, channels, packetLoss, draw, k, bytes);
    if draw(k) >= packetLoss {
      PrependPrepend(kept, lost, [EncodedData(ToUint32(k + 1), bytes)], 0, rest);
    } else {
      PrependPrepend(kept, lost, [], 1, rest);
      assert kept + [] == kept;
    }
  }

  /** A frame that fails to encode ends the run with that error. */
  lemma EncodeFromFails(lib: EncoderLib, calls: seq<EncCall>, input: seq<int16>, fs: nat, frameSize: int,
                        channels: int, packetLoss: int, draw: nat -> int, k: nat,
                        spec: Result<Run, EncoderError>, kept: seq<EncodedData>, lost: nat)
    requires fs > 0 && k < NumFrames(|input|, fs)
    requires EncodePacket(lib, calls, FramePcm(input, fs, k), frameSize, channels).Err?
    requires spec == Prepend(kept, lost, EncodeFrom(lib, calls, input, fs, frameSize, channels, packetLoss, draw, k))
    ensures spec == Err(EncodePacket(lib, calls, FramePcm(input, fs, k), frameSize, channels).error)
  {
  }

  /** The sequence numbers a run from frame `k` keeps: `j + 1` for every frame `j` whose
      draw reaches the loss percentage, in frame order. */
  function KeptFrom(draw: nat -> int, packetLoss: int, k: nat, count: nat): (s: seq<nat>)
    requires k <= count
    ensures |s| <= count - k
    ensures forall i :: 0 <= i < |s| ==> k < s[i] <= count
    ensures forall i, j :: 0 <= i < j < |s| ==> s[i] < s[j]
    decreases count - k
  {
    if k == count then []
    else if draw(k) >= packetLoss then [k + 1] + KeptFrom(draw, packetLoss, k + 1, count)
    else KeptFrom(draw, packetLoss, k + 1, count)
  }

  function SeqNums(packets: seq<EncodedData>): (s: seq<nat>)
    ensures |s| == |packets| && forall i :: 0 <= i < |s| ==> s[i] == packets[i].sequenceNumber
  {
    seq(|packets|, i requires 0 <= i < |packets| => packets[i].sequenceNumber as nat)
  }

  /** A run that encodes without error keeps exactly the frames `KeptFrom` names, under
      their sequence numbers, counts every other frame as lost, and makes one encoder
      call per frame. */
  lemma {:induction false} EncodeFromKeeps(lib: EncoderLib, calls: seq<EncCall>, input: seq<int16>, fs: nat,
                                          frameSize: int, channels: int, packetLoss: int, draw: nat -> int, k: nat)
    requires fs > 0 && k <= NumFrames(|input|, fs) && |input| < 0x1_0000_0000
    requires EncodeFrom(lib, calls, input, fs, frameSize, channels, packetLoss, draw, k).Ok?
    ensures var run := EncodeFrom(lib, calls, input, fs, frameSize, channels, packetLoss, draw, k).value;
      && SeqNums(run.packets) == KeptFrom(draw, packetLoss, k, NumFrames(|input|, fs))
      && |run.packets| + run.lost == NumFrames(|input|, fs) - k
      && |run.calls| == |calls| + (NumFrames(|input|, fs) - k)
    decreases NumFrames(|input|, fs) - k
  {
    var n := NumFrames(|input|, fs);
    if k < n {
      FrameIndex(|input|, fs, k);
      var pcm := FramePcm(input, fs, k);
      var bytes := EncodePacket(lib, calls, pcm, frameSize, channels).value;
      var calls' := calls + [EncodeFrame(pcm, frameSize, frameSize * channels * 4)];
      EncodeFromKeeps(lib, calls', input, fs, frameSize, channels, packetLoss, draw, k + 1);
      var rest := EncodeFrom(lib, calls', input, fs, frameSize, channels, packetLoss, draw, k + 1).value;
      if draw(k) >= packetLoss {
        assert SeqNums([EncodedData(ToUint32(k + 1), bytes)] + rest.packets)
            == [k + 1] + SeqNums(rest.packets);
      }
    }
  }

  /** Sequence numbers of a successful run are strictly increasing and lie in
      `[k + 1, number of frames]`. */
  lemma EncodeFromOrdered(lib: EncoderLib, calls: seq<EncCall>, input: seq<int16>, fs: nat,
                          frameSize: int, channels: int, packetLoss: int, draw: nat -> int, k: nat)
    requires fs > 0 && k <= NumFrames(|input|, fs) && |input| < 0x1_0000_0000
    requires EncodeFrom(lib, calls, input, fs, frameSize, channels, packetLoss, draw, k).Ok?
    ensures var ps := EncodeFrom(lib, calls, input, fs, frameSize, channels, packetLoss, draw, k).value.packets;
      && (forall i :: 0 <= i < |ps| ==> k < ps[i].sequenceNumber <= NumFrames(|input|, fs))
      && (forall i, j :: 0 <= i < j < |ps| ==> ps[i].sequenceNumber < ps[j].sequenceNumber)
  {
    EncodeFromKeeps(lib, calls, input, fs, frameSize, channels, packetLoss, draw, k);
    var ps := EncodeFrom(lib, calls, input, fs, frameSize, channels, packetLoss, draw, k).value.packets;
    assert forall i :: 0 <= i < |ps| ==> ps[i].sequenceNumber == SeqNums(ps)[i];
  }

  /** With no loss configured (and draws in [0, 99]) every frame is kept. */
  lemma {:induction false} NoLossKeepsAll(draw: nat -> int, packetLoss: int, k: nat, count: nat)
    requires k <= count && packetLoss <= 0
    requires forall j :: 0 <= draw(j) <= 99
    ensures |KeptFrom(draw, packetLoss, k, count)| == count - k
    decreases count - k
  {
    if k < count {
      NoLossKeepsAll(draw, packetLoss, k + 1, count);
    }
  }

  /** With a loss of 100 or more (and draws in [0, 99]) every frame is dropped. */
  lemma {:induction false} FullLossDropsAll(draw: nat -> int, packetLoss: int, k: nat, count: nat)
    requires k <= count && packetLoss >= 100
    requires forall j :: 0 <= draw(j) <= 99
    ensures KeptFrom(draw, packetLoss, k, count) == []
    decreases count - k
  {
    if k < count {
      FullLossDropsAll(draw, packetLoss, k + 1, count);
    }
  }

  /** A frame's sequence number is kept exactly when its draw reaches the loss. */
  lemma {:induction false} KeptIff(draw: nat -> int, packetLoss: int, k: nat, count: nat, j: nat)
    requires k <= j < count
    ensures j + 1 in KeptFrom(draw, packetLoss, k, count) <==> draw(j) >= packetLoss
    decreases count - k
  {
    if j > k {
      KeptIff(draw, packetLoss, k + 1, count, j);
    } else {
      var rest := KeptFrom(draw, packetLoss, k + 1, count);
      assert j + 1 !in rest;
    }
  }

  // ---------------------------------------------------------------- the encoder object

  class OpusEncoder {
    const lib: EncoderLib
    /** Whether a library encoder exists (the source's non-null `encoder`). */
    var created: bool
    /** The calls made to the current library encoder. */
    var calls: seq<EncCall>
    var mSampleRate: int
    var mNumChannels: int
    var mApplication: int
    var maxPacketSize: int
    const mFramePeriod: int := FRAME_PERIOD
    var mComplexity: int
    var mPacketLoss: int
    var mBitRate: int
    var mDredDuration: int

    constructor (lib: EncoderLib)
      ensures this.lib == lib && !created && calls == []
      ensures maxPacketSize == INITIAL_MAX_PACKET_SIZE
      ensures mComplexity == 0 && mPacketLoss == 0 && mBitRate == OPUS_AUTO && mDredDuration == 0
    {
      this.lib := lib;
      created, calls := false, [];
      mSampleRate, mNumChannels, mApplication := 0, 0, 0;
      maxPacketSize := INITIAL_MAX_PACKET_SIZE;
      mComplexity, mPacketLoss, mBitRate, mDredDuration := 0, 0, OPUS_AUTO, 0;
    }

    method SetComplexity(complexity: int)
      modifies this`mComplexity
      ensures mComplexity == complexity
    {
      mComplexity := complexity;
    }

    method SetPacketLoss(packetLoss: int)
      modifies this`mPacketLoss
      ensures mPacketLoss == packetLoss
    {
      mPacketLoss := packetLoss;
    }

    method SetBitRate(bitRate: int)
      modifies this`mBitRate
      ensures mBitRate == bitRate
    {
      mBitRate := bitRate;
    }

    method SetDredDuration(dredDuration: int)
      modifies this`mDredDuration
      ensures mDredDuration == dredDuration
    {
      mDredDuration := dredDuration;
    }

    /** `destroy`: release the library encoder, if any. */
    method Destroy()
      modifies this`created, this`calls
      ensures !created && (old(created) ==> calls == [])
    {
      if created {
        created, calls := false, [];
      }
    }

    /** `initialize`: create a library encoder, throwing if that fails, then apply the
        settings `InitCtls` lists, one `ctl` call each. */
    method Initialize(sampleRate: int, numChannels: int, application: int)
      returns (r: Result<bool, EncoderError>)
      modifies this`mSampleRate, this`mNumChannels, this`mApplication, this`created, this`calls
      ensures mSampleRate == sampleRate && mNumChannels == numChannels && mApplication == application
      ensures r.Ok? <==> lib.createOk(sampleRate, numChannels, application)
      ensures r.Err? ==> r.error == CreateFailed
      ensures r.Ok? ==> r.value && created
      ensures r.Ok? ==> calls == Configured(InitCtls(mBitRate, mComplexity, mPacketLoss, mDredDuration))
    {
      mSampleRate, mNumChannels, mApplication := sampleRate, numChannels, application;
      if !lib.createOk(mSampleRate, mNumChannels, mApplication) {
        return Err(CreateFailed);
      }
      created, calls := true, [];
      calls := calls + [Configure(SetBitrate(mBitRate))];
      if 0 <= mComplexity <= 10 {
        calls := calls + [Configure(Ctl.SetComplexity(mComplexity))];
      }
      calls := calls + [Configure(SetSignal(OPUS_AUTO))];
      if mPacketLoss > 0 {
        calls := calls + [Configure(SetInbandFec(1))];
        calls := calls + [Configure(SetPacketLossPerc(mPacketLoss))];
      }
      if mDredDuration > 0 {
        calls := calls + [Configure(Ctl.SetDredDuration(mDredDuration))];
      }
      r := Ok(true);
    }

    /** `encode`: size the packet buffer from the frame, run the library encoder, fail on
        a negative count, and return exactly the bytes it reports. */
    method Encode(pcm: seq<int16>, frameSize: int) returns (r: Result<seq<uint8>, EncoderError>)
      modifies this`maxPacketSize, this`calls
      ensures maxPacketSize == frameSize * mNumChannels * 4
      ensures r == EncodePacket(lib, old(calls), pcm, frameSize, mNumChannels)
      ensures calls == old(calls) + [EncodeFrame(pcm, frameSize, maxPacketSize)]
    {
      maxPacketSize := frameSize * mNumChannels * 2 * 2;
      var capacity := maxPacketSize;
      var call := EncodeFrame(pcm, frameSize, capacity);
      var bytesEncoded := lib.encode(calls, call);
      var before := calls;
      calls := calls + [call];
      if bytesEncoded < 0 {
        return Err(EncodeFailed(bytesEncoded));
      }
      var tempOutput := seq(bytesEncoded, i requires 0 <= i < bytesEncoded =>
                              if i < capacity then lib.byteAt(before, call, i) else 0);
      r := Ok(tempOutput);
    }

    /** `handleAudioData`: create the encoder on first use, then frame, encode and keep or
        drop every frame of the buffer's samples, appending kept packets to its list.
        `draw(k)` is the random draw for frame `k`. `start` is the encoder's call list
        before the first frame and `run` what the framing loop produced. */
    method HandleAudioData(audio: AudioData, draw: nat -> int)
      returns (r: Result<bool, EncoderError>, ghost start: seq<EncCall>, ghost run: Run)
      requires |audio.data| < 0x8000_0000
      requires |audio.data| > 0 ==>
        SamplesPerFrame(if created then mSampleRate else audio.GetSampleRate() as int, FRAME_PERIOD)
          * (audio.GetChannels() as int) > 0
      modifies this`mSampleRate, this`mNumChannels, this`mApplication, this`created, this`calls
      modifies this`maxPacketSize, audio`encodedDataList
      ensures r.Ok? ==> r.value
      ensures (!old(created) && !lib.createOk(audio.GetSampleRate() as int, audio.GetChannels() as int, OPUS_APPLICATION_AUDIO))
                ==> r == Err(CreateFailed)
      ensures old(created) ==> start == old(calls) && mSampleRate == old(mSampleRate) && mNumChannels == old(mNumChannels)
      ensures !old(created) && r.Ok? ==>
                start == Configured(InitCtls(mBitRate, mComplexity, mPacketLoss, mDredDuration))
      ensures |old(audio.data)| == 0 ==> r.Err? || audio.encodedDataList == old(audio.encodedDataList)
      ensures |old(audio.data)| > 0 && (old(created) || r.Ok?) ==>
                var frameSize := SamplesPerFrame(mSampleRate, FRAME_PERIOD);
                var fs := frameSize * (audio.GetChannels() as int);
                fs > 0 &&
                var spec := EncodeFrom(lib, start, old(audio.data), fs, frameSize, mNumChannels, mPacketLoss, draw, 0);
                (r.Ok? <==> spec.Ok?) &&
                (r.Ok? ==> spec.value == run && audio.encodedDataList == old(audio.encodedDataList) + run.packets
                           && calls == run.calls)
    {
      start, run := calls, Run([], 0, calls);
      if !created {
        var ok := Initialize(audio.GetSampleRate() as int, audio.GetChannels() as int, OPUS_APPLICATION_AUDIO);
        if ok.Err? {
          return ok, start, run;
        }
        start := calls;
      }
      var inputData := audio.data;
      var inputSize := |inputData|;
      var frameNumPerSecond := CDiv(1000, mFramePeriod);
      var sampleNumPerFrame := CDiv(mSampleRate, frameNumPerSecond);
      var frameSize := sampleNumPerFrame;
      var frameShorts := sampleNumPerFrame * audio.GetChannels() as int;
      if inputSize == 0 {
        return Ok(true), start, run;
      }
      r, run := EncodeFrames(audio, inputData, frameShorts, frameSize, draw);
    }

    /** The body of the framing loop up to the encode: frame `k` starts at `offset`; a
        short last frame is copied into a zero-filled buffer of `frameShorts` samples,
        a full one is encoded in place. */
    method EncodeChunk(inputData: seq<int16>, frameShorts: nat, frameSize: int, ghost k: nat, offset: nat)
      returns (chunkSize: nat, encodedChunk: Result<seq<uint8>, EncoderError>)
      requires frameShorts > 0 && k < NumFrames(|inputData|, frameShorts) && offset == k * frameShorts
      modifies this`maxPacketSize, this`calls
      ensures chunkSize == Min(frameShorts, |inputData| - offset) && offset + chunkSize <= |inputData|
      ensures var pcm := FramePcm(inputData, frameShorts, k);
        && encodedChunk == EncodePacket(lib, old(calls), pcm, frameSize, mNumChannels)
        && calls == old(calls) + [EncodeFrame(pcm, frameSize, frameSize * mNumChannels * 4)]
    {
      FrameIndex(|inputData|, frameShorts, k);
      chunkSize := Min(frameShorts, |inputData| - offset);
      if chunkSize < frameShorts {
        var tempBuffer := inputData[offset .. offset + chunkSize] + seq(frameShorts - chunkSize, _ => 0);
        assert tempBuffer == FramePcm(inputData, frameShorts, k);
        encodedChunk := Encode(tempBuffer, frameSize);
      } else {
        assert inputData[offset .. offset + frameShorts] == FramePcm(inputData, frameShorts, k);
        encodedChunk := Encode(inputData[offset .. offset + frameShorts], frameSize);
      }
    }

    /** The framing loop of `handleAudioData`: frames of `frameShorts` samples, the last
        one zero-padded, each encoded and then kept under its sequence number or counted
        lost. */
    method EncodeFrames(audio: AudioData, inputData: seq<int16>, frameShorts: nat, frameSize: int, draw: nat -> int)
      returns (r: Result<bool, EncoderError>, ghost run: Run)
      requires frameShorts > 0
      modifies this`maxPacketSize, this`calls, audio`encodedDataList
      ensures var spec := EncodeFrom(lib, old(calls), inputData, frameShorts, frameSize, mNumChannels, mPacketLoss, draw, 0);
        && (r.Ok? <==> spec.Ok?)
        && (r.Ok? ==> r.value && spec.value == run && calls == run.calls)
        && (r.Ok? ==> audio.encodedDataList == old(audio.encodedDataList) + run.packets)
    {
      run := Run([], 0, calls);
      var inputSize := |inputData|;
      var fs := frameShorts;
      var offset := 0;
      var seqNum := 1;
      var packetLossCnt := 0;
      ghost var done := 0;
      ghost var kept: seq<EncodedData> := [];
      ghost var spec := EncodeFrom(lib, calls, inputData, fs, frameSize, mNumChannels, mPacketLoss, draw, 0);
      ghost var n := NumFrames(inputSize, fs);
      FrameStep(inputSize, fs, 0);
      PrependNothing(spec);
      while offset < inputSize
        invariant seqNum == done + 1 && done <= n && offset == Min(done * fs, inputSize)
        invariant audio.encodedDataList == old(audio.encodedDataList) + kept
        invariant spec == Prepend(kept, packetLossCnt,
                                  EncodeFrom(lib, calls, inputData, fs, frameSize, mNumChannels, mPacketLoss, draw, done))
        decreases inputSize - offset
      {
        FrameStep(inputSize, fs, done);
        var chunk;
        chunk, packetLossCnt, kept := EncodeNext(audio, inputData, fs, frameSize, draw, seqNum, offset, packetLossCnt,
                                                 done, kept, old(audio.encodedDataList), spec);
        if chunk.Err? {
          return Err(chunk.error), run;
        }
        seqNum := seqNum + 1;
        offset := offset + chunk.value;
        done := done + 1;
      }
      FrameStep(inputSize, fs, done);
      run := Run(kept, packetLossCnt, calls);
      assert kept + [] == kept;
      r := Ok(true);
    }

    /** One pass of the framing loop: encode frame `k`, then keep it under sequence
        number `k + 1` or count it lost, and return the chunk size the offset advances by. */
    method EncodeNext(audio: AudioData, inputData: seq<int16>, fs: nat, frameSize: int, draw: nat -> int,
                      seqNum: int, offset: nat, packetLossCnt: nat,
                      ghost k: nat, ghost kept: seq<EncodedData>, ghost base: seq<EncodedData>,
                      ghost spec: Result<Run, EncoderError>)
      returns (chunk: Result<nat, EncoderError>, lost: nat, ghost kept': seq<EncodedData>)
      requires fs > 0 && seqNum == k + 1 && k < NumFrames(|inputData|, fs) && offset == k * fs
      requires audio.encodedDataList == base + kept
      requires spec == Prepend(kept, packetLossCnt,
                               EncodeFrom(lib, calls, inputData, fs, frameSize, mNumChannels, mPacketLoss, draw, k))
      modifies this`maxPacketSize, this`calls, audio`encodedDataList
      ensures chunk.Err? ==> spec == Err(chunk.error)
      ensures chunk.Ok? ==>
        && chunk.value == Min(fs, |inputData| - offset)
        && audio.encodedDataList == base + kept'
        && spec == Prepend(kept', lost, EncodeFrom(lib, calls, inputData, fs, frameSize, mNumChannels, mPacketLoss, draw, k + 1))
    {
      ghost var before := calls;
      var chunkSize, encodedChunk := EncodeChunk(inputData, fs, frameSize, k, offset);
      if encodedChunk.Err? {
        EncodeFromFails(lib, before, inputData, fs, frameSize, mNumChannels, mPacketLoss, draw, k,
                        spec, kept, packetLossCnt);
        return Err(encodedChunk.error), packetLossCnt, kept;
      }
      EncodeFromAdvance(lib, before, inputData, fs, frameSize, mNumChannels, mPacketLoss, draw, k,
                        encodedChunk.value, spec, kept, packetLossCnt);
      lost, kept' := packetLossCnt, kept;
      if draw(seqNum - 1) >= mPacketLoss {
        audio.AddEncodedData(ToUint32(seqNum), encodedChunk.value);
        kept' := kept + [EncodedData(ToUint32(seqNum), encodedChunk.value)];
      } else {
        lost := packetLossCnt + 1;
      }
      chunk := Ok(chunkSize);
    }
  }
}

=== FILE: pipeline.dfy ===
/** The encoder and decoder handlers back to back, as the program chains them: the
    packets an encoding run keeps go, in order, to a decoder that has decoded nothing
    yet (its last sequence number is 0). */
module Pipeline {
  import opened Ints
  import opened Wrappers
  import opened AudioBuffer
  import opened OpusEncoding
  import opened OpusDecoding

  /** When the frame before `count` is kept, it is the last one kept. */
  lemma {:induction false} KeptLast(draw: nat -> int, packetLoss: int, k: nat, count: nat)
    requires k < count && draw(count - 1) >= packetLoss
    ensures var s := KeptFrom(draw, packetLoss, k, count);
      |s| > 0 && s[|s| - 1] == count
    decreases count - k
  {
    if k + 1 < count {
      KeptLast(draw, packetLoss, k + 1, count);
      var rest := KeptFrom(draw, packetLoss, k + 1, count);
      if draw(k) >= packetLoss {
        assert KeptFrom(draw, packetLoss, k, count) == [k + 1] + rest;
      }
    }
  }

  /** The packets of an encoding run never make a fresh decoder take the out-of-order
      exit: decoding them can fail only in the library. And when the last frame is
      kept and all of them decode, the decoder conceals exactly as many frames as the
      encoder dropped. */
  lemma EncodedRunDecodes(elib: EncoderLib, calls: seq<EncCall>, input: seq<int16>, fs: nat, frameSize: int,
                          channels: int, packetLoss: int, draw: nat -> int,
                          dlib: DecoderLib, st: Session, decodeChannels: nat, sampleRate: int)
    requires fs > 0 && |input| < 0x8000_0000 && st.lastSeq == 0
    requires EncodeFrom(elib, calls, input, fs, frameSize, channels, packetLoss, draw, 0).Ok?
    ensures var run := EncodeFrom(elib, calls, input, fs, frameSize, channels, packetLoss, draw, 0).value;
      var r := DecodeAllSpec(dlib, st, run.packets, decodeChannels, sampleRate);
      && (r.Err? ==> !r.error.OutOfOrder?)
      && (r.Ok? && NumFrames(|input|, fs) > 0 && draw(NumFrames(|input|, fs) - 1) >= packetLoss ==>
            (r.value.1.plc + r.value.1.fec + r.value.1.dred) - (st.plc + st.fec + st.dred) == run.lost)
  {
    var n := NumFrames(|input|, fs);
    FrameIndex(|input|, fs, 0);
    var run := EncodeFrom(elib, calls, input, fs, frameSize, channels, packetLoss, draw, 0).value;
    var ps := run.packets;
    EncodeFromOrdered(elib, calls, input, fs, frameSize, channels, packetLoss, draw, 0);
    assert SmallSeqNums(ps);
    IncreasingNeverOutOfOrder(dlib, st, ps, decodeChannels, sampleRate);
    var r := DecodeAllSpec(dlib, st, ps, decodeChannels, sampleRate);
    if r.Ok? && n > 0 && draw(n - 1) >= packetLoss {
      EncodeFromKeeps(elib, calls, input, fs, frameSize, channels, packetLoss, draw, 0);
      KeptLast(draw, packetLoss, 0, n);
      assert ps[|ps| - 1].sequenceNumber as int == SeqNums(ps)[|ps| - 1] == n;
      CountersCountMissing(dlib, st, ps, decodeChannels, sampleRate);
    }
  }
}

=== FILE: sound_toucher.dfy ===
/** The SoundTouch-based rate converter. `RunSoundTouch` pushes 1920-sample chunks into a
    SoundTouch session, drains it after every push, then flushes once and drains again.
    Unlike the sonic driver it stops outright, leaving the output as it stands, as soon as
    a received block would not fit; an overflow in the main loop therefore skips the flush.

    The session works on floating-point samples; here its samples are the integers that
    the driver's `* 32768.0f` rescaling produces, so a received sample is an `int` that
    `saturate` clamps into the 16-bit range. */
module SoundToucher {
  import opened Ints
  import opened Stretch
  import opened AudioBuffer

  /** `saturate`: clamp `x` to `[minval, maxval]`, testing the upper bound first. */
  function Saturate(x: int, minval: int, maxval: int): (r: int)
    ensures minval <= maxval ==> minval <= r <= maxval
    ensures minval <= x <= maxval ==> r == x
    ensures x > maxval ==> r == maxval
    ensures x < minval && x <= maxval ==> r == minval
  {
    if x > maxval then maxval else if x < minval then minval else x
  }

  /** Clamping keeps order. */
  lemma SaturateMonotone(x: int, y: int, minval: int, maxval: int)
    requires minval <= maxval && x <= y
    ensures Saturate(x, minval, maxval) <= Saturate(y, minval, maxval)
  {
  }

  /** Clamping twice is clamping once. */
  lemma SaturateIdempotent(x: int, minval: int, maxval: int)
    requires minval <= maxval
    ensures Saturate(Saturate(x, minval, maxval), minval, maxval) == Saturate(x, minval, maxval)
  {
  }

  /** One output sample: the received value clamped to `[-32768, 32767]`. */
  function ToSample(x: int): (v: int16)
    ensures INT16_MIN <= x <= INT16_MAX ==> v as int == x
    ensures x > INT16_MAX ==> v == INT16_MAX as int16
    ensures x < INT16_MIN ==> v == INT16_MIN as int16
  {
    Saturate(x, INT16_MIN, INT16_MAX) as int16
  }

  /** A received block as written to the output. */
  function Saturated(s: seq<int>): (r: seq<int16>)
    ensures |r| == |s|
  {
    seq(|s|, i requires 0 <= i < |s| => ToSample(s[i]))
  }

  lemma SaturatedAppend(a: seq<int>, b: seq<int>)
    ensures Saturated(a + b) == Saturated(a) + Saturated(b)
  {
    assert forall i :: 0 <= i < |a + b| ==> Saturated(a + b)[i] == (Saturated(a) + Saturated(b))[i];
  }

  lemma SplitAt<T>(s: seq<T>, i: nat)
    requires i <= |s|
    ensures s[..i] + s[i..] == s
    ensures i == |s| ==> s[..i] == s && s[i..] == []
  {
  }

  /** The input as the session sees it: each 16-bit sample, unscaled. */
  function Widen(s: seq<int16>): (r: seq<int>)
    ensures |r| == |s|
  {
    seq(|s|, i requires 0 <= i < |s| => s[i] as int)
  }

  /** The write loop: `output[at + j] := saturate(block[j])` for every `j`. */
  method WriteSaturated(output: array<int16>, at: nat, block: seq<int>)
    requires at + |block| <= output.Length
    modifies output
    ensures output[..] == old(output[..at]) + Saturated(block) + old(output[at + |block|..])
  {
    for j := 0 to |block|
      invariant forall i :: 0 <= i < at ==> output[i] == old(output[i])
      invariant forall i :: 0 <= i < j ==> output[at + i] == ToSample(block[i])
      invariant forall i :: at + j <= i < output.Length ==> output[i] == old(output[i])
    {
      output[at + j] := ToSample(block[j]);
    }
    assert output[..] == old(output[..at]) + Saturated(block) + old(output[at + |block|..]);
  }

  class AudioSoundToucher {
    /** Number of pushes made over the handler's lifetime. */
    var putCounts: nat

    constructor ()
      ensures putCounts == 0
    {
      putCounts := 0;
    }

    /** One drain loop of `RunSoundTouch`: receive up to `BUFFER_SIZE / channels` frames
        until a receive returns nothing (`ok`), or until a block would run past the end
        of the output (`!ok`), in which case that block is received but not written. */
    method DrainBounded(stream: StretchStream<int>, output: array<int16>, outputIndex0: nat)
      returns (outputIndex: nat, ok: bool)
      requires stream.Valid() && outputIndex0 == |stream.received| && outputIndex0 <= output.Length
      requires output[..outputIndex0] == Saturated(stream.received)
      modifies stream, output
      ensures stream.Valid()
      ensures stream.pushed == old(stream.pushed) && stream.released == old(stream.released)
      ensures stream.flushes == old(stream.flushes)
      ensures outputIndex0 <= outputIndex <= output.Length && outputIndex <= |stream.received|
      ensures output[..outputIndex] == Saturated(stream.received[..outputIndex])
      ensures output[outputIndex..] == old(output[outputIndex..])
      ensures ok ==> outputIndex == |stream.received|
      ensures ok ==> |stream.queue| < stream.channels || stream.channels > BUFFER_SIZE
      ensures !ok ==> |stream.received| > output.Length && |stream.received| - outputIndex <= BUFFER_SIZE
    {
      outputIndex := outputIndex0;
      var numChannels := stream.channels;
      FloorMul(BUFFER_SIZE, numChannels);
      while true
        invariant stream.Valid()
        invariant stream.pushed == old(stream.pushed) && stream.released == old(stream.released)
        invariant stream.flushes == old(stream.flushes)
        invariant outputIndex0 <= outputIndex == |stream.received| <= output.Length
        invariant output[..outputIndex] == Saturated(stream.received)
        invariant output[outputIndex..] == old(output[outputIndex..])
        decreases |stream.queue|
      {
        ghost var got := stream.received;
        var numSamplesOut, block := stream.Read(BUFFER_SIZE / numChannels);
        if numSamplesOut <= 0 {
          ok := true;
          return;
        }
        if outputIndex + numSamplesOut * numChannels > output.Length {
          assert stream.received[..outputIndex] == got;
          MulMono(numSamplesOut, BUFFER_SIZE / numChannels, numChannels);
          ok := false;
          return;
        }
        AppendSaturated(output, outputIndex, got, block);
        outputIndex := outputIndex + numSamplesOut * numChannels;
      }
    }

    /** The write step of a drain: the received block goes, clamped, right after the
        samples already written, so the written prefix keeps matching what was received. */
    static method AppendSaturated(output: array<int16>, at: nat, ghost got: seq<int>, block: seq<int>)
      requires at == |got| && at + |block| <= output.Length
      requires output[..at] == Saturated(got)
      modifies output
      ensures output[..at + |block|] == Saturated(got + block)
      ensures output[at + |block|..] == old(output[at + |block|..])
    {
      ghost var before := output[..];
      WriteSaturated(output, at, block);
      SaturatedAppend(got, block);
      assert output[..at + |block|] == before[..at] + Saturated(block);
    }
  
    /** The copy into the float staging buffer: the `k`-th chunk, which starts at `i`,
        converted sample by sample. */
    static method LoadChunk(input: seq<int16>, i: nat, ghost k: nat) returns (buffer: seq<int>)
      requires k < NumChunks(|input|) && i == k * BUFFER_SIZE
      ensures buffer == Chunk(Widen(input), k)
    {
      ChunkIndex(|input|, k);
      var chunkLength := Min(BUFFER_SIZE, |input| - i);
      buffer := seq(chunkLength, j requires 0 <= j < chunkLength => input[i + j] as int);
      assert buffer == Chunk(Widen(input), k);
    }

    /** `RunSoundTouch`. `outputIndex` is the driver's output position and `completed`
        says whether it ran to its end rather than returning early. `received` is what
        was written, `dropped` the block that did not fit, `leftover` what the session
        still held; `pushes` counts chunks pushed and `flushed` whether the flush ran. */
    method RunSoundTouch(input: seq<int16>, output: array<int16>, numChannels: nat,
                         emit: (seq<int>, seq<int>) -> seq<int>, flushOut: seq<int> -> seq<int>)
      returns (outputIndex: nat, completed: bool, ghost pushes: nat, ghost flushed: bool,
               ghost received: seq<int>, ghost dropped: seq<int>, ghost leftover: seq<int>)
      requires numChannels > 0
      modifies this, output
      ensures putCounts == old(putCounts) + pushes && pushes <= NumChunks(|input|)
      ensures flushed ==> pushes == NumChunks(|input|)
      ensures completed ==> flushed && dropped == []
      ensures completed ==> received + leftover == Released(Widen(input), numChannels, emit, flushOut)
      ensures completed ==> |leftover| < numChannels || numChannels > BUFFER_SIZE
      ensures !completed ==> 0 < |dropped| <= BUFFER_SIZE && outputIndex + |dropped| > output.Length
      ensures !completed && flushed ==>
                received + dropped + leftover == Released(Widen(input), numChannels, emit, flushOut)
      ensures !completed && !flushed ==>
                received + dropped + leftover == EmittedUpTo(Widen(input), numChannels, emit, pushes)
      ensures outputIndex == |received| <= output.Length
      ensures output[..outputIndex] == Saturated(received)
      ensures output[outputIndex..] == old(output[outputIndex..])
    {
      var stream := new StretchStream(numChannels, emit, flushOut);
      outputIndex, completed, pushes, flushed, received, dropped, leftover := Drive(input, output, stream);
    }

    /** The body of `RunSoundTouch` once its session is open: push every chunk, then
        flush and drain a last time, stopping early at a block that does not fit. */
    method Drive(input: seq<int16>, output: array<int16>, stream: StretchStream<int>)
      returns (outputIndex: nat, completed: bool, ghost pushes: nat, ghost flushed: bool,
               ghost received: seq<int>, ghost dropped: seq<int>, ghost leftover: seq<int>)
      requires stream.Valid() && stream.flushes == 0
      requires stream.pushed == [] && stream.released == [] && stream.received == []
      modifies this, stream, output
      ensures putCounts == old(putCounts) + pushes && pushes <= NumChunks(|input|)
      ensures flushed ==> pushes == NumChunks(|input|)
      ensures completed ==> flushed && dropped == []
      ensures completed ==> received + leftover == Released(Widen(input), stream.channels, stream.emit, stream.flushOut)
      ensures completed ==> |leftover| < stream.channels || stream.channels > BUFFER_SIZE
      ensures !completed ==> 0 < |dropped| <= BUFFER_SIZE && outputIndex + |dropped| > output.Length
      ensures !completed && flushed ==>
                received + dropped + leftover == Released(Widen(input), stream.channels, stream.emit, stream.flushOut)
      ensures !completed && !flushed ==>
                received + dropped + leftover == EmittedUpTo(Widen(input), stream.channels, stream.emit, pushes)
      ensures outputIndex == |received| <= output.Length
      ensures output[..outputIndex] == Saturated(received)
      ensures output[outputIndex..] == old(output[outputIndex..])
    {
      var ok;
      outputIndex, ok, pushes := PushChunks(input, output, stream);
      flushed := ok;
      if ok {
        outputIndex, ok := FlushAndDrain(input, output, stream, outputIndex);
      }
      completed := ok;
      received, dropped, leftover := stream.received[..outputIndex], stream.received[outputIndex..], stream.queue;
      SplitAt(stream.received, outputIndex);
    }

    /** The tail of `RunSoundTouch` once every chunk is pushed: flush the session, then
        drain it a last time. */
    method FlushAndDrain(input: seq<int16>, output: array<int16>, stream: StretchStream<int>, outputIndex0: nat)
      returns (outputIndex: nat, ok: bool)
      requires stream.Valid() && stream.flushes == 0
      requires stream.pushed == PushedUpTo(Widen(input), stream.channels, NumChunks(|input|))
      requires stream.released == EmittedUpTo(Widen(input), stream.channels, stream.emit, NumChunks(|input|))
      requires outputIndex0 == |stream.received| <= output.Length
      requires output[..outputIndex0] == Saturated(stream.received)
      modifies stream, output
      ensures stream.Valid() && stream.flushes == 1
      ensures stream.released == Released(Widen(input), stream.channels, stream.emit, stream.flushOut)
      ensures outputIndex0 <= outputIndex <= output.Length && outputIndex <= |stream.received|
      ensures output[..outputIndex] == Saturated(stream.received[..outputIndex])
      ensures output[outputIndex..] == old(output[outputIndex..])
      ensures ok ==> outputIndex == |stream.received|
      ensures ok ==> |stream.queue| < stream.channels || stream.channels > BUFFER_SIZE
      ensures !ok ==> |stream.received| > output.Length && |stream.received| - outputIndex <= BUFFER_SIZE
    {
      stream.Flush();
      outputIndex, ok := DrainBounded(stream, output, outputIndex0);
    }

    /** The main loop of `RunSoundTouch`: push chunk after chunk, draining after each,
        until the input is used up (`ok`) or a drain meets a block that does not fit
        (`!ok`). */
    method PushChunks(input: seq<int16>, output: array<int16>, stream: StretchStream<int>)
      returns (outputIndex: nat, ok: bool, ghost pushes: nat)
      requires stream.Valid() && stream.flushes == 0
      requires stream.pushed == [] && stream.released == [] && stream.received == []
      modifies this, stream, output
      ensures stream.Valid() && stream.flushes == 0
      ensures putCounts == old(putCounts) + pushes && pushes <= NumChunks(|input|)
      ensures stream.pushed == PushedUpTo(Widen(input), stream.channels, pushes)
      ensures stream.released == EmittedUpTo(Widen(input), stream.channels, stream.emit, pushes)
      ensures outputIndex <= output.Length && outputIndex <= |stream.received|
      ensures output[..outputIndex] == Saturated(stream.received[..outputIndex])
      ensures output[outputIndex..] == old(output[outputIndex..])
      ensures ok ==> pushes == NumChunks(|input|) && outputIndex == |stream.received|
      ensures !ok ==> |stream.received| > output.Length && |stream.received| - outputIndex <= BUFFER_SIZE
    {
      var n := |input|;
      ghost var samples := Widen(input);
      var i := 0;
      outputIndex, pushes := 0, 0;
      while i < n
        invariant stream.Valid() && stream.flushes == 0
        invariant pushes <= NumChunks(n) && i == pushes * BUFFER_SIZE
        invariant stream.pushed == PushedUpTo(samples, stream.channels, pushes)
        invariant stream.released == EmittedUpTo(samples, stream.channels, stream.emit, pushes)
        invariant putCounts == old(putCounts) + pushes
        invariant outputIndex == |stream.received| <= output.Length
        invariant output[..outputIndex] == Saturated(stream.received)
        invariant output[outputIndex..] == old(output[outputIndex..])
        decreases n - i
      {
        ChunkIndex(n, pushes);
        var buffer := LoadChunk(input, i, pushes);
        WriteChunk(stream, samples, pushes, buffer);
        putCounts := putCounts + 1;
        pushes := pushes + 1;
        outputIndex, ok := DrainBounded(stream, output, outputIndex);
        if !ok {
          return;
        }
        i := i + BUFFER_SIZE;
      }
      ChunkIndex(n, pushes);
      ok := true;
    }

    /** `handleAudioData`: run the session over the buffer's samples into a zero-filled
        output of `outSize` samples (the source's `ceil(inputSize / speed)`, a float
        computation taken here as given), then replace the buffer's samples with the
        whole output. */
    method HandleAudioData(audio: AudioData, outSize: nat,
                           emit: (seq<int>, seq<int>) -> seq<int>, flushOut: seq<int> -> seq<int>)
      returns (handled: bool, ghost completed: bool, ghost pushes: nat, ghost flushed: bool,
               ghost received: seq<int>, ghost dropped: seq<int>, ghost leftover: seq<int>)
      requires audio.header.numChannels > 0 && |audio.data| < 0x8000_0000
      modifies this, audio`data
      ensures handled
      ensures |received| <= outSize && |audio.data| == outSize
      ensures audio.data == Saturated(received) + seq(outSize - |received|, _ => 0)
      ensures putCounts == old(putCounts) + pushes && pushes <= NumChunks(|old(audio.data)|)
      ensures flushed ==> pushes == NumChunks(|old(audio.data)|)
      ensures completed ==> flushed && dropped == []
      ensures completed ==>
                received + leftover == Released(Widen(old(audio.data)), old(audio.header.numChannels) as nat, emit, flushOut)
      ensures !completed ==> 0 < |dropped| <= BUFFER_SIZE && |received| + |dropped| > outSize
      ensures flushed ==>
                received + dropped + leftover
                  == Released(Widen(old(audio.data)), old(audio.header.numChannels) as nat, emit, flushOut)
      ensures !flushed ==>
                received + dropped + leftover
                  == EmittedUpTo(Widen(old(audio.data)), old(audio.header.numChannels) as nat, emit, pushes)
    {
      var input := audio.data;
      var output := new int16[outSize](_ => 0);
      var outputIndex;
      outputIndex, completed, pushes, flushed, received, dropped, leftover :=
        RunSoundTouch(input, output, audio.GetChannels() as nat, emit, flushOut);
      assert output[outputIndex..] == seq(outSize - |received|, _ => 0);
      assert output[..] == output[..outputIndex] + output[outputIndex..];
      audio.UpdateData(output[..]);
      handled := true;
    }
}
}

=== FILE: stretch.dfy ===
/** What the two rate-conversion drivers share: the fixed 1920-sample chunking of the
    input, and the time-stretch session they feed (sonic's stream, SoundTouch's object),
    modelled as a FIFO of released output whose content is an oracle. */
module Stretch {
  import opened Ints

  /** Input chunk size and drain buffer size of both drivers, in samples. */
  const BUFFER_SIZE: nat := 1920

  /** Number of chunks the input is cut into: the ceiling of `n / BUFFER_SIZE`. */
  function NumChunks(n: nat): nat
  {
    (n + BUFFER_SIZE - 1) / BUFFER_SIZE
  }

  /** Length of the chunk that starts at `offset`: nothing once the input is consumed,
      otherwise what is left, capped at `BUFFER_SIZE`. */
  function ChunkLength(n: nat, offset: nat): (len: nat)
    ensures offset >= n ==> len == 0
    ensures offset < n ==> 0 < len <= BUFFER_SIZE && offset + len <= n
    ensures offset < n ==> len == Min(BUFFER_SIZE, n - offset)
  {
    if offset >= n then 0 else if n - offset < BUFFER_SIZE then n - offset else BUFFER_SIZE
  }

  /** Chunk `k` starts at `k * BUFFER_SIZE` exactly when `k` is below the chunk count,
      and the chunk count is where the offsets reach the end of the input. */
  lemma ChunkIndex(n: nat, k: nat)
    ensures k * BUFFER_SIZE < n <==> k < NumChunks(n)
    ensures k == NumChunks(n) ==> Min(k * BUFFER_SIZE, n) == n
  {
  }

  /** The `k`-th chunk of the input. */
  function Chunk<T>(input: seq<T>, k: nat): (c: seq<T>)
    requires k < NumChunks(|input|)
    ensures 0 < |c| <= BUFFER_SIZE
  {
    ChunkIndex(|input|, k);
    input[k * BUFFER_SIZE .. k * BUFFER_SIZE + ChunkLength(|input|, k * BUFFER_SIZE)]
  }

  /** The first `k` chunks, back to back. */
  function Chunks<T>(input: seq<T>, k: nat): seq<T>
    requires k <= NumChunks(|input|)
  {
    if k == 0 then [] else Chunks(input, k - 1) + Chunk(input, k - 1)
  }

  /** The chunks cover the input from the start, in order, without overlap: the first
      `k` of them are exactly the first `min(k * BUFFER_SIZE, n)` samples. */
  lemma {:induction false} ChunksArePrefix<T>(input: seq<T>, k: nat)
    requires k <= NumChunks(|input|)
    ensures Chunks(input, k) == input[..Min(k * BUFFER_SIZE, |input|)]
  {
    ChunkIndex(|input|, k);
    if k > 0 {
      ChunksArePrefix(input, k - 1);
      ChunkIndex(|input|, k - 1);
      var lo := (k - 1) * BUFFER_SIZE;
      assert input[..lo] + input[lo .. Min(k * BUFFER_SIZE, |input|)] == input[..Min(k * BUFFER_SIZE, |input|)];
    }
  }

  /** All chunks together are the whole input. */
  lemma ChunksCoverInput<T>(input: seq<T>)
    ensures Chunks(input, NumChunks(|input|)) == input
  {
    ChunksArePrefix(input, NumChunks(|input|));
    ChunkIndex(|input|, NumChunks(|input|));
  }

  lemma FloorMul(n: nat, d: nat)
    requires d > 0
    ensures 0 <= n / d <= n
    ensures n / d * d <= n && n - n / d * d < d
  {
    DivBounds(n, d);
    assert n == d * (n / d) + n % d;
  }

  /** The whole frames at the front of a chunk: what "push `len / channels` frames"
      hands the transform. */
  function WholeFrames<T>(c: seq<T>, channels: nat): (f: seq<T>)
    requires channels > 0
    ensures |f| <= |c| && |c| - |f| < channels && f == c[..|f|]
  {
    FloorMul(|c|, channels);
    c[..|c| / channels * channels]
  }

  /** Pushing `|buf| / channels` frames of `buf` hands over exactly its whole frames. */
  lemma FramesFit<T>(buf: seq<T>, channels: nat, frames: nat)
    requires channels > 0 && frames == |buf| / channels
    ensures frames * channels <= |buf|
    ensures buf[..frames * channels] == WholeFrames(buf, channels)
  {
    FloorMul(|buf|, channels);
  }

  lemma WholeFramesOfMultiple<T>(c: seq<T>, channels: nat)
    requires channels > 0 && |c| % channels == 0
    ensures WholeFrames(c, channels) == c
  {
    assert |c| == |c| / channels * channels;
  }

  /** Everything the transform has been handed after `k` pushes. */
  function PushedUpTo<T>(input: seq<T>, channels: nat, k: nat): seq<T>
    requires channels > 0 && k <= NumChunks(|input|)
  {
    if k == 0 then [] else PushedUpTo(input, channels, k - 1) + WholeFrames(Chunk(input, k - 1), channels)
  }

  /** Everything the transform has released after `k` pushes: each push releases
      `emit(all pushed before, frames pushed now)`. */
  function EmittedUpTo<T>(input: seq<T>, channels: nat, emit: (seq<T>, seq<T>) -> seq<T>, k: nat): seq<T>
    requires channels > 0 && k <= NumChunks(|input|)
  {
    if k == 0 then []
    else
      var before := EmittedUpTo(input, channels, emit, k - 1);
      before + emit(PushedUpTo(input, channels, k - 1), WholeFrames(Chunk(input, k - 1), channels))
  }

  /** All the output of a complete session: every push, then the flush. */
  function Released<T>(input: seq<T>, channels: nat, emit: (seq<T>, seq<T>) -> seq<T>, flushOut: seq<T> -> seq<T>): seq<T>
    requires channels > 0
  {
    var n := NumChunks(|input|);
    EmittedUpTo(input, channels, emit, n) + flushOut(PushedUpTo(input, channels, n))
  }

  lemma MulMono(a: nat, b: nat, c: nat)
    requires a <= b
    ensures a * c <= b * c
  {
  }

  /** A read of at most `BUFFER_SIZE / channels` frames returns at most `BUFFER_SIZE` samples. */
  lemma BlockBound(frames: nat, channels: nat)
    requires channels > 0 && frames <= BUFFER_SIZE / channels
    ensures frames * channels <= BUFFER_SIZE
  {
    FloorMul(BUFFER_SIZE, channels);
    MulMono(frames, BUFFER_SIZE / channels, channels);
  }

  lemma MulAtLeast(d: nat, t: int)
    requires t >= 1
    ensures d * t >= d
  {
    if t > 1 {
      MulAtLeast(d, t - 1);
      assert d * t == d * (t - 1) + d;
    }
  }

  /** A multiple of `d` divides by `d` exactly. */
  lemma DivOfMultiple(d: nat, q: nat)
    requires d > 0
    ensures (d * q) / d == q && (d * q) % d == 0
  {
    var x := d * q;
    var t := q - x / d;
    assert d * t == x % d by {
      assert x == d * (x / d) + x % d;
      assert d * t == d * q - d * (x / d);
    }
    if t >= 1 {
      MulAtLeast(d, t);
    }
  }

  /** With whole frames in the input and a chunk size that holds whole frames, every
      chunk length is a whole number of frames. */
  lemma ChunkLengthWholeFrames(n: nat, channels: nat, k: nat)
    requires channels > 0 && BUFFER_SIZE % channels == 0 && n % channels == 0
    requires k * BUFFER_SIZE < n
    ensures ChunkLength(n, k * BUFFER_SIZE) % channels == 0
  {
    var q := BUFFER_SIZE / channels;
    var r := n / channels;
    assert BUFFER_SIZE == channels * q;
    assert n == channels * r;
    var len := ChunkLength(n, k * BUFFER_SIZE);
    if len == BUFFER_SIZE {
      DivOfMultiple(channels, q);
    } else {
      assert len == n - k * BUFFER_SIZE;
      assert k * BUFFER_SIZE == channels * (k * q) by {
        assert k * (channels * q) == channels * (k * q);
      }
      assert len == channels * (r - k * q) by {
        assert channels * r - channels * (k * q) == channels * (r - k * q);
      }
      DivOfMultiple(channels, r - k * q);
    }
  }

  /** When the channel count divides the chunk size and the input holds whole frames,
      no sample is held back at a chunk boundary: the transform is handed the whole
      input. (For other channel counts each chunk loses its trailing partial frame.) */
  lemma {:induction false} PushedAllInput<T>(input: seq<T>, channels: nat, k: nat)
    requires channels > 0 && BUFFER_SIZE % channels == 0 && |input| % channels == 0
    requires k <= NumChunks(|input|)
    ensures PushedUpTo(input, channels, k) == Chunks(input, k)
  {
    if k > 0 {
      PushedAllInput(input, channels, k - 1);
      ChunkIndex(|input|, k - 1);
      ChunkLengthWholeFrames(|input|, channels, k - 1);
      WholeFramesOfMultiple(Chunk(input, k - 1), channels);
    }
  }

  /** `std::copy` of a block into an array at an offset. */
  method CopyInto<T>(dst: array<T>, at: nat, src: seq<T>)
    requires at + |src| <= dst.Length
    modifies dst
    ensures dst[..] == old(dst[..at]) + src + old(dst[at + |src|..])
  {
    forall i | 0 <= i < |src| {
      dst[at + i] := src[i];
    }
    assert dst[..] == old(dst[..at]) + src + old(dst[at + |src|..]);
  }

  /** A time-stretch session. `emit` says what a push releases, given everything pushed
      before it; `flushOut` what the end-of-stream flush releases. Reads hand out whole
      frames from the front of the released-but-unread queue. */
  class StretchStream<T> {
    const channels: nat
    const emit: (seq<T>, seq<T>) -> seq<T>
    const flushOut: seq<T> -> seq<T>
    /** Every sample pushed so far. */
    var pushed: seq<T>
    /** Released output not yet read. */
    var queue: seq<T>
    var flushes: nat
    /** Everything released so far, and everything read so far. */
    ghost var released: seq<T>
    ghost var received: seq<T>

    ghost predicate Valid()
      reads this
    {
      channels > 0 && released == received + queue
    }

    constructor (channels: nat, emit: (seq<T>, seq<T>) -> seq<T>, flushOut: seq<T> -> seq<T>)
      requires channels > 0
      ensures Valid()
      ensures this.channels == channels && this.emit == emit && this.flushOut == flushOut
      ensures pushed == [] && queue == [] && flushes == 0 && released == [] && received == []
    {
      this.channels := channels;
      this.emit := emit;
      this.flushOut := flushOut;
      pushed, queue, flushes := [], [], 0;
      released, received := [], [];
    }

    /** Push `frames` frames from the front of `buffer`. */
    method Write(buffer: seq<T>, frames: nat)
      requires Valid() && frames * channels <= |buffer|
      modifies this
      ensures Valid()
      ensures pushed == old(pushed) + buffer[..frames * channels]
      ensures queue == old(queue) + emit(old(pushed), buffer[..frames * channels])
      ensures released == old(released) + emit(old(pushed), buffer[..frames * channels])
      ensures received == old(received) && flushes == old(flushes)
    {
      var out := emit(pushed, buffer[..frames * channels]);
      pushed := pushed + buffer[..frames * channels];
      queue := queue + out;
      released := released + out;
    }

    /** Signal end of stream: the transform releases what it still holds. */
    method Flush()
      requires Valid()
      modifies this
      ensures Valid()
      ensures queue == old(queue) + flushOut(pushed)
      ensures released == old(released) + flushOut(pushed)
      ensures pushed == old(pushed) && received == old(received) && flushes == old(flushes) + 1
    {
      var out := flushOut(pushed);
      queue := queue + out;
      released := released + out;
      flushes := flushes + 1;
    }

    /** Read up to `maxFrames` frames: as many whole frames as are queued, capped by the request. */
    method Read(maxFrames: int) returns (frames: int, block: seq<T>)
      requires Valid()
      modifies this
      ensures Valid()
      ensures frames == Max(0, Min(maxFrames, |old(queue)| / channels))
      ensures frames * channels <= |old(queue)|
      ensures block == old(queue)[..frames * channels] && queue == old(queue)[frames * channels..]
      ensures received == old(received) + block
      ensures pushed == old(pushed) && released == old(released) && flushes == old(flushes)
    {
      FloorMul(|queue|, channels);
      frames := Max(0, Min(maxFrames, |queue| / channels));
      block := queue[..frames * channels];
      assert queue == block + queue[frames * channels..];
      queue := queue[frames * channels..];
      received := received + block;
    }
  }

  /** Push `k + 1` hands over the first `frames` frames of chunk `k`, and releases
      what the transform emits for them. */
  lemma PushStep<T>(input: seq<T>, channels: nat, emit: (seq<T>, seq<T>) -> seq<T>, k: nat,
                    buffer: seq<T>, frames: nat)
    requires channels > 0 && k < NumChunks(|input|)
    requires buffer == Chunk(input, k) && frames == |buffer| / channels
    ensures frames * channels <= |buffer|
    ensures PushedUpTo(input, channels, k + 1) == PushedUpTo(input, channels, k) + buffer[..frames * channels]
    ensures EmittedUpTo(input, channels, emit, k + 1)
              == EmittedUpTo(input, channels, emit, k) + emit(PushedUpTo(input, channels, k), buffer[..frames * channels])
  {
    FramesFit(buffer, channels, frames);
  }

  /** Push chunk `k` of `input` (already copied into `buffer`) as `|buffer| / channels`
      whole frames: the transform's view moves from `k` pushes to `k + 1`. */
  method WriteChunk<T>(stream: StretchStream<T>, ghost input: seq<T>, ghost k: nat, buffer: seq<T>)
    requires stream.Valid() && k < NumChunks(|input|) && buffer == Chunk(input, k)
    requires stream.pushed == PushedUpTo(input, stream.channels, k)
    requires stream.released == EmittedUpTo(input, stream.channels, stream.emit, k)
    modifies stream
    ensures stream.Valid()
    ensures stream.received == old(stream.received) && stream.flushes == old(stream.flushes)
    ensures stream.pushed == PushedUpTo(input, stream.channels, k + 1)
    ensures stream.released == EmittedUpTo(input, stream.channels, stream.emit, k + 1)
  {
    var channels := stream.channels;
    FloorMul(|buffer|, channels);
    var frames := |buffer| / channels;
    PushStep(input, channels, stream.emit, k, buffer, frames);
    stream.Write(buffer, frames);
  }
}

=== FILE: wav_format.dfy ===
/** The canonical 44-byte RIFF/WAVE PCM header (Microsoft RIFF WAVE format, a `fmt `
    chunk with WAVE_FORMAT_PCM = 1 followed by the `data` chunk), laid out as the
    source's packed `WAVHeader` struct, and the two readers that consume it. All
    multi-byte fields are little-endian. */
module WavFormat {
  import opened Ints
  import opened Wrappers

  /** A four-character chunk tag. */
  type Tag = s: seq<uint8> | |s| == 4 witness [0, 0, 0, 0]

  const RIFF: Tag := [0x52, 0x49, 0x46, 0x46]  // "RIFF"
  const WAVE: Tag := [0x57, 0x41, 0x56, 0x45]  // "WAVE"
  const FMT: Tag := [0x66, 0x6d, 0x74, 0x20]   // "fmt "
  const DATA: Tag := [0x64, 0x61, 0x74, 0x61]  // "data"

  const HEADER_SIZE: nat := 44
  const PCM_FMT_SIZE: uint32 := 16
  const WAVE_FORMAT_PCM: uint16 := 1
  const BYTES_PER_SAMPLE: nat := 2

  datatype WavHeader = WavHeader(
    riff: Tag,
    chunkSize: uint32,      // whole file size minus 8
    wave: Tag,
    fmt: Tag,
    subchunk1Size: uint32,  // 16 for PCM
    audioFormat: uint16,    // 1 for PCM
    numChannels: uint16,
    sampleRate: uint32,
    byteRate: uint32,       // sampleRate * numChannels * bitsPerSample / 8
    blockAlign: uint16,     // numChannels * bitsPerSample / 8
    bitsPerSample: uint16,
    data: Tag,
    dataSize: uint32)       // bytes of sample data that follow the header

  /** The header's bytes, field after field with widths 4,4,4,4,4,2,2,4,4,2,2,4,4. */
  function Serialize(h: WavHeader): (b: seq<uint8>)
    ensures |b| == HEADER_SIZE
  {
    h.riff + Le32(h.chunkSize) + h.wave + h.fmt + Le32(h.subchunk1Size) + Le16(h.audioFormat)
      + Le16(h.numChannels) + Le32(h.sampleRate) + Le32(h.byteRate) + Le16(h.blockAlign)
      + Le16(h.bitsPerSample) + h.data + Le32(h.dataSize)
  }

  /** Each field sits at its offset in the header's bytes. */
  lemma SerializeFields(h: WavHeader)
    ensures var b := Serialize(h);
      && b[0..4] == h.riff && b[4..8] == Le32(h.chunkSize)
      && b[8..12] == h.wave && b[12..16] == h.fmt
      && b[16..20] == Le32(h.subchunk1Size) && b[20..22] == Le16(h.audioFormat)
      && b[22..24] == Le16(h.numChannels) && b[24..28] == Le32(h.sampleRate)
      && b[28..32] == Le32(h.byteRate) && b[32..34] == Le16(h.blockAlign)
      && b[34..36] == Le16(h.bitsPerSample)
      && b[36..40] == h.data && b[40..44] == Le32(h.dataSize)
  {
    var p1 := h.riff + Le32(h.chunkSize);
    var p2 := p1 + h.wave;
    var p3 := p2 + h.fmt;
    var p4 := p3 + Le32(h.subchunk1Size);
    var p5 := p4 + Le16(h.audioFormat);
    var p6 := p5 + Le16(h.numChannels);
    var p7 := p6 + Le32(h.sampleRate);
    var p8 := p7 + Le32(h.byteRate);
    var p9 := p8 + Le16(h.blockAlign);
    var p10 := p9 + Le16(h.bitsPerSample);
    var p11 := p10 + h.data;
    var b := p11 + Le32(h.dataSize);
    assert b == Serialize(h);
    Split(p11, Le32(h.dataSize));
    Split(p10, h.data);
    Split(p9, Le16(h.bitsPerSample));
    Split(p8, Le16(h.blockAlign));
    Split(p7, Le32(h.byteRate));
    Split(p6, Le32(h.sampleRate));
    Split(p5, Le16(h.numChannels));
    Split(p4, Le16(h.audioFormat));
    Split(p3, Le32(h.subchunk1Size));
    Split(p2, h.fmt);
    Split(p1, h.wave);
    Split(h.riff, Le32(h.chunkSize));
    SliceOfPrefix(b, p11, 36, 40);
    SliceOfPrefix(b, p10, 34, 36);
    SliceOfPrefix(b, p9, 32, 34);
    SliceOfPrefix(b, p8, 28, 32);
    SliceOfPrefix(b, p7, 24, 28);
    SliceOfPrefix(b, p6, 22, 24);
    SliceOfPrefix(b, p5, 20, 22);
    SliceOfPrefix(b, p4, 16, 20);
    SliceOfPrefix(b, p3, 12, 16);
    SliceOfPrefix(b, p2, 8, 12);
    SliceOfPrefix(b, p1, 4, 8);
    SliceOfPrefix(b, h.riff, 0, 4);
  }

  lemma Split(p: seq<uint8>, q: seq<uint8>)
    ensures (p + q)[..|p|] == p && (p + q)[|p|..] == q
  {
  }

  lemma SliceOfPrefix(b: seq<uint8>, p: seq<uint8>, i: nat, j: nat)
    requires i <= j == |p| <= |b| && b[..|p|] == p
    ensures b[i..j] == p[i..]
  {
    assert b[i..j] == b[..|p|][i..];
  }

  /** Two 44-byte blocks whose thirteen fields agree are the same block. */
  lemma SameFields(s: seq<uint8>, b: seq<uint8>)
    requires |s| == HEADER_SIZE && |b| == HEADER_SIZE
    requires s[0..4] == b[0..4] && s[4..8] == b[4..8] && s[8..12] == b[8..12]
    requires s[12..16] == b[12..16] && s[16..20] == b[16..20] && s[20..22] == b[20..22]
    requires s[22..24] == b[22..24] && s[24..28] == b[24..28] && s[28..32] == b[28..32]
    requires s[32..34] == b[32..34] && s[34..36] == b[34..36] && s[36..40] == b[36..40]
    requires s[40..44] == b[40..44]
    ensures s == b
  {
    forall i | 0 <= i < HEADER_SIZE
      ensures s[i] == b[i]
    {
      var lo := if i < 4 then 0 else if i < 8 then 4 else if i < 12 then 8 else if i < 16 then 12
        else if i < 20 then 16 else if i < 22 then 20 else if i < 24 then 22 else if i < 28 then 24
        else if i < 32 then 28 else if i < 34 then 32 else if i < 36 then 34 else if i < 40 then 36
        else 40;
      var hi := if i < 4 then 4 else if i < 8 then 8 else if i < 12 then 12 else if i < 16 then 16
        else if i < 20 then 20 else if i < 22 then 22 else if i < 24 then 24 else if i < 28 then 28
        else if i < 32 then 32 else if i < 34 then 34 else if i < 36 then 36 else if i < 40 then 40
        else 44;
      assert s[lo..hi] == b[lo..hi];
      assert s[i] == s[lo..hi][i - lo] && b[i] == b[lo..hi][i - lo];
    }
  }

  /** The struct read back from 44 raw bytes. */
  function Deserialize(b: seq<uint8>): (h: WavHeader)
    requires |b| == HEADER_SIZE
  {
    WavHeader(b[0..4], FromLe32(b[4..8]), b[8..12], b[12..16], FromLe32(b[16..20]),
      FromLe16(b[20..22]), FromLe16(b[22..24]), FromLe32(b[24..28]), FromLe32(b[28..32]),
      FromLe16(b[32..34]), FromLe16(b[34..36]), b[36..40], FromLe32(b[40..44]))
  }

  /** Every header survives its byte image. */
  lemma DeserializeSerialize(h: WavHeader)
    ensures Deserialize(Serialize(h)) == h
  {
    SerializeFields(h);
  }

  /** Every 44-byte block is the image of exactly the header read from it. */
  lemma SerializeDeserialize(b: seq<uint8>)
    requires |b| == HEADER_SIZE
    ensures Serialize(Deserialize(b)) == b
  {
    SerializeFields(Deserialize(b));
    Le32OfFromLe32(b[4..8]);
    Le32OfFromLe32(b[16..20]);
    Le16OfFromLe16(b[20..22]);
    Le16OfFromLe16(b[22..24]);
    Le32OfFromLe32(b[24..28]);
    Le32OfFromLe32(b[28..32]);
    Le16OfFromLe16(b[32..34]);
    Le16OfFromLe16(b[34..36]);
    Le32OfFromLe32(b[40..44]);
    SameFields(Serialize(Deserialize(b)), b);
  }

  datatype WavError = HeaderTruncated | NotRiffWave

  /** `readWAVHeader` over the file's bytes: 44 bytes must be present and carry "RIFF"
      at offset 0 and "WAVE" at offset 8; no other field is looked at. */
  function ReadWavHeader(file: seq<uint8>): (r: Result<WavHeader, WavError>)
    ensures r.Ok? <==> |file| >= HEADER_SIZE && file[0..4] == RIFF && file[8..12] == WAVE
    ensures r.Ok? ==> Serialize(r.value) == file[..HEADER_SIZE]
    ensures r == Err(HeaderTruncated) <==> |file| < HEADER_SIZE
  {
    if |file| < HEADER_SIZE then Err(HeaderTruncated)
    else
      var h := Deserialize(file[..HEADER_SIZE]);
      SerializeDeserialize(file[..HEADER_SIZE]);
      if h.riff != RIFF || h.wave != WAVE then Err(NotRiffWave) else Ok(h)
  }

  /** The byte at `p` of the sample buffer after the read: the file's byte when the file
      has one there, otherwise the zero `resize` put there. */
  function BodyByte(file: seq<uint8>, p: nat): uint8
  {
    if p < |file| then file[p] else 0
  }

  /** `readWAVData`: `dataSize / 2` samples, the k-th from the two bytes at
      `44 + 2k`; bytes missing from a short file read as zero. */
  function ReadWavData(h: WavHeader, file: seq<uint8>): (samples: seq<int16>)
    ensures |samples| == h.dataSize / BYTES_PER_SAMPLE
    ensures forall k :: 0 <= k < |samples| && HEADER_SIZE + 2 * k + 2 <= |file| ==>
      samples[k] == SampleFromLe(file[HEADER_SIZE + 2 * k .. HEADER_SIZE + 2 * k + 2])
    ensures forall k :: 0 <= k < |samples| && |file| == HEADER_SIZE + 2 * k + 1 ==>
      samples[k] == file[HEADER_SIZE + 2 * k] as int
    ensures forall k :: 0 <= k < |samples| && |file| <= HEADER_SIZE + 2 * k ==> samples[k] == 0
  {
    seq(h.dataSize / BYTES_PER_SAMPLE, (k: nat) =>
      SampleFromLe([BodyByte(file, HEADER_SIZE + 2 * k), BodyByte(file, HEADER_SIZE + 2 * k + 1)]))
  }

  /** Bytes the source asks the stream for: the whole `dataSize`. */
  function ReadRequestAsWritten(h: WavHeader): nat { h.dataSize }

  /** Bytes of room in the vector the source reads into. */
  function ReadCapacity(h: WavHeader): nat { BYTES_PER_SAMPLE * (h.dataSize / BYTES_PER_SAMPLE) }

  /** For a file whose header is accepted, the source's read overruns its buffer, by one
      byte, exactly when the low byte of the declared `dataSize` (file offset 40) is odd. */
  lemma ReadOverrunsIffOdd(file: seq<uint8>)
    requires ReadWavHeader(file).Ok?
    ensures var h := ReadWavHeader(file).value;
      && (ReadRequestAsWritten(h) > ReadCapacity(h) <==> file[40] % 2 == 1)
      && ReadRequestAsWritten(h) <= ReadCapacity(h) + 1
  {
    var h := ReadWavHeader(file).value;
    assert h.dataSize == FromLe32(file[40..44]);
    Le32Parity(file[40..44]);
    HalveDown(h.dataSize);
  }

  /** A little-endian 32-bit value is odd exactly when its low byte is. */
  lemma Le32Parity(b: seq<uint8>)
    requires |b| == 4
    ensures FromLe32(b) % 2 == b[0] % 2
  {
    var rest := 128 * (b[1] as int) + 0x8000 * (FromLe16(b[2..]) as int);
    assert FromLe32(b) == b[0] as int + 2 * rest;
  }

  /** Rounding down to a whole number of 2-byte samples loses one byte exactly when the
      count is odd. */
  lemma HalveDown(n: nat)
    ensures n > BYTES_PER_SAMPLE * (n / BYTES_PER_SAMPLE) <==> n % 2 == 1
    ensures n <= BYTES_PER_SAMPLE * (n / BYTES_PER_SAMPLE) + 1
  {
  }

  /** A header declaring 45 data bytes: the vector holds 44 bytes, the read asks for 45. */
  lemma ReadOverrunExample()
    ensures var h := WavHeader(RIFF, 81, WAVE, FMT, 16, 1, 1, 8000, 16000, 2, 16, DATA, 45);
      ReadCapacity(h) == 44 && ReadRequestAsWritten(h) == 45
  {
  }

  /** The read the model performs: only the whole samples the vector holds, so the
      samples `ReadWavData` produces occupy exactly the bytes requested. */
  function ReadRequest(h: WavHeader): (n: nat)
    ensures n <= ReadCapacity(h) && n == BYTES_PER_SAMPLE * |ReadWavData(h, [])|
    ensures n == ReadRequestAsWritten(h) || n + 1 == ReadRequestAsWritten(h)
  {
    BYTES_PER_SAMPLE * (h.dataSize / BYTES_PER_SAMPLE)
  }

  /** `loadFromFile`: the header and then the samples; a bad header stops the load. */
  function LoadWav(file: seq<uint8>): (r: Result<(WavHeader, seq<int16>), WavError>)
    ensures r.Ok? <==> ReadWavHeader(file).Ok?
    ensures r.Ok? ==> |r.value.1| == r.value.0.dataSize / BYTES_PER_SAMPLE
  {
    match ReadWavHeader(file)
    case Err(e) => Err(e)
    case Ok(h) => Ok((h, ReadWavData(h, file)))
  }
}

=== FILE: wrappers.dfy ===
/** Option and Result, the failure-carrying values used for the source's null pointers,
    exceptions and early exits. */
module Wrappers {

  datatype Option<+T> = None | Some(value: T)

  datatype Result<+T, +E> = Ok(value: T) | Err(error: E)
}
